=== FILE: README.md ===
# TrilokGPT retrieval core in Dafny

TrilokGPT is a retrieval-augmented question-answering backend. An uploaded
document (PDF, DOCX, TXT or an image) goes through these steps:

- its text is extracted (OCR for images, with a file-name fallback);
- its language is guessed (English or Hindi);
- it is cut into sentence-aligned chunks;
- each chunk is embedded by an Ollama embedding model;
- the chunks go into an in-memory vector store.

A question is embedded the same way. The store returns the chunks with the
highest cosine similarity, and the answer is either a Groq generation over
the top contexts or a fallback built from them.

This project models that core as pure functions over immutable values.

- **Vector store.** The store is two insertion-ordered JS `Map`s, modelled
  as association lists (`OrderedMap`). `VectorStore` threads the store
  through add, delete, search and statistics. The embedding service, the
  LLMs and `Math.sqrt` are parameters.
- **Chunkers.** The four chunkers of `TextChunker`, with the sentence regex
  `[^.!?]*[.!?]+` modelled in `Sentences`.
- **Language detection.** `LanguageDetector`.
- **Routes.** The answer selection of `/api/query` and `/api/ask`
  (`QueryRoutes`), and the document pipeline after upload (`Ingestion`).
- **Small helpers.** MIME classification (`FileTypes`), the OCR file-name
  fallback (`OcrFallback`), the API-key list (`ApiKeys`), and the Ollama
  prompt, answer and language-reply logic (`Ollama`).

Support modules:

- `Wrappers`: `Option` and `Result`.
- `Json`: JSON values and objects.
- `JsStrings`: JS `trim`, `substring`, `join`, ASCII `toLowerCase` and
  `String(n)`.
- `Similarity`: dot products, norms and cosine, with Cauchy-Schwarz
  proved.
- `Ranking`: the stable descending sort and `slice(0, topK)`.
- `ChunkLoops`: the two non-terminating chunker loops, next to corrected
  versions of them.

## Model

| member | source | states |
|---|---|---|
| OrderedMap.SetKeys | backend/src/modules/embedding.js:78-93 | `Map.set` on a present key keeps the key order; on a new key it appends the key at the end |
| OrderedMap.SetGetSame | backend/src/modules/embedding.js:87-92 | after `set(k, v)`, `get(k)` is `v` |
| OrderedMap.SetGetOther | backend/src/modules/embedding.js:87-92 | `set(k, v)` leaves every other key's value unchanged |
| OrderedMap.FilterGet | backend/src/modules/embedding.js:219-224 | deleting every key that fails a test leaves exactly the passing keys, with their values |
| OrderedMap.FilterSize | backend/src/modules/embedding.js:218-227 | the kept entries plus the dropped count make up the whole map |
| OrderedMap.DeleteUndoesFreshSet | backend/src/modules/embedding.js:225 | deleting a key that was freshly set restores the map |
| OrderedMap.SetAllGet | backend/src/modules/ollama.js:50-55 | in the object spread `{...m, ...src}`, a key of `src` takes `src`'s value; any other key keeps `m`'s |
| VectorStore.ChunkKeyInjective | backend/src/modules/embedding.js:86 | the chunk id `docId:i` determines `i` |
| VectorStore.AddDocument | backend/src/modules/embedding.js:71-101 | fails, with the source's message, exactly when the chunk and embedding counts differ; otherwise reports `chunkCount` = the number of chunks |
| VectorStore.AddDocumentEffect | backend/src/modules/embedding.js:77-96 | the index entry of `docId` is the metadata with `chunkCount` and `createdAt`; key `docId:i` holds chunk `i` for every `i < n`; no other document and no other key changes |
| VectorStore.DocEntryFields | backend/src/modules/embedding.js:78-82 | in `{...metadata, chunkCount, createdAt}` the last two fields override the metadata; every other field is the metadata's |
| VectorStore.StaleChunksSurvive | backend/src/modules/embedding.js:85-93 | re-adding a document leaves its chunks at indices `>= n` from the earlier version in place |
| VectorStore.AddDocumentValid | backend/src/modules/embedding.js:77-93 | adding keeps both maps free of duplicate keys |
| VectorStore.DeleteDocument | backend/src/modules/embedding.js:217-228 | the count it returns plus the remaining chunks equals the chunks before; the index entry is gone |
| VectorStore.DeleteDocumentEffect | backend/src/modules/embedding.js:219-225 | exactly the keys starting with `docId:` are removed; other documents' index entries are unchanged |
| VectorStore.DeleteAbsent | backend/src/modules/embedding.js:217-228 | deleting a document with no chunks returns 0 and leaves the chunks as they were |
| VectorStore.DeleteTwice | backend/src/modules/embedding.js:217-228 | a second delete returns 0 and changes nothing |
| VectorStore.GetStats | backend/src/modules/embedding.js:234-243 | the totals are the two map sizes; the listing has one entry per document, in insertion order |
| VectorStore.ListingFields | backend/src/modules/embedding.js:238-241 | in `{docId, ...meta}` a metadata field shadows `docId`; otherwise `docId` is the id |
| VectorStore.AddThenDelete | backend/src/modules/embedding.js:71-228 | adding a fresh document and deleting it restores the store and returns the number of chunks added |
| VectorStore.AddThenDeleteStats | backend/src/modules/embedding.js:234-243 | add then delete of a fresh document restores `totalChunks` and `totalDocuments` |
| VectorStore.PrefixSeparatesDocuments | backend/src/modules/embedding.js:220 | for ids without `:`, a chunk key starts with `d:` exactly when it belongs to `d` |
| VectorStore.AddDocumentWellFormed | backend/src/modules/embedding.js:85-93 | adding a document whose id has no `:` keeps every key equal to `docId:chunkIndex` of its chunk |
| VectorStore.DeleteOwnChunks | backend/src/modules/embedding.js:217-228 | in a well-formed store, delete removes exactly the chunks whose `docId` is `d` |
| VectorStore.ColonIdsCollide | backend/src/modules/embedding.js:220 | an id containing `:` makes another document's delete remove its chunks (`a:1` is removed by deleting `a`) |
| Similarity.CauchySchwarz | backend/src/modules/embedding.js:156-164 | the squared dot product is at most the product of the squared norms |
| Similarity.Cosine | backend/src/modules/embedding.js:151-168 | 0 when a vector is missing or the lengths differ; 0 when a norm is 0; always within [-1, 1] (not [0, 1] as its doc comment says) |
| Similarity.CosineBounded | backend/src/modules/embedding.js:166-167 | a non-zero denominator means both norms are positive, and the quotient lies in [-1, 1] |
| Similarity.CosineSelf | backend/src/modules/embedding.js:151-168 | a non-zero vector has similarity 1 with itself |
| Similarity.CosineSymmetric | backend/src/modules/embedding.js:151-168 | the similarity does not depend on argument order |
| Ranking.Sort | backend/src/modules/embedding.js:123-124 | the sort is a permutation of the scored chunks |
| Ranking.SortSorted | backend/src/modules/embedding.js:124 | the sorted list has non-increasing similarity |
| Ranking.SortStable | backend/src/modules/embedding.js:124 | chunks with equal similarity keep their store order, because the sort is stable |
| Ranking.TopK | backend/src/modules/embedding.js:123-125 | the result is a sorted prefix of the sorted list, of length `min(topK, N)` for `topK >= 0` and `max(N + topK, 0)` for negative `topK` (`slice`) |
| Ranking.TopKDominates | backend/src/modules/embedding.js:123-125 | every returned chunk scores at least as high as every omitted one |
| Ranking.NegativeTopK | backend/src/modules/embedding.js:125 | a negative `topK` drops that many results from the end |
| VectorStore.Scores | backend/src/modules/embedding.js:112-120 | every stored chunk is scored exactly once, in store order, against the query |
| VectorStore.SimilaritySearch | backend/src/modules/embedding.js:109-126 | a sorted prefix of the sorted scores of the requested length; with `topK >= N` it returns every chunk; every score is in [-1, 1] |
| VectorStore.SearchTieOrder | backend/src/modules/embedding.js:123-125 | among equal scores, the returned chunks are the first ones in store order, in that order |
| VectorStore.SearchDominates | backend/src/modules/embedding.js:123-125 | every returned chunk scores at least as high as every omitted chunk |
| VectorStore.GenerateEmbedding | backend/src/modules/embedding.js:23-43 | succeeds exactly on a reply with a non-empty `embeddings` list and returns its first entry; otherwise fails with `Embedding generation failed: ...` |
| VectorStore.EmbeddingOrNull | backend/src/modules/embedding.js:53-59 | a chunk's entry is null exactly when its embedding call failed, and is that embedding otherwise |
| VectorStore.EmbedBatch | backend/src/modules/embedding.js:50-62 | the loop returns one entry per chunk, in order, null exactly where the call failed |
| VectorStore.Query | backend/src/modules/embedding.js:134-143 | fails exactly when embedding the question fails; otherwise returns the search for that embedding |
| JsStrings.TrimEmptyIffBlank | backend/src/modules/textChunker.js:15 | `trim()` is empty exactly when every character is JS whitespace |
| JsStrings.DecimalRoundTrip | backend/src/modules/embedding.js:86 | the decimal digits of a chunk index read back as that index |
| Sentences.MatchesEmpty | backend/src/modules/textChunker.js:107 | the regex finds no sentence exactly when the text has no `.`, `!` or `?` |
| Sentences.MatchesCover | backend/src/modules/textChunker.js:107 | the matches, concatenated, are a prefix of the text, and what follows holds no terminator |
| Sentences.MatchesMaximal | backend/src/modules/textChunker.js:107 | every match after the first starts with a non-terminator, since `[.!?]+` is greedy |
| Sentences.MatchesOfConcat | backend/src/modules/textChunker.js:107 | sentences with these shapes, followed by a terminator-free tail, are matched back one for one |
| TextChunker.LastIndexOf | backend/src/modules/textChunker.js:34-37 | `lastIndexOf(c, from)`: the last `c` at or before `from`, or -1 |
| TextChunker.WindowEnd | backend/src/modules/textChunker.js:30-42 | each window ends after its start and at most `charSize + 1` past it, since `lastIndexOf(ch, end)` includes `end` |
| TextChunker.WindowEndIsLastBreak | backend/src/modules/textChunker.js:33-42 | the window ends just after the last break character beyond `start + 0.7 * charSize`, when there is one |
| TextChunker.WindowBreaksAtTerminator | backend/src/modules/textChunker.js:33-42 | in collapsed text a window ends at the full width, at the text's end, or after a `.`, `!` or `?` beyond 70% of the width; the newline candidate never fires |
| TextChunker.ChunkByTokens | backend/src/modules/textChunker.js:14-50 | blank text gives `[]`; every chunk is non-empty, trimmed and at most `4 * chunkSize + 1` long |
| TextChunker.ChunkByTokensKeepsText | backend/src/modules/textChunker.js:20-49 | the chunks, concatenated, hold the text's non-space characters in order |
| TextChunker.GroupsPartition | backend/src/modules/textChunker.js:74-78 | without overlap the sentence groups partition the sentences in order |
| TextChunker.ChunkBySentences | backend/src/modules/textChunker.js:59-81 | blank text gives `[]`; every chunk is non-empty and trimmed |
| TextChunker.ChunkBySentencesGroups | backend/src/modules/textChunker.js:65-80 | the chunks are the joined groups of at most `perChunk` consecutive sentences, and the groups partition the sentences |
| TextChunker.ChunkBySentencesKeepsText | backend/src/modules/textChunker.js:65-80 | the chunks hold the sentences' non-space characters in order |
| TextChunker.SplitParagraphs | backend/src/modules/textChunker.js:94 | `split(/\n\n+/)` gives at least one piece, and no piece contains two consecutive newlines |
| TextChunker.SplitParagraphsKeepsText | backend/src/modules/textChunker.js:94 | the pieces hold the text's non-space characters in order |
| TextChunker.ChunkByParagraphs | backend/src/modules/textChunker.js:88-97 | blank text gives `[]`; every paragraph is non-empty, trimmed and free of blank-line breaks |
| TextChunker.ChunkByParagraphsKeepsText | backend/src/modules/textChunker.js:88-97 | the paragraphs hold the text's non-space characters in order |
| TextChunker.Tokens | backend/src/modules/textChunker.js:113 | `Math.ceil(length / 4)` |
| TextChunker.SmartChunk | backend/src/modules/textChunker.js:106-131 | every chunk is non-empty and trimmed |
| TextChunker.GreedyPartition | backend/src/modules/textChunker.js:112-124 | the groups partition the sentences in order, with no overlap (`overlapTokens` is unused) |
| TextChunker.GreedyFits | backend/src/modules/textChunker.js:115-123 | a group of two or more sentences stays within `maxTokens`; only a single sentence may exceed it |
| TextChunker.GreedyMaximal | backend/src/modules/textChunker.js:115 | a group is closed only when the next sentence would push it over `maxTokens` |
| TextChunker.SmartChunkIsGreedy | backend/src/modules/textChunker.js:106-131 | `smartChunk` is the greedy grouping of the regex sentences, each group joined by spaces and trimmed, with empty chunks dropped |
| TextChunker.SmartChunkKeepsText | backend/src/modules/textChunker.js:107-130 | the chunks hold the matched sentences' non-space characters in order |
| TextChunker.SmartChunkNoTerminator | backend/src/modules/textChunker.js:107 | text without a terminator is one chunk, its trimmed self, or none when blank |
| TextChunker.SmartChunkBlank | backend/src/modules/textChunker.js:107-130 | blank text gives `[]` |
| TextChunker.SmartChunkSingletons | backend/src/modules/textChunker.js:112-124 | when no two adjacent sentences fit together, every sentence is its own chunk |
| TextChunker.SmartChunkDropsTail | backend/src/modules/textChunker.js:107 | once the text has a terminator, whatever follows the last terminator is lost |
| TextChunker.GetStats | backend/src/modules/textChunker.js:138-153 | the count and total length; `totalTokens = ceil(total / 4)`; all zero for no chunks; `min <= max` |
| TextChunker.GetStatsBounds | backend/src/modules/textChunker.js:141-151 | min and max are attained by some chunk and bound every chunk; the average, an exact rational, lies between them |
| ChunkLoops.TokensRunNeverEnds | backend/src/modules/textChunker.js:29-47 | with a positive overlap the `chunkByTokens` loop never ends for non-blank text, whatever the step budget |
| ChunkLoops.TokensRunWithoutOverlap | backend/src/modules/textChunker.js:29-47 | with no overlap the loop ends and visits exactly the windows `ChunkByTokens` uses |
| ChunkLoops.SentencesRunNeverEnds | backend/src/modules/textChunker.js:74-78 | with a positive overlap the `chunkBySentences` loop never ends |
| ChunkLoops.RangesCover | backend/src/modules/textChunker.js:29-47 | the corrected loop's windows cover every position of the text |
| ChunkLoops.ChunkByTokensFixed | backend/src/modules/textChunker.js:14-50 | the corrected chunker terminates for every overlap; its chunks are non-empty, trimmed and within the width |
| ChunkLoops.ChunkByTokensFixedNoOverlap | backend/src/modules/textChunker.js:14-50 | without overlap the corrected chunker agrees with the original |
| ChunkLoops.ChunkBySentencesFixed | backend/src/modules/textChunker.js:59-81 | the corrected sentence chunker terminates for every overlap; its chunks are non-empty and trimmed |
| ChunkLoops.ChunkBySentencesFixedNoOverlap | backend/src/modules/textChunker.js:59-81 | without overlap it agrees with the original |
| LanguageDetector.CountsDisjoint | backend/src/utils/languageDetector.js:18-22 | Devanagari and ASCII-letter counts together never exceed the length |
| LanguageDetector.PercentAbove | backend/src/utils/languageDetector.js:26-36 | `count / total * 100 > t` exactly when `100 * count > t * total` |
| LanguageDetector.Detect | backend/src/utils/languageDetector.js:12-43 | the answer is always `en` or `hi` (never `mixed`); blank text is `en` |
| LanguageDetector.DetectThresholds | backend/src/utils/languageDetector.js:34-42 | the cascade with exact integer thresholds: `5 * dev > len` gives hi, else `5 * latin > 4 * len` gives en, else more than 3 Hindi words gives hi, else en |
| LanguageDetector.DevanagariTextIsHindi | backend/src/utils/languageDetector.js:34-35 | non-blank, all-Devanagari text is `hi` |
| LanguageDetector.LatinTextIsEnglish | backend/src/utils/languageDetector.js:34-37 | text over 80% ASCII letters is `en` |
| LanguageDetector.WordCountDecidesMiddle | backend/src/utils/languageDetector.js:38-41 | the Hindi-word count matters only for non-blank text below both script thresholds, and there it gives `hi` exactly when above 3 |
| LanguageDetector.DetectWithConfidence | backend/src/utils/languageDetector.js:50-83 | the language always equals `detect`'s; the confidence lies in (0.2, 1]; blank text gives `en` with 0.5 |
| LanguageDetector.ConfidenceOfDevanagari | backend/src/utils/languageDetector.js:71-73 | text over 20% Devanagari gives `hi` with the Devanagari share plus 0.1 per Hindi word, capped at 1, in exact arithmetic |
| LanguageDetector.ConfidenceDefault | backend/src/utils/languageDetector.js:68-82 | non-blank text below both script thresholds with at most three Hindi words keeps the default `en` at 0.5 |
| LanguageDetector.ClassifyFacts | backend/src/utils/languageDetector.js:68-82 | the branch cascade on the percentages, and the confidence bound |
| LanguageDetector.ConfidenceOfEnglish | backend/src/utils/languageDetector.js:74-76 | in the English branch the confidence is `latin / length`, in exact arithmetic |
| LanguageDetector.ConfidenceOfHindiWords | backend/src/utils/languageDetector.js:77-82 | in the Hindi-word branch the confidence is `0.7 + 0.05 * count`, capped at 1, in exact arithmetic |
| LanguageDetector.GetLanguageName | backend/src/utils/languageDetector.js:90-97 | `en`, `hi` and `mixed` map to their names; a key inherited from `Object.prototype` yields that member; anything else is `Unknown` |
| FileTypes.FirstListing | backend/src/utils/fileManager.js:179-184 | the first category, in table order, whose list holds the MIME type |
| FileTypes.SupportedIffListed | backend/src/utils/fileManager.js:164-171 | `isSupportedType` holds exactly when some list holds the type |
| FileTypes.GetFileTypeCategory | backend/src/utils/fileManager.js:178-185 | the result is `UNKNOWN` or a category whose list holds the type |
| FileTypes.SupportedTypesDisjoint | backend/src/utils/fileManager.js:151-157 | no MIME type is in two lists, so the category is unique |
| FileTypes.UnknownIffUnsupported | backend/src/utils/fileManager.js:164-185 | `UNKNOWN` exactly for unsupported types |
| FileTypes.CategoryOfListed | backend/src/utils/fileManager.js:178-185 | a listed type gets the category that lists it |
| FileTypes.Examples | backend/src/utils/fileManager.js:151-185 | `application/msword` is DOC; matching is case-sensitive |
| OcrFallback.LastSegment | backend/src/modules/ocrFallback.js:44 | `split(/[\\/]/).pop()`: the longest separator-free suffix |
| OcrFallback.Basename | backend/src/modules/ocrFallback.js:44 | an empty last segment becomes `image` |
| OcrFallback.StripExtension | backend/src/modules/ocrFallback.js:45 | either the name is unchanged, or exactly one `.ext` (one or more characters other than `.` and `/`) is removed from the end |
| OcrFallback.StripExtensionOf | backend/src/modules/ocrFallback.js:45 | `name + "." + ext` strips back to `name` |
| OcrFallback.SpaceDashes | backend/src/modules/ocrFallback.js:49 | every `-` and `_` becomes a space, and nothing else changes |
| OcrFallback.SplitCamel | backend/src/modules/ocrFallback.js:50 | one space is inserted per lower-upper pair |
| OcrFallback.SplitCamelSeparates | backend/src/modules/ocrFallback.js:50 | only spaces are added, and afterwards no lower-case letter precedes an upper-case one |
| OcrFallback.CreateEmptyResult | backend/src/modules/ocrFallback.js:31-38 | the placeholder text, confidence 0, source `fallback` and the path |
| OcrFallback.ExtractFromFilename | backend/src/modules/ocrFallback.js:43-61 | null exactly when the readable name has at most one character; otherwise `[From filename: ...]` with confidence 10 |
| OcrFallback.ExtractWithGoogle | backend/src/modules/ocrFallback.js:11-25 | always null, with or without a key |
| OcrFallback.ExtractWithFallbacks | backend/src/modules/ocrFallback.js:66-89 | the answer is never empty |
| OcrFallback.FallbacksOutcome | backend/src/modules/ocrFallback.js:66-89 | the file-name text when there is one, otherwise the placeholder, whatever the key |
| OcrFallback.FilenameExamples | backend/src/modules/ocrFallback.js:44-50 | `a.tar.gz` loses only `.gz`; `scans/` reads as `image`; `xY` becomes `x Y` |
| ApiKeys.Hex | backend/src/utils/apiKeyManager.js:24 | two lowercase hex digits per byte |
| ApiKeys.HexRoundTrip | backend/src/utils/apiKeyManager.js:24 | the hex string decodes back to the bytes |
| ApiKeys.GenerateKey | backend/src/utils/apiKeyManager.js:22-27 | `sk_` followed by hex digits; 64 characters for 48 bytes |
| ApiKeys.KeyEncodesBytes | backend/src/utils/apiKeyManager.js:22-27 | the key holds the first 30 bytes and the high nibble of the 31st |
| ApiKeys.SameKeyIff | backend/src/utils/apiKeyManager.js:22-27 | two byte strings give the same key exactly when they agree on those 30.5 bytes |
| ApiKeys.CreateKey | backend/src/utils/apiKeyManager.js:32-51 | appends one record with `lastUsed` null and `requestCount` 0, keeps the others, and returns its key, name and time |
| ApiKeys.FindKey | backend/src/utils/apiKeyManager.js:57-87 | the first record holding the key, or none |
| ApiKeys.NextCount | backend/src/utils/apiKeyManager.js:64 | a missing count counts as 0 |
| ApiKeys.ValidateKey | backend/src/utils/apiKeyManager.js:56-68 | an unknown key is invalid and changes nothing; a known key updates only the first matching record's `lastUsed` and count |
| ApiKeys.DeleteKey | backend/src/utils/apiKeyManager.js:86-94 | removes only the first matching record and answers true; answers false and changes nothing when absent |
| ApiKeys.Mask | backend/src/utils/apiKeyManager.js:75 | a 64-character key shows as its first 4 characters, `...` and its last 4 (11 characters) |
| ApiKeys.GetAllKeys | backend/src/utils/apiKeyManager.js:73-81 | one masked view per record, in order |
| ApiKeys.FindIffOccurs | backend/src/utils/apiKeyManager.js:57-87 | a key is found exactly when some record holds it |
| ApiKeys.DeleteRemovesOne | backend/src/utils/apiKeyManager.js:86-94 | delete removes exactly one occurrence of a present key |
| ApiKeys.CreateThenDelete | backend/src/utils/apiKeyManager.js:32-94 | deleting a freshly created key restores the list |
| ApiKeys.CreateThenValidate | backend/src/utils/apiKeyManager.js:32-68 | validating a fresh key succeeds and yields count 1 and the new time |
| Ollama.PayloadField | backend/src/modules/ollama.js:50-55 | caller options override `model`, `prompt` and `stream`; the other defaults stand |
| Ollama.PayloadCarriesPrompt | backend/src/modules/ollama.js:50-55 | without overriding options the payload carries the prompt and `stream: false` |
| Ollama.DefaultsGet | backend/src/modules/ollama.js:50-53 | the default fields |
| Ollama.Generate | backend/src/modules/ollama.js:48-68 | the reply for the merged payload, or `Ollama generation failed: ...` |
| Ollama.CreateRAGPrompt | backend/src/modules/ollama.js:128-150 | the template's header, the contexts joined by `\n\n---\n\n`, the question label, and the question at the end |
| Ollama.HindiTemplateIff | backend/src/modules/ollama.js:131-149 | the Hindi template exactly for `hi` |
| Ollama.PromptHoldsQuestion | backend/src/modules/ollama.js:128-150 | the question appears in the prompt verbatim |
| Ollama.PromptHoldsContext | backend/src/modules/ollama.js:128-150 | every context appears in the prompt verbatim |
| Ollama.GenerateRAGAnswer | backend/src/modules/ollama.js:159-181 | no contexts gives the localised no-context message; otherwise the trimmed generation, or its error |
| Ollama.RagPayloadFields | backend/src/modules/ollama.js:169-174 | the RAG call sends the prompt, the model and `num_predict: 256` |
| Ollama.ClassifyReply | backend/src/modules/ollama.js:197-201 | `hi` exactly when the normalised reply contains `hindi` or is `hi`; otherwise `en` |
| Ollama.DetectLanguage | backend/src/modules/ollama.js:188-206 | `en` whenever the call fails; otherwise the reply's classification (`ClassifyReply`), so `hi` exactly when the normalised reply contains `hindi` or is `hi` |
| Ollama.DetectPromptQuotes | backend/src/modules/ollama.js:190-194 | the prompt quotes the first 200 characters of the text |
| Ollama.ClassifyIgnoresCase | backend/src/modules/ollama.js:197 | the classification ignores ASCII case |
| QueryRoutes.RelevantChunks | backend/src/routes/uploadRoutes.js:321-325 | one `{text, similarity, docId}` per result, in rank order |
| QueryRoutes.HindiPromptIff | backend/src/routes/uploadRoutes.js:297-300 | the inline Hindi prompt exactly for `hi` |
| QueryRoutes.PromptUsesTopThree | backend/src/routes/uploadRoutes.js:297 | only the top three contexts reach the prompt |
| QueryRoutes.FallbackUsesTopTwo | backend/src/routes/uploadRoutes.js:311-315 | only the top two contexts reach the fallback answer |
| QueryRoutes.FallbackQuotesBest | backend/src/routes/uploadRoutes.js:311-315 | the fallback answer contains the best context |
| QueryRoutes.QueryGeneration | backend/src/routes/uploadRoutes.js:286-308 | Groq answers (source `groq_rag`) exactly when it was requested, exists, is available and generates; otherwise `embedding_only` |
| QueryRoutes.Respond | backend/src/routes/uploadRoutes.js:271-327 | once the search has returned, `/api/query` always answers with a 200 body |
| QueryRoutes.RespondOutcome | backend/src/routes/uploadRoutes.js:271-327 | no results give the no-match message, no chunks and `no_match`; otherwise every result is listed; without Groq the source is `embedding_only` with the context fallback; with Groq the source is `groq_rag` exactly when it is available and generates, and the answer is Groq's exactly when that answer is non-empty, else the context fallback |
| QueryRoutes.NoMatchIgnoresGroq | backend/src/routes/uploadRoutes.js:271-281 | with no results the answer does not depend on the Groq client |
| QueryRoutes.EmptyAnswerKeepsGroqTag | backend/src/routes/uploadRoutes.js:302-315 | an empty Groq answer falls back to the contexts while the source stays `groq_rag` |
| QueryRoutes.Query | backend/src/routes/uploadRoutes.js:257-332 | a missing or blank question is a 400; an embedding failure is a 500; otherwise the response for the detected language and the search results, with `topK` defaulting to 5 |
| QueryRoutes.AskQuestion | backend/src/routes/uploadRoutes.js:343 | `message` when non-empty, else the last history entry's content, else empty |
| QueryRoutes.AskGeneration | backend/src/routes/uploadRoutes.js:364-397 | the answer is absent exactly when there is no client, and the source is one of `direct`, `groq_rag`, `groq_direct`, `fallback_context`, `fallback_no_docs` |
| QueryRoutes.AskOutcome | backend/src/routes/uploadRoutes.js:364-397 | no client gives no answer and `direct`; with results, Groq's answer on the top-three prompt and `groq_rag`, or on failure the context fallback and `fallback_context`; without results, Groq's answer to the bare question and `groq_direct`, or on failure the upload-first message and `fallback_no_docs` |
| QueryRoutes.AskSources | backend/src/routes/uploadRoutes.js:364-397 | the answer is absent iff there is no client; the source comes from the documents iff there is a client and the search found something |
| QueryRoutes.Ask | backend/src/routes/uploadRoutes.js:338-417 | a blank question is a 400 and nothing else is; an accepted question answers with the Groq step's answer and source for the detected language on the top-5 search results (none when the search failed), lists those results as chunks, and carries the time |
| Ingestion.ExtractText | backend/src/routes/uploadRoutes.js:76-128 | PDF, DOCX and TXT use the document extractor; an image uses OCR text if not blank, else the file-name fallback, which is never blank; any other category (DOC included) gives empty text |
| Ingestion.FallbackNotBlank | backend/src/routes/uploadRoutes.js:120-126 | the fallback text is never blank, so the `OCR failed` branch cannot be taken |
| Ingestion.Kept | backend/src/routes/uploadRoutes.js:148-149 | the increasing positions whose embedding is not null, all of them |
| Ingestion.ValidChunks | backend/src/routes/uploadRoutes.js:148 | the chunks at the kept positions, in order |
| Ingestion.ValidEmbeddings | backend/src/routes/uploadRoutes.js:149 | the non-null embeddings at the kept positions, in order |
| Ingestion.FiltersAligned | backend/src/routes/uploadRoutes.js:148-149 | the two filtered lists have the same length, and each chunk stays paired with its own embedding |
| Ingestion.NoneKeptIffAllNull | backend/src/routes/uploadRoutes.js:148-153 | no chunk survives exactly when every embedding is null |
| Ingestion.ProcessDocument | backend/src/routes/uploadRoutes.js:74-190 | extraction followed by the rest of the pipeline: a category with no branch (DOC, UNKNOWN) fails with `No text extracted from document`, and a document extractor's error becomes the failed record's error, the store unchanged in both cases |
| Ingestion.Ingest | backend/src/routes/uploadRoutes.js:130-190 | given what extraction answered, the record carries the id and time; an extraction error or blank text fails the record and leaves the store as it was |
| Ingestion.Index | backend/src/routes/uploadRoutes.js:147-189 | after embedding, the record carries the id and time, a failed record has status `failed`, and a processed one keeps the file info and category |
| Ingestion.IndexAdds | backend/src/routes/uploadRoutes.js:147-178 | with one embedding per chunk and one present, `addDocument` of the valid chunks succeeds, the store is its result, and the record is the processed one unless saving throws |
| Ingestion.IndexWithoutEmbeddings | backend/src/routes/uploadRoutes.js:147-153 | with every embedding null, the record fails with `Failed to generate embeddings` and the store is unchanged |
| Ingestion.IndexStore | backend/src/routes/uploadRoutes.js:147-189 | after embedding, the store either stays as it was or is the result of one `addDocument` of this document |
| Ingestion.AllEmbeddingsFail | backend/src/routes/uploadRoutes.js:130-153 | for a non-blank extracted text, when every chunk's embedding fails, the record fails with `Failed to generate embeddings` and the store is unchanged |
| Ingestion.ProcessedRecord | backend/src/routes/uploadRoutes.js:130-178 | for a non-blank extracted text with one chunk embedded, the valid chunks are added; the record holds the language, the confidence, the text length, the valid chunk count and the 500-character preview, unless saving throws |
| Ingestion.StoreChangesOnlyByAdd | backend/src/routes/uploadRoutes.js:130-190 | the store either stays as it was or is the result of one `addDocument` of this document |

## Left out

- Persistence is not modelled: `saveVectorStore`/`loadVectorStore`, `loadKeys`/`saveKeys`, and the disk methods of `FileManager`. Saving the store appears only as the error it may throw (`saveError` of `Ingestion.Ingest`).
- Network calls are not modelled: the Ollama embed and generate endpoints, all of `groq.js`, and `isReady`, `listModels`, `generateStream` and `summarize`. The replies are parameters (`EmbedReply`, `Endpoint`, `Groq`).
- The extractors are parameters: `documentExtractor.js` (pdfjs, mammoth) and `ocr.js` (Tesseract). So is the Groq client.
- Clocks, UUIDs and `crypto.randomBytes` are parameters: `createdAt`, `processedAt`, `now`, the document id and the key bytes.
- HTTP plumbing is left out: Express, multer, status codes other than the 400/500 choice, and the response JSON layout.
- Concurrency is left out. `processDocumentAsync` runs detached against shared Maps; the model has one sequential caller.
- The route-level `documents` map is left out. Only the record `Ingestion.Ingest` would store in it is produced.
- The chunk statistics `processDocumentAsync` computes and only logs are left out.
- Similarity.Cosine: numbers are exact reals, not IEEE doubles, and `Math.sqrt` is a parameter; the bounds hold when that parameter is a true square root (`IsSqrt`).
- TextChunker.ChunkByTokens: the `0.7 * charSize` test is the exact integer test `10 * i > 10 * start + 7 * charSize`; floating point could disagree exactly at the boundary.
- TextChunker.ChunkByTokens: requires `overlap <= 0` and `chunkSize >= 1`, because the loop as written never ends otherwise (see Findings). The default arguments (overlap 50) are not modelled.
- TextChunker.ChunkBySentences: requires `overlap <= 0` and `perChunk >= 1` for the same reason. The defaults (5, 1) are not modelled.
- ChunkLoops.TokensRunNeverEnds: the as-written loops carry a step budget (`fuel`). "Never ends" means "has not ended after any number of passes".
- TextChunker.SmartChunk: `overlapTokens` is not a parameter, because the source never reads it.
- Strings are sequences of code points, whereas JS counts UTF-16 units. Lengths, `substring(0, 200)`, `substring(0, 500)`, the key mask's index 60 and the `5 * dev > len` thresholds agree only for text inside the Basic Multilingual Plane.
- JsStrings.ToLower: only ASCII letters are lowered; JS `toLowerCase` also maps other scripts.
- JS whitespace for `trim` and `\s` is the fixed ECMAScript set; no Unicode normalisation is modelled.
- LanguageDetector.DetectWithConfidence: the percentages and confidences are exact rationals, not IEEE doubles, so a confidence can differ from the JS value in the last place. The thresholds are not affected: the `> 20` and `> 80` tests are the integer tests `5 * dev > len` and `5 * latin > 4 * len` (`PercentAbove`).
- LanguageDetector.ConfidenceOfEnglish: the confidence is exactly `latin / len`. JS computes `(latin / len * 100) / 100` in doubles, which gives 0.8333333333333335 for 5 letters out of 6 where 5/6 rounds to 0.8333333333333334.
- LanguageDetector.ConfidenceOfHindiWords: the confidence is exactly `0.7 + 0.05 * count`. In doubles 4 words give 0.8999999999999999, not 0.9.
- TextChunker.GetStats: `averageChunkSize` is the exact rational `total / count`, not the double JS computes; it can differ in the last place.
- LanguageDetector.Detect: the Hindi common-word count is an input (`hindiWordCount`), not a model of the `\b(...)\b` regex.
- Ollama.Generate: the endpoint always answers a string. In JS `response.data.response` may be undefined, in which case `trim()` throws; that case is not modelled.
- ApiKeys.CreateKey: the default name `Default Key` and default metadata `{}` are not modelled; the caller passes both. The same holds for the other defaulted parameters (`language = 'en'`, `topK = 5` inside the store, `metadata = {}`).
- JSON values are null, strings, numbers, booleans and objects. Arrays and `undefined` are not modelled.
- QueryRoutes.AskQuestion: the `/api/ask` body is typed: `message` is an optional string and each history entry an optional `content` string. In JS a `null` last entry of `messages`, or a truthy `message` that is not a string, throws at line 343 and gives a 500; the model cannot express either input.
- Ingestion.ProcessDocument: the embedding service is a function of the chunk text (`embed`, as in `VectorStore.EmbedBatch`), so two identical chunks of a document always both succeed or both fail, where the JS makes an independent network call for each.
- QueryRoutes.Query: the request body is typed: `topK` is an optional integer and `useOllama` a boolean. JS coercions of other values are not modelled: `slice(0, null)` gives `[]`, `slice(0, 2.5)` keeps 2 entries, and the string `"false"` is truthy.

## Findings

| source | as written | input that shows it | evidently intended | confidence | as-written member | corrected member |
|---|---|---|---|---|---|---|
| backend/src/modules/textChunker.js:29-47 | after the window that reaches the end, `start = end - charOverlap` is still below the length, so the loop runs again over the same tail forever | `chunkByTokens("Hello.")` with the default overlap 50: the pass from 0 ends at 6 and restarts at -194, which ends at 6 again | stop after the window that reaches the end, and always move forward | high (proved; not executed) | ChunkLoops.TokensRunNeverEnds | ChunkLoops.ChunkByTokensFixed |
| backend/src/modules/textChunker.js:74-78 | `start = end - overlapSentences` after the last group keeps `start` below the sentence count | `chunkBySentences("A. B.")` with the defaults (5, 1): the group [0, 2) restarts at 1, then [1, 2) restarts at 1 forever | stop after the group that reaches the last sentence | high (proved; not executed) | ChunkLoops.SentencesRunNeverEnds | ChunkLoops.ChunkBySentencesFixed |

=== FILE: api_keys.dfy ===
/** `ApiKeyManager` over its in-memory list of key records. The random
    bytes, the clock reading and the key file are outside the model: the
    bytes and the timestamp are parameters, and loading and saving the list
    are left to the caller. */
module ApiKeys {
  import opened Wrappers
  import opened JsStrings
  import Json

  type Byte = x: int | 0 <= x < 256

  predicate IsHexDigit(c: char) {
    '0' <= c <= '9' || 'a' <= c <= 'f'
  }

  /** A nibble as `toString('hex')` writes it: lower-case. */
  function HexDigit(d: nat): (c: char)
    requires d < 16
    ensures IsHexDigit(c)
  {
    if d < 10 then ('0' as int + d) as char else ('a' as int + d - 10) as char
  }

  function HexValue(c: char): (d: nat)
    requires IsHexDigit(c)
    ensures d < 16
  {
    if c <= '9' then c as int - '0' as int else c as int - 'a' as int + 10
  }

  lemma HexDigitValue(d: nat)
    requires d < 16
    ensures HexValue(HexDigit(d)) == d
  {
  }

  /** `buffer.toString('hex')`: two digits per byte, high nibble first. */
  function Hex(bytes: seq<Byte>): (r: string)
    ensures |r| == 2 * |bytes|
    ensures forall i :: 0 <= i < |r| ==> IsHexDigit(r[i])
  {
    if bytes == [] then []
    else [HexDigit(bytes[0] / 16), HexDigit(bytes[0] % 16)] + Hex(bytes[1..])
  }

  /** Reads hex digits back in pairs. */
  function Unhex(s: string): (r: seq<Byte>)
    requires |s| % 2 == 0 && forall i :: 0 <= i < |s| ==> IsHexDigit(s[i])
    ensures |r| == |s| / 2
  {
    if s == [] then []
    else [16 * HexValue(s[0]) + HexValue(s[1])] + Unhex(s[2..])
  }

  /** Hex encoding loses nothing. */
  lemma {:induction false} HexRoundTrip(bytes: seq<Byte>)
    ensures Unhex(Hex(bytes)) == bytes
  {
    if bytes != [] {
      var b := bytes[0];
      HexDigitValue(b / 16);
      HexDigitValue(b % 16);
      assert Hex(bytes)[2..] == Hex(bytes[1..]);
      HexRoundTrip(bytes[1..]);
    }
  }

  /** The hex of a prefix is the prefix of the hex. */
  lemma {:induction false} HexPrefix(bytes: seq<Byte>, k: nat)
    requires k <= |bytes|
    ensures Hex(bytes)[..2 * k] == Hex(bytes[..k])
  {
    if k > 0 {
      HexPrefix(bytes[1..], k - 1);
      assert bytes[1..][..k - 1] == bytes[..k][1..];
      assert Hex(bytes)[..2 * k] == Hex(bytes)[..2] + Hex(bytes)[2..][..2 * (k - 1)];
    }
  }

  const KeyPrefix := "sk_"

  /** `generateKey()` with the output of `crypto.randomBytes(48)` given:
      `"sk_"` and the first 61 hex digits, cut to 64 characters. */
  function GenerateKey(bytes: seq<Byte>): (r: string)
    ensures StartsWith(r, KeyPrefix)
    ensures |bytes| == 48 ==> |r| == 64
    ensures forall i :: 3 <= i < |r| ==> IsHexDigit(r[i])
  {
    Substring(KeyPrefix + Substring(Hex(bytes), 0, 61), 0, 64)
  }

  /** A key made from 48 bytes spells out the first 30 bytes in full and the
      high nibble of the 31st, and nothing else. */
  lemma KeyEncodesBytes(bytes: seq<Byte>)
    requires |bytes| == 48
    ensures GenerateKey(bytes) == KeyPrefix + Hex(bytes[..30]) + [HexDigit(bytes[30] / 16)]
    ensures Unhex(GenerateKey(bytes)[3..63]) == bytes[..30]
    ensures HexValue(GenerateKey(bytes)[63]) == bytes[30] / 16
  {
    var h := Hex(bytes);
    var k := GenerateKey(bytes);
    assert k == KeyPrefix + h[..61];
    assert k[3..63] == h[..60];
    HexPrefix(bytes, 30);
    HexRoundTrip(bytes[..30]);
    assert k[63] == h[60] == HexDigit(bytes[30] / 16) by {
      assert h[60..] == Hex(bytes[30..]) by {
        HexSuffix(bytes, 30);
      }
    }
    HexDigitValue(bytes[30] / 16);
    assert h[..61] == h[..60] + [h[60]];
  }

  /** Two 48-byte draws give the same key exactly when they agree on the
      first 30 bytes and on the high nibble of the 31st. */
  lemma SameKeyIff(b1: seq<Byte>, b2: seq<Byte>)
    requires |b1| == 48 && |b2| == 48
    ensures GenerateKey(b1) == GenerateKey(b2) <==> b1[..30] == b2[..30] && b1[30] / 16 == b2[30] / 16
  {
    KeyEncodesBytes(b1);
    KeyEncodesBytes(b2);
  }

  lemma {:induction false} HexSuffix(bytes: seq<Byte>, k: nat)
    requires k <= |bytes|
    ensures Hex(bytes)[2 * k..] == Hex(bytes[k..])
  {
    if k > 0 {
      HexSuffix(bytes[1..], k - 1);
      assert bytes[1..][k - 1..] == bytes[k..];
    }
  }

  /** A stored key record. `lastUsed` and `requestCount` may be missing in a
      hand-edited key file, hence the options. */
  datatype KeyRecord = KeyRecord(
    key: string,
    name: string,
    created: string,
    lastUsed: Option<string>,
    requestCount: Option<int>,
    metadata: Json.Object)

  /** What `createKey` hands back. */
  datatype Created = Created(key: string, name: string, created: string)

  /** `createKey(name, metadata)`, with the random bytes and the current time
      given. No check against an existing equal key is made. */
  function CreateKey(keys: seq<KeyRecord>, bytes: seq<Byte>, name: string, metadata: Json.Object, now: string): (r: (seq<KeyRecord>, Created))
    ensures |r.0| == |keys| + 1 && r.0[..|keys|] == keys
    ensures r.0[|keys|] == KeyRecord(r.1.key, name, now, None, Some(0), metadata)
    ensures r.1 == Created(GenerateKey(bytes), name, now)
  {
    var key := GenerateKey(bytes);
    (keys + [KeyRecord(key, name, now, None, Some(0), metadata)], Created(key, name, now))
  }

  /** `keys.find` / `keys.findIndex`: the first record holding `key`. */
  function FindKey(keys: seq<KeyRecord>, key: string): (r: Option<nat>)
    ensures r.Some? ==> r.value < |keys| && keys[r.value].key == key
    ensures r.Some? ==> forall j :: 0 <= j < r.value ==> keys[j].key != key
    ensures r.None? ==> forall j :: 0 <= j < |keys| ==> keys[j].key != key
  {
    if keys == [] then None
    else if keys[0].key == key then Some(0)
    else
      match FindKey(keys[1..], key)
      case None => None
      case Some(i) => Some(i + 1)
  }

  /** `(record.requestCount || 0) + 1`: a missing count, like zero, counts
      as zero. */
  function NextCount(count: Option<int>): (r: int)
    ensures count.None? ==> r == 1
    ensures count.Some? ==> r == count.value + 1
  {
    (if count.None? || count.value == 0 then 0 else count.value) + 1
  }

  datatype Validation = Invalid(reason: string) | Valid(record: KeyRecord)

  /** `validateKey(key)` at time `now`: the list after the call and the
      answer. */
  function ValidateKey(keys: seq<KeyRecord>, key: string, now: string): (r: (seq<KeyRecord>, Validation))
    ensures FindKey(keys, key).None? ==> r == (keys, Invalid("Invalid API key"))
    ensures FindKey(keys, key).Some? ==> r.1.Valid? && |r.0| == |keys|
    ensures FindKey(keys, key).Some? ==> forall j :: 0 <= j < |keys| && j != FindKey(keys, key).value ==> r.0[j] == keys[j]
    ensures FindKey(keys, key).Some? ==>
      var before := keys[FindKey(keys, key).value];
      r.1.record == r.0[FindKey(keys, key).value] == before.(lastUsed := Some(now), requestCount := Some(NextCount(before.requestCount)))
  {
    match FindKey(keys, key)
    case None => (keys, Invalid("Invalid API key"))
    case Some(i) =>
      var record := keys[i].(lastUsed := Some(now), requestCount := Some(NextCount(keys[i].requestCount)));
      (keys[i := record], Valid(record))
  }

  /** `deleteKey(key)`: the list after the call and whether a record went. */
  function DeleteKey(keys: seq<KeyRecord>, key: string): (r: (seq<KeyRecord>, bool))
    ensures r.1 <==> FindKey(keys, key).Some?
    ensures !r.1 ==> r.0 == keys
    ensures r.1 ==> var i := FindKey(keys, key).value; r.0 == keys[..i] + keys[i + 1..]
  {
    match FindKey(keys, key)
    case None => (keys, false)
    case Some(i) => (keys[..i] + keys[i + 1..], true)
  }

  /** What `getAllKeys` lists for one record. */
  datatype KeyView = KeyView(key: string, name: string, created: string, lastUsed: Option<string>, requestCount: Option<int>)

  /** `k.substring(0, 4) + '...' + k.substring(60)`. */
  function Mask(key: string): (r: string)
    ensures |key| == 64 ==> |r| == 11 && r == key[..4] + "..." + key[60..]
    ensures |key| <= 60 ==> r == (if |key| < 4 then key else key[..4]) + "..."
  {
    Substring(key, 0, 4) + "..." + Substring(key, 60, |key|)
  }

  function View(k: KeyRecord): KeyView {
    KeyView(Mask(k.key), k.name, k.created, k.lastUsed, k.requestCount)
  }

  /** `getAllKeys()`: one masked view per record, in order. */
  function GetAllKeys(keys: seq<KeyRecord>): (r: seq<KeyView>)
    ensures |r| == |keys|
    ensures forall i :: 0 <= i < |keys| ==> r[i] == View(keys[i])
  {
    if keys == [] then [] else [View(keys[0])] + GetAllKeys(keys[1..])
  }

  /** The number of records holding `key`. */
  function Occurrences(keys: seq<KeyRecord>, key: string): nat {
    if keys == [] then 0 else (if keys[0].key == key then 1 else 0) + Occurrences(keys[1..], key)
  }

  lemma {:induction false} OccurrencesAppend(a: seq<KeyRecord>, b: seq<KeyRecord>, key: string)
    ensures Occurrences(a + b, key) == Occurrences(a, key) + Occurrences(b, key)
  {
    if a == [] {
      assert a + b == b;
    } else {
      assert (a + b)[1..] == a[1..] + b;
      OccurrencesAppend(a[1..], b, key);
    }
  }

  lemma {:induction false} FindIffOccurs(keys: seq<KeyRecord>, key: string)
    ensures FindKey(keys, key).Some? <==> Occurrences(keys, key) > 0
  {
    if keys != [] {
      FindIffOccurs(keys[1..], key);
    }
  }

  /** A delete takes out exactly one record with the key when there is one;
      so a key that was stored once is gone after one delete, and a second
      delete answers false. */
  lemma DeleteRemovesOne(keys: seq<KeyRecord>, key: string)
    ensures Occurrences(DeleteKey(keys, key).0, key) == if Occurrences(keys, key) > 0 then Occurrences(keys, key) - 1 else 0
  {
    FindIffOccurs(keys, key);
    match FindKey(keys, key)
    case None =>
    case Some(i) =>
      assert keys == keys[..i] + [keys[i]] + keys[i + 1..];
      OccurrencesAppend(keys[..i] + [keys[i]], keys[i + 1..], key);
      OccurrencesAppend(keys[..i], [keys[i]], key);
      OccurrencesAppend(keys[..i], keys[i + 1..], key);
      assert Occurrences([keys[i]], key) == 1;
  }

  /** Deleting a freshly created key restores the list. */
  lemma CreateThenDelete(keys: seq<KeyRecord>, bytes: seq<Byte>, name: string, metadata: Json.Object, now: string)
    requires FindKey(keys, GenerateKey(bytes)).None?
    ensures var c := CreateKey(keys, bytes, name, metadata, now);
      DeleteKey(c.0, c.1.key) == (keys, true)
  {
    var c := CreateKey(keys, bytes, name, metadata, now);
    assert FindKey(c.0, c.1.key) == Some(|keys|) by {
      FindAfter(keys, c.0[|keys|], c.1.key);
    }
    assert c.0[..|keys|] + c.0[|keys| + 1..] == keys;
  }

  /** Appending a record behind a list without the key finds the new one. */
  lemma {:induction false} FindAfter(keys: seq<KeyRecord>, rec: KeyRecord, key: string)
    requires FindKey(keys, key).None? && rec.key == key
    ensures FindKey(keys + [rec], key) == Some(|keys|)
  {
    if keys != [] {
      assert (keys + [rec])[1..] == keys[1..] + [rec];
      FindAfter(keys[1..], rec, key);
    }
  }

  /** Validating a freshly created key makes its count 1 and stamps it. */
  lemma CreateThenValidate(keys: seq<KeyRecord>, bytes: seq<Byte>, name: string, metadata: Json.Object, now: string, later: string)
    requires FindKey(keys, GenerateKey(bytes)).None?
    ensures var c := CreateKey(keys, bytes, name, metadata, now);
      var v := ValidateKey(c.0, c.1.key, later);
      v.1.Valid? && v.1.record.requestCount == Some(1) && v.1.record.lastUsed == Some(later) && v.0[..|keys|] == keys
  {
    var c := CreateKey(keys, bytes, name, metadata, now);
    FindAfter(keys, c.0[|keys|], c.1.key);
  }

  /** Validation never changes which keys are stored, nor their order. */
  lemma ValidateKeepsKeys(keys: seq<KeyRecord>, key: string, now: string)
    ensures forall j :: 0 <= j < |keys| ==> ValidateKey(keys, key, now).0[j].key == keys[j].key
  {
  }
}

=== FILE: chunk_loops.dfy ===
/** The loops of `chunkByTokens` and `chunkBySentences` with a positive
    overlap. As written they never end: every pass sets
    `start = end - overlap`, and `end` never exceeds the length, so `start`
    stays below it. The passes are modelled here with a step budget (`fuel`)
    that a terminating loop would not exhaust; beside them stand corrected
    loops that stop after the window reaching the end and always move
    forward. */
module ChunkLoops {
  import opened Wrappers
  import opened JsStrings
  import TextChunker
  import Sentences

  // ---------------------------------------------------------------------
  // chunkByTokens as written

  /** One pass of the `chunkByTokens` loop for any `start` below the length
      and any `overlap`: the window's end and the next `start`. */
  function TokensPass(s: string, start: int, chunkSize: int, overlap: int): (r: (int, int))
    requires start < |s| && chunkSize >= 1
    ensures r.0 <= |s| && r.1 == r.0 - 4 * overlap
  {
    var e := TextChunker.PassEnd(s, start, 4 * chunkSize);
    (e, e - 4 * overlap)
  }

  /** The passes of `chunkByTokens` over `s`, one for every `start` below
      the length. */
  function TokensPasses(s: string, chunkSize: int, overlap: int): (pass: int --> (int, int))
    requires chunkSize >= 1
    ensures forall j :: j < |s| ==> pass.requires(j) && pass(j) == TokensPass(s, j, chunkSize, overlap)
  {
    j requires j < |s| => TokensPass(s, j, chunkSize, overlap)
  }

  /** The loop's control: while `start` is below `n` take a pass and record
      the window `[start, end)`, then go on from the next `start`; `None`
      once `fuel` passes have gone by without the loop ending. */
  function Run(n: int, start: int, pass: int --> (int, int), fuel: nat): (r: Option<seq<(int, int)>>)
    requires forall j :: j < n ==> pass.requires(j)
    decreases fuel
  {
    if start >= n then Some([])
    else if fuel == 0 then None
    else
      var p := pass(start);
      var rest := Run(n, p.1, pass, fuel - 1);
      if rest.None? then None else Some([(start, p.0)] + rest.value)
  }

  /** The windows the `chunkByTokens` loop visits from `start`. */
  function TokensRun(s: string, start: int, chunkSize: int, overlap: int, fuel: nat): (r: Option<seq<(int, int)>>)
    requires chunkSize >= 1
  {
    Run(|s|, start, TokensPasses(s, chunkSize, overlap), fuel)
  }

  /** A loop whose every pass sends `start` back below `n` never ends. */
  lemma {:induction false} RunNeverEnds(n: int, start: int, pass: int --> (int, int), fuel: nat)
    requires start < n && forall j :: j < n ==> pass.requires(j) && pass(j).1 < n
    ensures Run(n, start, pass, fuel) == None
    decreases fuel
  {
    if fuel > 0 {
      RunNeverEnds(n, pass(start).1, pass, fuel - 1);
    }
  }

  /** With a positive overlap the loop never ends, however many passes it
      is given. */
  lemma TokensRunNeverEnds(s: string, start: int, chunkSize: int, overlap: int, fuel: nat)
    requires start < |s| && chunkSize >= 1 && overlap >= 1
    ensures TokensRun(s, start, chunkSize, overlap, fuel) == None
  {
    RunNeverEnds(|s|, start, TokensPasses(s, chunkSize, overlap), fuel);
  }

  /** The default arguments on `"Hello."`: the first window is the whole
      text and sends `start` to -194, which sends it to -194 again. */
  lemma TokensDefaultsStall()
    ensures TokensPass("Hello.", 0, 500, 50) == (6, -194)
    ensures TokensPass("Hello.", -194, 500, 50) == (6, -194)
  {
  }

  /** Without overlap the loop as written does end, and visits exactly the
      windows `chunkByTokens` is modelled with: given one pass per
      remaining character it answers with `TextChunker.Windows`. */
  lemma TokensRunWithoutOverlap(s: string, start: nat, chunkSize: int, fuel: nat)
    requires chunkSize >= 1 && fuel >= |s| - start
    ensures TokensRun(s, start, chunkSize, 0, fuel) == Some(TextChunker.Windows(s, start, 4 * chunkSize, 0))
  {
    var ends := TextChunker.WindowEnds(s, 4 * chunkSize);
    var pass := TokensPasses(s, chunkSize, 0);
    forall j | 0 <= j < |s| ensures pass(j) == (ends[j], ends[j]) {
      PassWithoutOverlap(s, j, chunkSize);
      TextChunker.WindowEndsAt(s, 4 * chunkSize, j);
    }
    RunTiles(|s|, start, pass, fuel, ends);
  }

  /** A loop whose passes move on to the end of each window visits the
      windows that tile the text from `start`. */
  lemma {:induction false} RunTiles(n: nat, start: nat, pass: int --> (int, int), fuel: nat, ends: seq<nat>)
    requires fuel >= n - start && TextChunker.ValidEnds(n, ends)
    requires forall j :: j < n ==> pass.requires(j)
    requires forall j :: 0 <= j < n ==> pass(j) == (ends[j], ends[j])
    ensures Run(n, start, pass, fuel) == Some(TextChunker.Tiles(n, ends, start, 0))
    decreases n - start
  {
    if start < n {
      RunTiles(n, ends[start], pass, fuel - 1, ends);
    }
  }

  lemma PassWithoutOverlap(s: string, start: nat, chunkSize: int)
    requires start < |s| && chunkSize >= 1
    ensures var e := TextChunker.WindowEnd(s, start, 4 * chunkSize); TokensPass(s, start, chunkSize, 0) == (e, e)
  {
  }

  // ---------------------------------------------------------------------
  // The corrected loops

  /** The ranges of a loop that stops after the range reaching `n` and
      otherwise steps back from the end by `overlap`, but always moves at
      least one place forward. */
  function Ranges(n: nat, ends: seq<nat>, start: nat, overlap: nat): (rs: seq<(nat, nat)>)
    requires start < n && TextChunker.ValidEnds(n, ends)
    ensures |rs| > 0 && rs[0] == (start, ends[start]) && rs[|rs| - 1].1 == n
    ensures forall k :: 0 <= k < |rs| ==> start <= rs[k].0 < n && rs[k].1 == ends[rs[k].0]
    decreases n - start
  {
    var end := ends[start];
    if end >= n then [(start, end)]
    else [(start, end)] + Ranges(n, ends, Next(start, end, overlap), overlap)
  }

  /** The next start: `overlap` back from the end, but past `start`. */
  function Next(start: nat, end: nat, overlap: nat): (next: nat)
    requires start < end
    ensures start < next <= end
  {
    if end - overlap > start then end - overlap else start + 1
  }

  /** A range that stops short of `n` is followed by the ranges from the
      next start. */
  lemma RangesTail(n: nat, ends: seq<nat>, start: nat, overlap: nat)
    requires start < n && TextChunker.ValidEnds(n, ends) && ends[start] < n
    ensures Ranges(n, ends, start, overlap)[1..] == Ranges(n, ends, Next(start, ends[start], overlap), overlap)
  {
  }

  /** A range reaching `n` is the last one. */
  lemma RangesLast(n: nat, ends: seq<nat>, start: nat, overlap: nat)
    requires start < n && TextChunker.ValidEnds(n, ends) && ends[start] >= n
    ensures |Ranges(n, ends, start, overlap)| == 1
  {
  }

  /** Position `i` lies inside one of the ranges. */
  predicate Covered(rs: seq<(nat, nat)>, i: int) {
    exists k :: 0 <= k < |rs| && rs[k].0 <= i < rs[k].1
  }

  /** Every position from `start` on lies inside some range. */
  lemma {:induction false} RangesCover(n: nat, ends: seq<nat>, start: nat, overlap: nat, i: nat)
    requires start <= i < n && TextChunker.ValidEnds(n, ends)
    ensures Covered(Ranges(n, ends, start, overlap), i)
    decreases n - start
  {
    var rs := Ranges(n, ends, start, overlap);
    var end := ends[start];
    if i < end {
      assert rs[0].0 <= i < rs[0].1;
    } else {
      var next := Next(start, end, overlap);
      var rest := Ranges(n, ends, next, overlap);
      assert Covered(rest, i) by {
        RangesCover(n, ends, next, overlap, i);
      }
      var k :| 0 <= k < |rest| && rest[k].0 <= i < rest[k].1;
      assert rs[1..] == rest by {
        RangesTail(n, ends, start, overlap);
      }
      assert rs[k + 1] == rest[k];
    }
  }

  /** Range `q` starts inside range `p`, after its start. */
  predicate Follows(p: (nat, nat), q: (nat, nat)) {
    p.0 < q.0 <= p.1
  }

  /** Each range starts after the previous one starts and no later than it
      ends: the ranges move forward and leave no gap. */
  lemma {:induction false} RangesChain(n: nat, ends: seq<nat>, start: nat, overlap: nat, k: nat)
    requires start < n && TextChunker.ValidEnds(n, ends)
    requires k + 1 < |Ranges(n, ends, start, overlap)|
    ensures var rs := Ranges(n, ends, start, overlap);
      Follows(rs[k], rs[k + 1])
    decreases n - start
  {
    var end := ends[start];
    var rs := Ranges(n, ends, start, overlap);
    assert end < n by {
      if end >= n {
        RangesLast(n, ends, start, overlap);
      }
    }
    var next := Next(start, end, overlap);
    var rest := Ranges(n, ends, next, overlap);
    assert rs[k + 1] == rest[k] by {
      RangesTail(n, ends, start, overlap);
    }
    if k == 0 {
      assert rs[1].0 == next;
      assert Follows(rs[0], rs[1]);
    } else {
      assert rs[k] == rest[k - 1] by {
        RangesTail(n, ends, start, overlap);
      }
      RangesChain(n, ends, next, overlap, k - 1);
    }
  }

  // ---------------------------------------------------------------------
  // chunkByTokens corrected

  /** The windows of the corrected loop. */
  function FixedWindows(s: string, start: nat, charSize: int, charOverlap: nat): (ws: seq<(nat, nat)>)
    requires start < |s| && charSize >= 1
    ensures forall k :: 0 <= k < |ws| ==> start <= ws[k].0 < ws[k].1 <= |s| && ws[k].1 <= ws[k].0 + charSize + 1
    ensures TextChunker.WithinWidth(s, ws, charSize + 1)
  {
    Ranges(|s|, TextChunker.WindowEnds(s, charSize), start, charOverlap)
  }

  /** Without overlap the corrected loop visits the ranges the original one
      does. */
  lemma {:induction false} RangesNoOverlap(n: nat, ends: seq<nat>, start: nat)
    requires start < n && TextChunker.ValidEnds(n, ends)
    ensures Ranges(n, ends, start, 0) == TextChunker.Tiles(n, ends, start, 0)
    decreases n - start
  {
    var end := ends[start];
    if end < n {
      RangesNoOverlap(n, ends, end);
    } else {
      assert TextChunker.Tiles(n, ends, end, 0) == [];
    }
  }

  /** `chunkByTokens` with the corrected loop, for any overlap that is not
      negative. */
  function ChunkByTokensFixed(text: string, chunkSize: int, overlap: nat): (r: seq<string>)
    requires chunkSize >= 1
    ensures Trim(text) == [] ==> r == []
    ensures forall k :: 0 <= k < |r| ==> r[k] != [] && IsTrimmed(r[k]) && |r[k]| <= 4 * chunkSize + 1
  {
    if Trim(text) == [] then []
    else
      var clean := TextChunker.Clean(text);
      assert clean != [] by {
        TextChunker.CleanNonEmpty(text);
      }
      FixedPieces(clean, 4 * chunkSize, 4 * overlap)
  }

  /** The trimmed, non-empty pieces of the corrected loop's windows over a
      cleaned text, sizes counted in characters. */
  function FixedPieces(clean: string, charSize: int, charOverlap: nat): (r: seq<string>)
    requires clean != [] && charSize >= 1
    ensures forall k :: 0 <= k < |r| ==> r[k] != [] && IsTrimmed(r[k]) && |r[k]| <= charSize + 1
  {
    TextChunker.Pieces(clean, FixedWindows(clean, 0, charSize, charOverlap), charSize + 1)
  }

  /** Without overlap the corrected chunker returns what the original
      does. */
  lemma ChunkByTokensFixedNoOverlap(text: string, chunkSize: int)
    requires chunkSize >= 1
    ensures ChunkByTokensFixed(text, chunkSize, 0) == TextChunker.ChunkByTokens(text, chunkSize, 0)
  {
    if Trim(text) != [] {
      var clean := TextChunker.Clean(text);
      TextChunker.CleanNonEmpty(text);
      RangesNoOverlap(|clean|, TextChunker.WindowEnds(clean, 4 * chunkSize), 0);
    }
  }

  // ---------------------------------------------------------------------
  // chunkBySentences as written

  /** One pass of the `chunkBySentences` loop over `n` sentences: the group
      `[start, end)` and the next `start`. */
  function SentencesPass(n: nat, start: int, perChunk: int, overlap: int): (r: (int, int))
    requires start < n
    ensures r.0 <= n && r.1 == r.0 - overlap
  {
    var end := if start + perChunk < n then start + perChunk else n;
    (end, end - overlap)
  }

  /** The groups the loop visits from `start`, or `None` once `fuel` passes
      have gone by without the loop ending. */
  function SentencesRun(n: nat, start: int, perChunk: int, overlap: int, fuel: nat): (r: Option<seq<(int, int)>>)
    decreases fuel
  {
    if start >= n then Some([])
    else if fuel == 0 then None
    else
      var (end, next) := SentencesPass(n, start, perChunk, overlap);
      match SentencesRun(n, next, perChunk, overlap, fuel - 1)
      case None => None
      case Some(gs) => Some([(start, end)] + gs)
  }

  /** With a positive overlap the loop never ends, the defaults (five
      sentences per chunk, one of overlap) included. */
  lemma {:induction false} SentencesRunNeverEnds(n: nat, start: int, perChunk: int, overlap: int, fuel: nat)
    requires start < n && overlap >= 1
    ensures SentencesRun(n, start, perChunk, overlap, fuel) == None
    decreases fuel
  {
    if fuel > 0 {
      var (end, next) := SentencesPass(n, start, perChunk, overlap);
      SentencesRunNeverEnds(n, next, perChunk, overlap, fuel - 1);
    }
  }

  // ---------------------------------------------------------------------
  // chunkBySentences corrected

  /** The groups of the corrected loop: at most `perChunk` sentences each. */
  function FixedGroups(n: nat, start: nat, perChunk: int, overlap: nat): (gs: seq<(nat, nat)>)
    requires start < n && perChunk >= 1
    ensures forall k :: 0 <= k < |gs| ==> start <= gs[k].0 < gs[k].1 <= n && gs[k].1 - gs[k].0 <= perChunk
  {
    Ranges(n, TextChunker.GroupEnds(n, perChunk), start, overlap)
  }

  /** Without overlap the corrected groups are the original ones. */
  lemma FixedGroupsNoOverlap(ss: seq<string>, start: nat, perChunk: int)
    requires start < |ss| && perChunk >= 1
    ensures TextChunker.Raw(ss, FixedGroups(|ss|, start, perChunk, 0)) == TextChunker.Groups(ss, start, perChunk, 0)
  {
    RangesNoOverlap(|ss|, TextChunker.GroupEnds(|ss|, perChunk), start);
  }

  /** `chunkBySentences` with the corrected loop, for any overlap that is
      not negative. */
  function ChunkBySentencesFixed(text: string, perChunk: int, overlap: nat): (r: seq<string>)
    requires perChunk >= 1
    ensures Trim(text) == [] ==> r == []
    ensures forall k :: 0 <= k < |r| ==> r[k] != [] && IsTrimmed(r[k])
  {
    if Trim(text) == [] then []
    else
      var ss := Sentences.Split(text);
      TextChunker.NonEmpty(TextChunker.GroupTexts(TextChunker.Raw(ss, FixedGroups(|ss|, 0, perChunk, overlap))))
  }

  /** Without overlap the corrected chunker returns what the original
      does. */
  lemma ChunkBySentencesFixedNoOverlap(text: string, perChunk: int)
    requires perChunk >= 1
    ensures ChunkBySentencesFixed(text, perChunk, 0) == TextChunker.ChunkBySentences(text, perChunk, 0)
  {
    if Trim(text) != [] {
      FixedGroupsNoOverlap(Sentences.Split(text), 0, perChunk);
    }
  }
}

=== FILE: file_types.dfy ===
/** Upload classification by MIME type: the `SUPPORTED_TYPES` table and the
    two lookups over it, `isSupportedType` and `getFileTypeCategory`. Both
    walk the table in declaration order and compare MIME types exactly
    (case-sensitively). */
module FileTypes {
  import opened Wrappers

  /** A category name with the MIME types it accepts. */
  type Table = seq<(string, seq<string>)>

  /** `SUPPORTED_TYPES`, in the order `Object.entries` lists it. */
  const SupportedTypes: Table := [
    ("PDF", ["application/pdf"]),
    ("DOCX", ["application/vnd.openxmlformats-officedocument.wordprocessingml.document"]),
    ("DOC", ["application/msword"]),
    ("TXT", ["text/plain"]),
    ("IMAGE", ["image/jpeg", "image/png", "image/jpg", "image/tiff", "image/webp"])
  ]

  const Unknown := "UNKNOWN"

  /** The loop of `isSupportedType`: does some list of the table hold `m`? */
  function Supported(table: Table, m: string): bool {
    if table == [] then false
    else if m in table[0].1 then true
    else Supported(table[1..], m)
  }

  /** The loop of `getFileTypeCategory`: the position of the first entry
      whose list holds `m`. */
  function FirstListing(table: Table, m: string): (r: Option<nat>)
    ensures r.Some? ==> r.value < |table| && m in table[r.value].1
    ensures r.Some? ==> forall j :: 0 <= j < r.value ==> m !in table[j].1
    ensures r.None? ==> forall j :: 0 <= j < |table| ==> m !in table[j].1
  {
    if table == [] then None
    else if m in table[0].1 then Some(0)
    else
      match FirstListing(table[1..], m)
      case None => None
      case Some(i) => Some(i + 1)
  }

  /** Both loops agree: `m` is supported exactly when some entry lists it,
      and that is when the category search finds an entry. */
  lemma {:induction false} SupportedIffListed(table: Table, m: string)
    ensures Supported(table, m) <==> exists j :: 0 <= j < |table| && m in table[j].1
    ensures Supported(table, m) <==> FirstListing(table, m).Some?
  {
    if table != [] && m !in table[0].1 {
      SupportedIffListed(table[1..], m);
      if Supported(table, m) {
        var j :| 0 <= j < |table[1..]| && m in table[1..][j].1;
        assert m in table[j + 1].1;
      }
      if exists j :: 0 <= j < |table| && m in table[j].1 {
        var j :| 0 <= j < |table| && m in table[j].1;
        assert j > 0 && m in table[1..][j - 1].1;
      }
    }
  }

  /** `isSupportedType(mimeType)`. */
  function IsSupportedType(m: string): bool {
    Supported(SupportedTypes, m)
  }

  /** `getFileTypeCategory(mimeType)`. */
  function GetFileTypeCategory(m: string): (r: string)
    ensures r == Unknown || exists j :: 0 <= j < |SupportedTypes| && r == SupportedTypes[j].0 && m in SupportedTypes[j].1
  {
    match FirstListing(SupportedTypes, m)
    case None => Unknown
    case Some(i) => SupportedTypes[i].0
  }

  /** No two entries share a MIME type. */
  predicate Disjoint(table: Table) {
    forall i, j, m :: 0 <= i < j < |table| && m in table[i].1 ==> m !in table[j].1
  }

  lemma SupportedTypesDisjoint()
    ensures Disjoint(SupportedTypes)
  {
    var t := SupportedTypes;
    forall i, j, m | 0 <= i < j < |t| && m in t[i].1 ensures m !in t[j].1 {
      assert t[0].1 == ["application/pdf"];
      assert t[1].1 == ["application/vnd.openxmlformats-officedocument.wordprocessingml.document"];
      assert t[2].1 == ["application/msword"];
      assert t[3].1 == ["text/plain"];
      assert t[4].1 == ["image/jpeg", "image/png", "image/jpg", "image/tiff", "image/webp"];
    }
  }

  /** The category is unknown exactly when the type is not supported. */
  lemma UnknownIffUnsupported(m: string)
    ensures GetFileTypeCategory(m) == Unknown <==> !IsSupportedType(m)
  {
    SupportedIffListed(SupportedTypes, m);
    var t := SupportedTypes;
    assert t[0].0 != Unknown && t[1].0 != Unknown && t[2].0 != Unknown && t[3].0 != Unknown && t[4].0 != Unknown;
  }

  /** Since the lists are disjoint, a listed type gets the category of the
      one entry that lists it. */
  lemma CategoryOfListed(m: string, i: nat)
    requires i < |SupportedTypes| && m in SupportedTypes[i].1
    ensures GetFileTypeCategory(m) == SupportedTypes[i].0
  {
    SupportedTypesDisjoint();
    var r := FirstListing(SupportedTypes, m);
    assert r.Some? && r.value == i by {
      if r.None? || r.value != i {
        assert false;
      }
    }
  }

  /** Old Word documents are accepted and classed as `DOC`; plain text as
      `TXT`; the match is case-sensitive, so an upper-case spelling is
      unknown. */
  lemma Examples()
    ensures IsSupportedType("application/msword") && GetFileTypeCategory("application/msword") == "DOC"
    ensures GetFileTypeCategory("text/plain") == "TXT"
    ensures !IsSupportedType("TEXT/PLAIN") && GetFileTypeCategory("TEXT/PLAIN") == Unknown
  {
    CategoryOfListed("application/msword", 2);
    CategoryOfListed("text/plain", 3);
    var m := "TEXT/PLAIN";
    var t := SupportedTypes;
    assert m !in t[0].1 && m !in t[1].1 && m !in t[2].1 && m !in t[3].1 && m !in t[4].1;
    assert FirstListing(t, m) == None;
  }
}

=== FILE: ingestion.dfy ===
/** What `processDocumentAsync` does with an uploaded document once the
    upload has been accepted: extract its text, detect its language, chunk
    it, embed the chunks, keep the chunks whose embedding succeeded, add them
    to the vector store and record the outcome. The extractors, the OCR
    engine, the embedding service, the clock and the disk write are
    parameters; the result is the new store together with the record the
    route keeps under the document id. */
module Ingestion {
  import opened Wrappers
  import opened JsStrings
  import opened Json
  import opened Similarity
  import VectorStore
  import LanguageDetector
  import TextChunker
  import OcrFallback

  /** The parts of the uploaded file's `fileInfo` the pipeline reads. */
  datatype FileInfo = FileInfo(originalName: string, filePath: string, size: nat)

  /** What the foreign extractors answer for this file: the text of
      `DocumentExtractor.extract` or the message it throws, and likewise for
      the OCR engine (its initialisation included). */
  datatype Extractors = Extractors(document: Result<string, string>, ocr: Result<string, string>)

  /** The entry `documents.set(docId, …)` leaves behind. */
  datatype DocRecord =
    | Processed(docId: string, fileInfo: FileInfo, fileType: string, language: string, languageConfidence: real,
                extractedTextLength: nat, chunkCount: nat, processedAt: string, extractedTextPreview: string)
    | Failed(docId: string, error: string, status: string, processedAt: string)

  datatype Outcome = Outcome(store: VectorStore.Store, record: DocRecord)

  const NoText := "No text extracted from document"
  const NoEmbeddings := "Failed to generate embeddings"
  const PreviewLength := 500
  const MaxChunkTokens := 500

  /** The text extracted for a file of category `fileType`. PDF, DOCX and TXT
      files go to the document extractor, whose error is rethrown. An image
      goes to OCR; when OCR throws or returns blank text, the fallback
      strategies answer instead, and those cannot fail. Any other category
      extracts nothing. */
  function ExtractText(fileInfo: FileInfo, fileType: string, ex: Extractors): (r: Result<string, string>)
    ensures fileType in {"PDF", "DOCX", "TXT"} ==> r == ex.document
    ensures fileType == "IMAGE" ==> r.Success? && Trim(r.value) != []
    ensures fileType == "IMAGE" && ex.ocr.Success? && Trim(ex.ocr.value) != [] ==> r == ex.ocr
    ensures fileType == "IMAGE" && (ex.ocr.Failure? || Trim(ex.ocr.value) == []) ==>
      r == Success(OcrFallback.ExtractWithFallbacks(fileInfo.filePath, None))
    ensures fileType !in {"PDF", "DOCX", "TXT", "IMAGE"} ==> r == Success("")
  {
    if fileType == "PDF" || fileType == "DOCX" || fileType == "TXT" then ex.document
    else if fileType == "IMAGE" then
      match ex.ocr
      case Success(text) =>
        if Trim(text) == [] then Success(Fallback(fileInfo)) else Success(text)
      case Failure(_) => Success(Fallback(fileInfo))
    else Success("")
  }

  /** `OCRFallback.extractWithFallbacks(filePath, {})`: no Google key. */
  function Fallback(fileInfo: FileInfo): (r: string)
    ensures Trim(r) != []
  {
    var r := OcrFallback.ExtractWithFallbacks(fileInfo.filePath, None);
    OcrFallback.FallbacksOutcome(fileInfo.filePath, None);
    FallbackNotBlank(fileInfo.filePath);
    r
  }

  /** Both possible fallback texts start with `[`, which is not white
      space. */
  lemma FallbackNotBlank(path: string)
    ensures Trim(OcrFallback.ExtractWithFallbacks(path, None)) != []
  {
    var r := OcrFallback.ExtractWithFallbacks(path, None);
    OcrFallback.FallbacksOutcome(path, None);
    assert r[0] == '[' && !IsSpace(r[0]);
    TrimEmptyIffBlank(r);
  }

  // ---------------------------------------------------------------------
  // Dropping the chunks whose embedding failed

  /** Whether `embeddings[i] !== null`: an entry that is missing altogether
      reads as `undefined`, which is not `null`. */
  predicate Present(embeddings: seq<Option<Vector>>, i: nat) {
    i >= |embeddings| || embeddings[i].Some?
  }

  /** The positions below `n` that both filters keep, in increasing order. */
  function Kept(embeddings: seq<Option<Vector>>, n: nat): (ks: seq<nat>)
    ensures |ks| <= n
    ensures forall j :: 0 <= j < |ks| ==> ks[j] < n && Present(embeddings, ks[j])
    ensures forall j, j' :: 0 <= j < j' < |ks| ==> ks[j] < ks[j']
    ensures forall i :: 0 <= i < n && Present(embeddings, i) ==> i in ks
  {
    if n == 0 then []
    else Kept(embeddings, n - 1) + (if Present(embeddings, n - 1) then [n - 1] else [])
  }

  /** `chunks.filter((_, i) => embeddings[i] !== null)`: chunk `j` of the
      result is the chunk at the `j`-th kept position. */
  function ValidChunks(chunks: seq<string>, embeddings: seq<Option<Vector>>): (r: seq<string>)
    ensures var ks := Kept(embeddings, |chunks|);
      |r| == |ks| && forall j :: 0 <= j < |r| ==> r[j] == chunks[ks[j]]
  {
    if chunks == [] then []
    else
      var n := |chunks| - 1;
      var init := ValidChunks(chunks[..n], embeddings);
      ValidChunksSnoc(chunks, embeddings, init);
      init + (if Present(embeddings, n) then [chunks[n]] else [])
  }

  /** The step of `ValidChunks`: the last chunk joins the chunks kept before
      it exactly when its embedding is present. */
  lemma ValidChunksSnoc(chunks: seq<string>, embeddings: seq<Option<Vector>>, init: seq<string>)
    requires chunks != []
    requires var ks := Kept(embeddings, |chunks| - 1);
      |init| == |ks| && forall j :: 0 <= j < |init| ==> init[j] == chunks[..|chunks| - 1][ks[j]]
    ensures var n := |chunks| - 1;
      var r := init + (if Present(embeddings, n) then [chunks[n]] else []);
      var ks := Kept(embeddings, |chunks|);
      |r| == |ks| && forall j :: 0 <= j < |r| ==> r[j] == chunks[ks[j]]
  {
    var n := |chunks| - 1;
    var r := init + (if Present(embeddings, n) then [chunks[n]] else []);
    var ks' := Kept(embeddings, n);
    var ks := Kept(embeddings, |chunks|);
    assert ks == ks' + (if Present(embeddings, n) then [n] else []);
    forall j | 0 <= j < |r| ensures r[j] == chunks[ks[j]] {
      if j < |init| {
        assert r[j] == init[j] && ks[j] == ks'[j] && ks'[j] < n;
      }
    }
  }

  /** `embeddings.filter(e => e !== null)`: embedding `j` of the result is
      the one at the `j`-th kept position, and none is `null`. */
  function ValidEmbeddings(embeddings: seq<Option<Vector>>): (r: seq<Option<Vector>>)
    ensures var ks := Kept(embeddings, |embeddings|);
      |r| == |ks| && forall j :: 0 <= j < |r| ==> r[j] == embeddings[ks[j]] && r[j].Some?
  {
    if embeddings == [] then []
    else
      var n := |embeddings| - 1;
      var init := ValidEmbeddings(embeddings[..n]);
      KeptPrefix(embeddings, n);
      init + (if embeddings[n].Some? then [embeddings[n]] else [])
  }

  /** Positions below `n` are kept by the prefix exactly as by the whole. */
  lemma {:induction false} KeptPrefix(embeddings: seq<Option<Vector>>, n: nat)
    requires n <= |embeddings|
    ensures Kept(embeddings[..n], n) == Kept(embeddings, n)
  {
    if n > 0 {
      KeptPrefix(embeddings, n - 1);
      assert embeddings[..n][..n - 1] == embeddings[..n - 1];
      KeptPrefixShrink(embeddings, n);
    }
  }

  lemma KeptPrefixShrink(embeddings: seq<Option<Vector>>, n: nat)
    requires 0 < n <= |embeddings|
    requires Kept(embeddings[..n - 1], n - 1) == Kept(embeddings, n - 1)
    ensures Kept(embeddings[..n], n - 1) == Kept(embeddings, n - 1)
  {
    KeptAgree(embeddings[..n], embeddings, n - 1);
  }

  /** `Kept` below `n` only looks at the entries below `n`. */
  lemma {:induction false} KeptAgree(a: seq<Option<Vector>>, b: seq<Option<Vector>>, n: nat)
    requires n <= |a| && n <= |b| && forall i :: 0 <= i < n ==> a[i] == b[i]
    ensures Kept(a, n) == Kept(b, n)
  {
    if n > 0 {
      KeptAgree(a, b, n - 1);
    }
  }

  /** With one embedding per chunk the two filters stay aligned: the `j`-th
      kept chunk and the `j`-th kept embedding come from the same position
      `i` of the batch, and that embedding is not `null`. */
  lemma FiltersAligned(chunks: seq<string>, embeddings: seq<Option<Vector>>, j: nat)
    requires |chunks| == |embeddings| && j < |ValidChunks(chunks, embeddings)|
    ensures |ValidEmbeddings(embeddings)| == |ValidChunks(chunks, embeddings)|
    ensures exists i :: (0 <= i < |chunks| && ValidChunks(chunks, embeddings)[j] == chunks[i]
                         && ValidEmbeddings(embeddings)[j] == embeddings[i] && embeddings[i].Some?)
  {
    var i := Kept(embeddings, |chunks|)[j];
    assert ValidChunks(chunks, embeddings)[j] == chunks[i];
  }

  /** Nothing survives the filter exactly when every embedding failed. */
  lemma NoneKeptIffAllNull(chunks: seq<string>, embeddings: seq<Option<Vector>>)
    requires |chunks| == |embeddings|
    ensures ValidChunks(chunks, embeddings) == [] <==> forall i :: 0 <= i < |embeddings| ==> embeddings[i].None?
  {
    var ks := Kept(embeddings, |chunks|);
    if ValidChunks(chunks, embeddings) == [] {
      forall i | 0 <= i < |embeddings| ensures embeddings[i].None? {
        assert Present(embeddings, i) ==> i in ks;
      }
    } else {
      assert embeddings[ks[0]].Some?;
    }
  }

  // ---------------------------------------------------------------------
  // The pipeline

  /** The metadata `addDocument` is given. */
  function Metadata(fileInfo: FileInfo, fileType: string, d: LanguageDetector.Detection): (m: Object)
  {
    [("fileName", Str(fileInfo.originalName)), ("fileSize", Num(fileInfo.size as real)), ("fileType", Str(fileType)),
     ("language", Str(d.language)), ("languageConfidence", Num(d.confidence))]
  }

  function Fail(docId: string, error: string, processedAt: string): DocRecord {
    Failed(docId, error, "failed", processedAt)
  }

  /** The chunks of an extracted text. */
  function ChunksOf(text: string): seq<string> {
    TextChunker.SmartChunk(text, MaxChunkTokens)
  }

  /** `processDocumentAsync(docId, fileInfo, fileType)`: extraction, then
      the rest of the pipeline. A file of a category without an extractor
      fails for want of text, and a document extractor's error becomes the
      failed record's error. */
  function ProcessDocument(docId: string, fileInfo: FileInfo, fileType: string, ex: Extractors, hindiWordCount: nat,
                           embed: string -> VectorStore.EmbedReply, store: VectorStore.Store,
                           createdAt: string, processedAt: string, saveError: Option<string>): (r: Outcome)
    ensures fileType !in {"PDF", "DOCX", "TXT", "IMAGE"} ==>
      r == Outcome(store, Failed(docId, "No text extracted from document", "failed", processedAt))
    ensures fileType in {"PDF", "DOCX", "TXT"} && ex.document.Failure? ==>
      r == Outcome(store, Failed(docId, ex.document.error, "failed", processedAt))
  {
    var extracted := ExtractText(fileInfo, fileType, ex);
    assert Trim("") == [];
    Ingest(docId, fileInfo, fileType, extracted, hindiWordCount, embed, store, createdAt, processedAt, saveError)
  }

  /** The pipeline after extraction, given what extraction answered.
      `hindiWordCount` is the number of Hindi common words the language
      detector finds in the text, `embed` answers the embedding service for
      one chunk, `createdAt` and `processedAt` are the clock readings, and
      `saveError` is what writing the store to disk throws, if anything.
      Every error, whichever step throws it, ends in a failed record. */
  function Ingest(docId: string, fileInfo: FileInfo, fileType: string, extracted: Result<string, string>,
                  hindiWordCount: nat, embed: string -> VectorStore.EmbedReply, store: VectorStore.Store,
                  createdAt: string, processedAt: string, saveError: Option<string>): (r: Outcome)
    ensures r.record.docId == docId && r.record.processedAt == processedAt
    ensures r.record.Failed? ==> r.record.status == "failed"
    ensures r.record.Processed? ==> r.record.fileInfo == fileInfo && r.record.fileType == fileType
    ensures extracted.Failure? ==> r == Outcome(store, Failed(docId, extracted.error, "failed", processedAt))
    ensures extracted.Success? && Trim(extracted.value) == [] ==>
      r == Outcome(store, Failed(docId, "No text extracted from document", "failed", processedAt))
  {
    match extracted
    case Failure(e) => Outcome(store, Fail(docId, e, processedAt))
    case Success(text) =>
      if Trim(text) == [] then Outcome(store, Fail(docId, NoText, processedAt))
      else
        var detection := LanguageDetector.DetectWithConfidence(text, hindiWordCount);
        var chunks := ChunksOf(text);
        Index(docId, fileInfo, fileType, text, detection, chunks, VectorStore.BatchEmbeddings(chunks, embed),
              store, createdAt, processedAt, saveError)
  }

  /** The steps after embedding: drop the chunks whose embedding failed,
      fail when none is left, otherwise add the document to the store,
      build its record and save the store. */
  function Index(docId: string, fileInfo: FileInfo, fileType: string, text: string, detection: LanguageDetector.Detection,
                 chunks: seq<string>, embeddings: seq<Option<Vector>>, store: VectorStore.Store,
                 createdAt: string, processedAt: string, saveError: Option<string>): (r: Outcome)
    ensures r.record.docId == docId && r.record.processedAt == processedAt
    ensures r.record.Failed? ==> r.record.status == "failed"
    ensures r.record.Processed? ==> r.record.fileInfo == fileInfo && r.record.fileType == fileType
  {
    var validChunks := ValidChunks(chunks, embeddings);
    var validEmbeddings := ValidEmbeddings(embeddings);
    if |validChunks| == 0 then Outcome(store, Fail(docId, NoEmbeddings, processedAt))
    else
      match VectorStore.AddDocument(store, docId, validChunks, validEmbeddings,
                                    Metadata(fileInfo, fileType, detection), createdAt)
      case Failure(e) => Outcome(store, Fail(docId, e, processedAt))
      case Success(added) =>
        var record := Processed(docId, fileInfo, fileType, detection.language, detection.confidence,
                                |text|, |validChunks|, processedAt, Substring(text, 0, PreviewLength));
        match saveError
        case Some(e) => Outcome(added.store, Fail(docId, e, processedAt))
        case None => Outcome(added.store, record)
  }

  /** With one embedding per chunk and one of them present, the valid
      chunks are added (the two filtered lists have the same length, so
      `addDocument` cannot throw) and the record is the processed one unless
      saving throws. */
  lemma IndexAdds(docId: string, fileInfo: FileInfo, fileType: string, text: string, detection: LanguageDetector.Detection,
                  chunks: seq<string>, embeddings: seq<Option<Vector>>, store: VectorStore.Store,
                  createdAt: string, processedAt: string, saveError: Option<string>, i: nat)
    requires |chunks| == |embeddings| && i < |embeddings| && embeddings[i].Some?
    ensures var validChunks := ValidChunks(chunks, embeddings);
      var added := VectorStore.AddDocument(store, docId, validChunks, ValidEmbeddings(embeddings),
                                           Metadata(fileInfo, fileType, detection), createdAt);
      var r := Index(docId, fileInfo, fileType, text, detection, chunks, embeddings, store, createdAt, processedAt, saveError);
      |validChunks| > 0 && added.Success? && r.store == added.value.store
      && (saveError.None? ==> r.record == Processed(docId, fileInfo, fileType, detection.language, detection.confidence,
                                                    |text|, |validChunks|, processedAt, Substring(text, 0, 500)))
      && (saveError.Some? ==> r.record == Failed(docId, saveError.value, "failed", processedAt))
  {
    NoneKeptIffAllNull(chunks, embeddings);
  }

  /** With every embedding `null` nothing is added and the document fails. */
  lemma IndexWithoutEmbeddings(docId: string, fileInfo: FileInfo, fileType: string, text: string,
                               detection: LanguageDetector.Detection, chunks: seq<string>, embeddings: seq<Option<Vector>>,
                               store: VectorStore.Store, createdAt: string, processedAt: string, saveError: Option<string>)
    requires |chunks| == |embeddings| && forall i :: 0 <= i < |embeddings| ==> embeddings[i].None?
    ensures Index(docId, fileInfo, fileType, text, detection, chunks, embeddings, store, createdAt, processedAt, saveError)
      == Outcome(store, Failed(docId, "Failed to generate embeddings", "failed", processedAt))
  {
    NoneKeptIffAllNull(chunks, embeddings);
  }

  /** When every embedding fails the document fails with "Failed to generate
      embeddings" and the store is left alone. */
  lemma AllEmbeddingsFail(docId: string, fileInfo: FileInfo, fileType: string, text: string, hindiWordCount: nat,
                          embed: string -> VectorStore.EmbedReply, store: VectorStore.Store,
                          createdAt: string, processedAt: string, saveError: Option<string>)
    requires Trim(text) != [] && forall c :: c in ChunksOf(text) ==> VectorStore.GenerateEmbedding(embed(c)).Failure?
    ensures Ingest(docId, fileInfo, fileType, Success(text), hindiWordCount, embed, store, createdAt, processedAt, saveError)
      == Outcome(store, Failed(docId, "Failed to generate embeddings", "failed", processedAt))
  {
    var d := LanguageDetector.DetectWithConfidence(text, hindiWordCount);
    var chunks := ChunksOf(text);
    var embeddings := VectorStore.BatchEmbeddings(chunks, embed);
    forall i | 0 <= i < |embeddings| ensures embeddings[i].None? {
      assert chunks[i] in chunks;
    }
    IndexWithoutEmbeddings(docId, fileInfo, fileType, text, d, chunks, embeddings, store, createdAt, processedAt, saveError);
  }

  /** A processed document: its language and confidence are the detector's
      verdict on the extracted text; its chunks are the text's smart chunks
      whose embedding succeeded, stored by `addDocument` (which cannot fail
      here, the two filtered lists having the same length) under the
      recorded metadata; its preview is the text's first 500 characters. */
  lemma ProcessedRecord(docId: string, fileInfo: FileInfo, fileType: string, text: string, hindiWordCount: nat,
                        embed: string -> VectorStore.EmbedReply, store: VectorStore.Store,
                        createdAt: string, processedAt: string, saveError: Option<string>)
    requires Trim(text) != [] && exists c :: c in ChunksOf(text) && VectorStore.GenerateEmbedding(embed(c)).Success?
    ensures var d := LanguageDetector.DetectWithConfidence(text, hindiWordCount);
      var embeddings := VectorStore.BatchEmbeddings(ChunksOf(text), embed);
      var validChunks := ValidChunks(ChunksOf(text), embeddings);
      var added := VectorStore.AddDocument(store, docId, validChunks, ValidEmbeddings(embeddings),
                                           Metadata(fileInfo, fileType, d), createdAt);
      var r := Ingest(docId, fileInfo, fileType, Success(text), hindiWordCount, embed, store, createdAt, processedAt, saveError);
      |validChunks| > 0 && added.Success? && r.store == added.value.store
      && (saveError.None? ==> r.record == Processed(docId, fileInfo, fileType, d.language, d.confidence, |text|,
                                                    |validChunks|, processedAt, Substring(text, 0, 500)))
      && (saveError.Some? ==> r.record == Failed(docId, saveError.value, "failed", processedAt))
  {
    var d := LanguageDetector.DetectWithConfidence(text, hindiWordCount);
    var chunks := ChunksOf(text);
    var embeddings := VectorStore.BatchEmbeddings(chunks, embed);
    var i := SomeEmbedded(chunks, embed);
    var r := Ingest(docId, fileInfo, fileType, Success(text), hindiWordCount, embed, store, createdAt, processedAt, saveError);
    assert r == Index(docId, fileInfo, fileType, text, d, chunks, embeddings, store, createdAt, processedAt, saveError);
    IndexAdds(docId, fileInfo, fileType, text, d, chunks, embeddings, store, createdAt, processedAt, saveError, i);
  }

  /** A chunk whose embedding succeeded has a position in the batch. */
  lemma SomeEmbedded(chunks: seq<string>, embed: string -> VectorStore.EmbedReply) returns (i: nat)
    requires exists c :: c in chunks && VectorStore.GenerateEmbedding(embed(c)).Success?
    ensures var embeddings := VectorStore.BatchEmbeddings(chunks, embed);
      i < |chunks| && |embeddings| == |chunks| && embeddings[i].Some?
  {
    var c :| c in chunks && VectorStore.GenerateEmbedding(embed(c)).Success?;
    i :| 0 <= i < |chunks| && chunks[i] == c;
  }

  /** The steps after embedding change the store only by the one
      `addDocument`. */
  lemma IndexStore(docId: string, fileInfo: FileInfo, fileType: string, text: string, detection: LanguageDetector.Detection,
                   chunks: seq<string>, embeddings: seq<Option<Vector>>, store: VectorStore.Store,
                   createdAt: string, processedAt: string, saveError: Option<string>)
    ensures var r := Index(docId, fileInfo, fileType, text, detection, chunks, embeddings, store, createdAt, processedAt, saveError);
      r.store == store || exists cs, es, m :: (VectorStore.AddDocument(store, docId, cs, es, m, createdAt).Success?
                                                && r.store == VectorStore.AddDocument(store, docId, cs, es, m, createdAt).value.store)
  {
    var cs, es, m := ValidChunks(chunks, embeddings), ValidEmbeddings(embeddings), Metadata(fileInfo, fileType, detection);
    var added := VectorStore.AddDocument(store, docId, cs, es, m, createdAt);
    assert |cs| == 0 || added.Failure? || added.value.store == 
      Index(docId, fileInfo, fileType, text, detection, chunks, embeddings, store, createdAt, processedAt, saveError).store;
  }

  /** The store changes only by the one `addDocument`: a document that fails
      before it leaves the store as it was. */
  lemma StoreChangesOnlyByAdd(docId: string, fileInfo: FileInfo, fileType: string, extracted: Result<string, string>,
                              hindiWordCount: nat, embed: string -> VectorStore.EmbedReply, store: VectorStore.Store,
                              createdAt: string, processedAt: string, saveError: Option<string>)
    ensures var r := Ingest(docId, fileInfo, fileType, extracted, hindiWordCount, embed, store, createdAt, processedAt, saveError);
      r.store == store || exists cs, es, m :: (VectorStore.AddDocument(store, docId, cs, es, m, createdAt).Success?
                                                && r.store == VectorStore.AddDocument(store, docId, cs, es, m, createdAt).value.store)
  {
    if extracted.Success? && Trim(extracted.value) != [] {
      var text := extracted.value;
      var d := LanguageDetector.DetectWithConfidence(text, hindiWordCount);
      var chunks := ChunksOf(text);
      var embeddings := VectorStore.BatchEmbeddings(chunks, embed);
      var r := Ingest(docId, fileInfo, fileType, extracted, hindiWordCount, embed, store, createdAt, processedAt, saveError);
      assert r == Index(docId, fileInfo, fileType, text, d, chunks, embeddings, store, createdAt, processedAt, saveError);
      IndexStore(docId, fileInfo, fileType, text, d, chunks, embeddings, store, createdAt, processedAt, saveError);
    }
  }
}

=== FILE: js_strings.dfy ===
/** The JavaScript string primitives the backend relies on, stated over
    `seq<char>`: `trim`, the `\s` class, `Array.prototype.join`,
    `startsWith`, `includes`, ASCII case mapping, and the decimal rendering
    of a non-negative integer inside a template literal. */
module JsStrings {

  /** ECMAScript WhiteSpace and LineTerminator code points: exactly what
      `String.prototype.trim` strips and what the regex class `\s` matches. */
  predicate IsSpace(c: char) {
    || c == '\t' || c == '\n' || c == '\U{B}' || c == '\U{C}' || c == '\r' || c == ' '
    || c == '\U{A0}' || c == '\U{1680}' || ('\U{2000}' <= c <= '\U{200A}')
    || c == '\U{2028}' || c == '\U{2029}' || c == '\U{202F}' || c == '\U{205F}'
    || c == '\U{3000}' || c == '\U{FEFF}'
  }

  predicate IsBlank(s: string) {
    forall i :: 0 <= i < |s| ==> IsSpace(s[i])
  }

  /** Neither end of `s` is white space. */
  predicate IsTrimmed(s: string) {
    s == [] || (!IsSpace(s[0]) && !IsSpace(s[|s| - 1]))
  }

  function TrimStart(s: string): (r: string)
    ensures |r| <= |s| && r == s[|s| - |r|..]
    ensures r == [] || !IsSpace(r[0])
    ensures IsBlank(s[..|s| - |r|])
  {
    if |s| > 0 && IsSpace(s[0]) then TrimStart(s[1..]) else s
  }

  function TrimEnd(s: string): (r: string)
    ensures |r| <= |s| && r == s[..|r|]
    ensures r == [] || !IsSpace(r[|r| - 1])
    ensures IsBlank(s[|r|..])
  {
    if |s| > 0 && IsSpace(s[|s| - 1]) then
      var r := TrimEnd(s[..|s| - 1]);
      assert s[|r|..] == s[..|s| - 1][|r|..] + [s[|s| - 1]];
      r
    else s
  }

  /** Number of white-space characters `trim` removes at the front. */
  function Lead(s: string): nat {
    |s| - |TrimStart(s)|
  }

  /** `String.prototype.trim`: the unique slice of `s` that is trimmed and
      is surrounded in `s` by white space only. */
  function Trim(s: string): (r: string)
    ensures IsTrimmed(r) && |r| <= |s|
  {
    var t := TrimStart(s);
    var r := TrimEnd(t);
    assert r == [] || r[0] == t[0];
    r
  }

  /** The result of `trim` is the slice of its argument after the leading
      white space. */
  lemma TrimIsSlice(s: string)
    ensures Lead(s) + |Trim(s)| <= |s| && Trim(s) == s[Lead(s)..Lead(s) + |Trim(s)|]
  {
    TrimShape(s);
  }

  /** Where the result of `trim` sits in its argument. */
  lemma TrimShape(s: string)
    ensures var r := Trim(s);
      Lead(s) + |r| <= |s| && r == s[Lead(s)..Lead(s) + |r|]
      && IsBlank(s[..Lead(s)]) && IsBlank(s[Lead(s) + |r|..])
  {
    TrimSlices(s, TrimStart(s), Trim(s), Lead(s));
  }

  /** How the two halves of `trim` fit together: `t` is what remains of `s`
      after the `l` characters of the front are stripped, `r` what remains
      of `t` after the end is. */
  lemma TrimSlices(s: string, t: string, r: string, l: nat)
    requires l == |s| - |t|
    requires |t| <= |s| && t == s[l..] && IsBlank(s[..l]) && (t == [] || !IsSpace(t[0]))
    requires |r| <= |t| && r == t[..|r|] && IsBlank(t[|r|..]) && (r == [] || !IsSpace(r[|r| - 1]))
    ensures IsTrimmed(r)
    ensures l + |r| <= |s| && r == s[l..l + |r|]
    ensures IsBlank(s[l + |r|..])
  {
    assert r == [] || r[0] == t[0];
    assert s[l + |r|..] == t[|r|..];
  }

  /** `text.trim().length === 0`: trimming leaves nothing exactly when every
      character is white space. */
  lemma TrimEmptyIffBlank(s: string)
    ensures Trim(s) == [] <==> IsBlank(s)
  {
    TrimShape(s);
    if Trim(s) == [] {
      forall i | 0 <= i < |s| ensures IsSpace(s[i]) {
        if i < Lead(s) {
          assert s[i] == s[..Lead(s)][i];
        } else {
          assert s[i] == s[Lead(s)..][i - Lead(s)];
        }
      }
    } else {
      var r := Trim(s);
      assert r[0] == s[Lead(s)];
      assert !IsSpace(s[Lead(s)]);
    }
  }

  /** Trimming a string that is already trimmed changes nothing. */
  lemma TrimOfTrimmed(s: string)
    requires IsTrimmed(s)
    ensures Trim(s) == s
  {
    assert TrimStart(s) == s;
    assert TrimEnd(s) == s;
  }

  /** White space added at the front is removed again by `trim`. */
  lemma TrimIgnoresLeadingSpace(c: char, s: string)
    requires IsSpace(c)
    ensures Trim([c] + s) == Trim(s)
  {
    assert ([c] + s)[1..] == s;
  }

  /** `Array.prototype.join(sep)`. */
  function Join(sep: string, parts: seq<string>): string {
    if |parts| == 0 then ""
    else if |parts| == 1 then parts[0]
    else Join(sep, parts[..|parts| - 1]) + sep + parts[|parts| - 1]
  }

  function SumLengths(parts: seq<string>): nat {
    if |parts| == 0 then 0 else SumLengths(parts[..|parts| - 1]) + |parts[|parts| - 1]|
  }

  /** A join holds every part and one separator between neighbours. */
  lemma {:induction false} JoinLength(sep: string, parts: seq<string>)
    requires |parts| > 0
    ensures |Join(sep, parts)| == SumLengths(parts) + (|parts| - 1) * |sep|
  {
    if |parts| > 1 {
      var init := parts[..|parts| - 1];
      JoinLength(sep, init);
      assert |Join(sep, parts)| == |Join(sep, init)| + |sep| + |parts[|parts| - 1]|;
      assert (|parts| - 1) * |sep| == (|init| - 1) * |sep| + |sep|;
    }
  }

  /** Joining a list with one more element appends the separator and it. */
  lemma JoinSnoc(sep: string, parts: seq<string>, x: string)
    requires |parts| > 0
    ensures Join(sep, parts + [x]) == Join(sep, parts) + sep + x
  {
    assert (parts + [x])[..|parts|] == parts;
  }

  /** A join of one part is that part, whatever the separator. */
  lemma JoinSingle(sep: string, x: string)
    ensures Join(sep, [x]) == x
  {
  }

  predicate StartsWith(s: string, prefix: string) {
    |prefix| <= |s| && s[..|prefix|] == prefix
  }

  /** `String.prototype.includes`. */
  predicate Contains(s: string, sub: string)
    decreases |s|
  {
    StartsWith(s, sub) || (|s| > 0 && Contains(s[1..], sub))
  }

  /** Every string contains itself. */
  lemma ContainsSelf(s: string)
    ensures Contains(s, s)
  {
  }

  /** A string contains whatever its suffix `s[k..]` starts with. */
  lemma {:induction false} ContainsAt(s: string, k: nat, sub: string)
    requires k <= |s| && StartsWith(s[k..], sub)
    ensures Contains(s, sub)
    decreases k
  {
    if k > 0 {
      assert s[1..][k - 1..] == s[k..];
      ContainsAt(s[1..], k - 1, sub);
    }
  }

  /** Whatever the middle of `a + m + b` contains, the whole string contains. */
  lemma ContainsMiddle(a: string, m: string, b: string)
    ensures Contains(a + m + b, m)
  {
    var s := a + m + b;
    assert s[|a|..][..|m|] == m;
    ContainsAt(s, |a|, m);
  }

  /** A `substring` bound: clamped into `[0, len]`. */
  function Clamp(i: int, len: nat): (r: nat)
    ensures r <= len
  {
    if i < 0 then 0 else if i > len then len else i
  }

  /** `String.prototype.substring(start, end)`: both bounds are clamped and
      swapped when they are out of order. */
  function Substring(s: string, start: int, end: int): (r: string)
    ensures |r| <= |s|
  {
    var a, b := Clamp(start, |s|), Clamp(end, |s|);
    if a <= b then s[a..b] else s[b..a]
  }

  /** `substring(0, n)` is the first `n` characters, or all of a shorter
      string. */
  lemma SubstringPrefix(s: string, n: int)
    requires n >= 0
    ensures Substring(s, 0, n) == if n < |s| then s[..n] else s
  {
  }

  /** Text around a string does not hide what it contains. */
  lemma {:induction false} ContainsExtend(s: string, t: string, sub: string)
    requires Contains(s, sub)
    ensures Contains(s + t, sub)
    decreases |s|
  {
    if !StartsWith(s, sub) {
      assert (s + t)[1..] == s[1..] + t;
      ContainsExtend(s[1..], t, sub);
    } else {
      assert (s + t)[..|sub|] == s[..|sub|];
    }
  }

  lemma {:induction false} ContainsPrepend(a: string, s: string, sub: string)
    requires Contains(s, sub)
    ensures Contains(a + s, sub)
  {
    if a == [] {
      assert a + s == s;
    } else {
      ContainsPrepend(a[1..], s, sub);
      assert (a + s)[1..] == a[1..] + s;
    }
  }

  /** A join contains each of its parts. */
  lemma {:induction false} JoinHasPart(sep: string, parts: seq<string>, i: nat)
    requires i < |parts|
    ensures Contains(Join(sep, parts), parts[i])
  {
    var last := |parts| - 1;
    if last == 0 {
      ContainsSelf(parts[0]);
    } else if i == last {
      ContainsMiddle(Join(sep, parts[..last]) + sep, parts[i], "");
      assert Join(sep, parts[..last]) + sep + parts[i] + "" == Join(sep, parts);
    } else {
      JoinHasPart(sep, parts[..last], i);
      ContainsExtend(Join(sep, parts[..last]), sep + parts[last], parts[i]);
      assert Join(sep, parts[..last]) + (sep + parts[last]) == Join(sep, parts);
    }
  }

  predicate IsAsciiUpper(c: char) { 'A' <= c <= 'Z' }

  predicate IsAsciiLower(c: char) { 'a' <= c <= 'z' }

  function ToLowerChar(c: char): char {
    if IsAsciiUpper(c) then (c as int + 32) as char else c
  }

  /** `toLowerCase` restricted to the ASCII letters. */
  function ToLower(s: string): (r: string)
    ensures |r| == |s|
    ensures forall i :: 0 <= i < |s| ==> r[i] == ToLowerChar(s[i])
    ensures forall i :: 0 <= i < |r| ==> !IsAsciiUpper(r[i])
  {
    seq(|s|, i requires 0 <= i < |s| => ToLowerChar(s[i]))
  }

  predicate IsDigit(c: char) { '0' <= c <= '9' }

  function DigitChar(d: nat): (c: char)
    requires d < 10
    ensures IsDigit(c)
  {
    ('0' as int + d) as char
  }

  /** The decimal numeral of `n`, as `${n}` renders it. */
  function Decimal(n: nat): (r: string)
    ensures |r| >= 1
    ensures forall i :: 0 <= i < |r| ==> IsDigit(r[i])
    decreases n
  {
    if n < 10 then [DigitChar(n)] else Decimal(n / 10) + [DigitChar(n % 10)]
  }

  function DigitValue(c: char): nat
    requires IsDigit(c)
  {
    c as int - '0' as int
  }

  /** The value of a numeral: the reading direction of `Decimal`. */
  function DecimalValue(s: string): nat
    requires forall i :: 0 <= i < |s| ==> IsDigit(s[i])
  {
    if |s| == 0 then 0
    else 10 * DecimalValue(s[..|s| - 1]) + DigitValue(s[|s| - 1])
  }

  /** Reading back a rendered numeral gives the number again. */
  lemma {:induction false} DecimalRoundTrip(n: nat)
    ensures DecimalValue(Decimal(n)) == n
    decreases n
  {
    if n >= 10 {
      var r := Decimal(n);
      assert r[..|r| - 1] == Decimal(n / 10);
      DecimalRoundTrip(n / 10);
    }
  }

  /** Distinct numbers render as distinct numerals. */
  lemma DecimalInjective(m: nat, n: nat)
    requires Decimal(m) == Decimal(n)
    ensures m == n
  {
    DecimalRoundTrip(m);
    DecimalRoundTrip(n);
  }

  /** The characters of `s` that are not white space, in order. */
  function NonSpaces(s: string): string {
    if s == [] then []
    else if IsSpace(s[0]) then NonSpaces(s[1..])
    else [s[0]] + NonSpaces(s[1..])
  }

  lemma {:induction false} NonSpacesOfBlankPrefix(s: string, k: nat)
    requires k <= |s| && IsBlank(s[..k])
    ensures NonSpaces(s) == NonSpaces(s[k..])
    decreases k
  {
    if k > 0 {
      assert IsSpace(s[..k][0]);
      assert s[1..][..k - 1] == s[..k][1..];
      NonSpacesOfBlankPrefix(s[1..], k - 1);
      assert s[1..][k - 1..] == s[k..];
    }
  }

  /** No white space other than the ordinary space, and never two white-space
      characters side by side. */
  predicate IsCollapsed(r: string) {
    && (forall i :: 0 <= i < |r| && IsSpace(r[i]) ==> r[i] == ' ')
    && (forall i :: 0 <= i < |r| - 1 ==> !SpacePair(r, i))
  }

  /** White space at `i` and at `i + 1`. */
  predicate SpacePair(r: string, i: nat)
    requires i + 1 < |r|
  {
    IsSpace(r[i]) && IsSpace(r[i + 1])
  }

  /** `s.replace(/\s+/g, ' ')`: every maximal run of white space becomes a
      single ordinary space; nothing else changes. */
  function CollapseSpaces(s: string): (r: string)
    ensures IsCollapsed(r)
    ensures r == [] <==> s == []
    ensures |s| > 0 ==> (IsSpace(r[0]) <==> IsSpace(s[0]))
    decreases |s|
  {
    if s == [] then []
    else if IsSpace(s[0]) then
      var x := CollapseSpaces(TrimStart(s));
      CollapsedCons(' ', x);
      [' '] + x
    else
      var x := CollapseSpaces(s[1..]);
      CollapsedCons(s[0], x);
      [s[0]] + x
  }

  /** A character put in front of a collapsed string keeps it collapsed
      when it is an ordinary space before a non-space, or not a space. */
  lemma CollapsedCons(c: char, x: string)
    requires IsCollapsed(x)
    requires IsSpace(c) ==> c == ' ' && (x == [] || !IsSpace(x[0]))
    ensures IsCollapsed([c] + x)
  {
    var r := [c] + x;
    forall i | 0 <= i < |r| - 1
      ensures !SpacePair(r, i)
    {
      if i > 0 {
        assert !SpacePair(x, i - 1);
      }
    }
  }

  /** Collapsing loses no character other than white space. */
  lemma {:induction false} CollapseKeepsNonSpaces(s: string)
    ensures NonSpaces(CollapseSpaces(s)) == NonSpaces(s)
    decreases |s|
  {
    if s != [] {
      if IsSpace(s[0]) {
        var t := TrimStart(s);
        var x := CollapseSpaces(t);
        assert CollapseSpaces(s) == [' '] + x;
        CollapseKeepsNonSpaces(t);
        NonSpacesOfBlankPrefix(s, |s| - |t|);
        NonSpacesCons(' ', x);
      } else {
        var x := CollapseSpaces(s[1..]);
        assert CollapseSpaces(s) == [s[0]] + x;
        CollapseKeepsNonSpaces(s[1..]);
        NonSpacesCons(s[0], x);
        assert s == [s[0]] + s[1..];
        NonSpacesCons(s[0], s[1..]);
      }
    }
  }

  lemma NonSpacesCons(c: char, x: string)
    ensures NonSpaces([c] + x) == (if IsSpace(c) then [] else [c]) + NonSpaces(x)
  {
    assert ([c] + x)[1..] == x;
  }

  /** A string that does not end in white space still does not after
      collapsing. */
  lemma {:induction false} CollapseKeepsLastChar(s: string)
    requires |s| > 0 && !IsSpace(s[|s| - 1])
    ensures var r := CollapseSpaces(s); |r| > 0 && r[|r| - 1] == s[|s| - 1]
    decreases |s|
  {
    if IsSpace(s[0]) {
      var t := TrimStart(s);
      assert t != [] && t[|t| - 1] == s[|s| - 1];
      CollapseKeepsLastChar(t);
    } else if |s| > 1 {
      assert s[1..][|s| - 2] == s[|s| - 1];
      CollapseKeepsLastChar(s[1..]);
    }
  }

  /** Collapsing a trimmed string gives a trimmed string. */
  lemma CollapseKeepsTrimmed(s: string)
    requires IsTrimmed(s)
    ensures IsTrimmed(CollapseSpaces(s))
  {
    if s != [] {
      CollapseKeepsLastChar(s);
    }
  }

  /** The parts written one after another (`join('')`). */
  function Concat<T>(ss: seq<seq<T>>): seq<T> {
    if ss == [] then [] else ss[0] + Concat(ss[1..])
  }

  lemma {:induction false} ConcatAppend<T>(a: seq<seq<T>>, b: seq<seq<T>>)
    ensures Concat(a + b) == Concat(a) + Concat(b)
  {
    if a != [] {
      assert (a + b)[1..] == a[1..] + b;
      ConcatAppend(a[1..], b);
    } else {
      assert a + b == b;
    }
  }

  lemma ConcatOne<T>(x: seq<T>)
    ensures Concat([x]) == x
  {
    assert [x][1..] == [];
  }

  lemma {:induction false} NonSpacesAppend(a: string, b: string)
    ensures NonSpaces(a + b) == NonSpaces(a) + NonSpaces(b)
  {
    if a != [] {
      assert (a + b)[1..] == a[1..] + b;
      NonSpacesAppend(a[1..], b);
    } else {
      assert a + b == b;
    }
  }

  lemma NonSpacesBlank(s: string)
    requires IsBlank(s)
    ensures NonSpaces(s) == []
  {
    NonSpacesOfBlankPrefix(s, |s|);
  }

  /** Trimming removes white space only. */
  lemma NonSpacesTrim(s: string)
    ensures NonSpaces(Trim(s)) == NonSpaces(s)
  {
    var r := Trim(s);
    var l := Lead(s);
    TrimShape(s);
    NonSpacesBetween(s, l, l + |r|);
  }

  /** Only the part between two blank ends contributes characters. */
  lemma NonSpacesBetween(s: string, i: nat, j: nat)
    requires i <= j <= |s| && IsBlank(s[..i]) && IsBlank(s[j..])
    ensures NonSpaces(s) == NonSpaces(s[i..j])
  {
    NonSpacesOfBlankPrefix(s, i);
    var m, c := s[i..j], s[j..];
    assert s[i..] == m + c;
    NonSpacesAppend(m, c);
    NonSpacesBlank(c);
  }
}

=== FILE: json.dfy ===
/** The JavaScript values that flow through the backend's plain objects
    (metadata, request payloads, API responses). An object is an
    insertion-ordered list of fields, handled with the `OrderedMap`
    operations. */
module Json {

  datatype Value =
    | Str(s: string)
    | Num(n: real)
    | Bool(b: bool)
    | Null
    | Obj(fields: seq<(string, Value)>)

  type Object = seq<(string, Value)>
}

=== FILE: language_detector.dfy ===
/** The script-counting language heuristic of `LanguageDetector`. The text
    is a sequence of characters and its length is the number of characters.
    The percentages are computed on exact rationals. The number of
    matches of the Hindi common-word pattern is an input, not a regex run. */
module LanguageDetector {
  import opened JsStrings

  /** A character of the Devanagari block, U+0900 to U+097F. */
  predicate IsDevanagari(c: char) {
    'ऀ' <= c <= 'ॿ'
  }

  /** A character matched by `[a-zA-Z]`. */
  predicate IsLatin(c: char) {
    IsAsciiUpper(c) || IsAsciiLower(c)
  }

  /** Number of Devanagari characters: the length of the list of matches of
      the global `[ऀ-ॿ]` pattern, or 0 when it matches nothing. */
  function CountDevanagari(s: string): (n: nat)
    ensures n <= |s|
  {
    if s == [] then 0
    else (if IsDevanagari(s[0]) then 1 else 0) + CountDevanagari(s[1..])
  }

  /** Number of ASCII letters. */
  function CountLatin(s: string): (n: nat)
    ensures n <= |s|
  {
    if s == [] then 0
    else (if IsLatin(s[0]) then 1 else 0) + CountLatin(s[1..])
  }

  /** No character is both a Devanagari character and an ASCII letter, so
      the two counts together never exceed the length. */
  lemma {:induction false} CountsDisjoint(s: string)
    ensures CountDevanagari(s) + CountLatin(s) <= |s|
  {
    if s != [] {
      CountsDisjoint(s[1..]);
    }
  }

  /** A text made only of Devanagari characters counts every one. */
  lemma {:induction false} CountAllDevanagari(s: string)
    requires forall i :: 0 <= i < |s| ==> IsDevanagari(s[i])
    ensures CountDevanagari(s) == |s|
  {
    if s != [] {
      CountAllDevanagari(s[1..]);
    }
  }

  /** White space holds no Devanagari character. */
  lemma {:induction false} BlankHasNoDevanagari(s: string)
    requires IsBlank(s)
    ensures CountDevanagari(s) == 0
  {
    if s != [] {
      assert IsSpace(s[0]);
      BlankHasNoDevanagari(s[1..]);
    }
  }

  /** `(count / total) * 100`, as a rational. */
  function Percent(count: nat, total: nat): (p: real)
    requires total > 0
    ensures 0.0 <= p
    ensures count <= total ==> p <= 100.0
  {
    var ratio := count as real / total as real;
    assert 0.0 <= ratio;
    assert count <= total ==> ratio <= 1.0 by {
      if count <= total {
        assert ratio * total as real == count as real;
        if ratio > 1.0 {
          MulAbove(ratio, total as real);
          assert false;
        }
      }
    }
    ratio * 100.0
  }

  lemma MulAbove(x: real, y: real)
    requires x > 1.0 && y > 0.0
    ensures x * y > y
  {
  }

  /** A percentage exceeds `t` exactly when `100 * count` exceeds
      `t * total`: the thresholds are integer comparisons. */
  lemma PercentAbove(count: nat, total: nat, t: nat)
    requires total > 0
    ensures Percent(count, total) > t as real <==> 100 * count > t * total
  {
    var p, q, b := Percent(count, total), t as real, total as real;
    var pb, qb := p * b, q * b;
    var x, y := 100 * count, t * total;
    assert pb == x as real by {
      PercentTimes(count, total);
      CastProduct(100, count);
    }
    assert qb == y as real by {
      CastProduct(t, total);
    }
    assert p > q <==> pb > qb by {
      ScaleCompare(p, q, b);
    }
    Transfer(p, q, pb, qb, x, y);
  }

  /** Carrying a comparison over equal values and into the integers. */
  lemma Transfer(p: real, q: real, pb: real, qb: real, x: int, y: int)
    requires (p > q <==> pb > qb) && pb == x as real && qb == y as real
    ensures p > q <==> x > y
  {
    CastCompare(x, y);
  }

  lemma CastCompare(x: int, y: int)
    ensures x as real > y as real <==> x > y
  {
  }

  /** Undoing the division: the percentage times the total is a hundred
      times the count. */
  lemma PercentTimes(count: nat, total: nat)
    requires total > 0
    ensures Percent(count, total) * total as real == 100.0 * count as real
  {
    var b := total as real;
    var ratio := count as real / b;
    assert ratio * b == count as real;
    assert (ratio * 100.0) * b == 100.0 * (ratio * b);
  }

  lemma CastProduct(x: nat, y: nat)
    ensures (x * y) as real == x as real * y as real
  {
  }

  /** Multiplying both sides by a positive factor keeps a strict order. */
  lemma ScaleCompare(p: real, t: real, b: real)
    requires b > 0.0
    ensures p > t <==> p * b > t * b
  {
    if p > t {
      assert (p - t) * b > 0.0;
    } else {
      assert (t - p) * b >= 0.0;
    }
  }

  /** `detect(text)`, given the number of Hindi common-word matches in
      `text`. Blank text is English; otherwise a Devanagari share above 20%
      means Hindi, an ASCII-letter share above 80% English, more than three
      Hindi words Hindi, and anything else English. No other code, `'mixed'`
      included, is ever produced. */
  function Detect(text: string, hindiWordCount: nat): (r: string)
    ensures r == "en" || r == "hi"
    ensures Trim(text) == [] ==> r == "en"
  {
    if Trim(text) == [] then "en"
    else
      var total := |text|;
      var devanagariPercent := Percent(CountDevanagari(text), total);
      var latinPercent := Percent(CountLatin(text), total);
      if devanagariPercent > 20.0 then "hi"
      else if latinPercent > 80.0 then "en"
      else if hindiWordCount > 3 then "hi"
      else "en"
  }

  /** The cascade with integer thresholds: `5 * devanagari > length` and
      `5 * latin > 4 * length`. */
  lemma DetectThresholds(text: string, hindiWordCount: nat)
    ensures var dev := CountDevanagari(text);
      var latin := CountLatin(text);
      var len := |text|;
      Detect(text, hindiWordCount) ==
        if Trim(text) == [] then "en"
        else if 5 * dev > len then "hi"
        else if 5 * latin > 4 * len then "en"
        else if hindiWordCount > 3 then "hi"
        else "en"
  {
    if Trim(text) != [] {
      PercentAbove(CountDevanagari(text), |text|, 20);
      PercentAbove(CountLatin(text), |text|, 80);
    }
  }

  /** Non-blank text made only of Devanagari characters is Hindi, whatever
      the word count. */
  lemma DevanagariTextIsHindi(text: string, hindiWordCount: nat)
    requires Trim(text) != []
    requires forall i :: 0 <= i < |text| ==> IsDevanagari(text[i])
    ensures Detect(text, hindiWordCount) == "hi"
  {
    CountAllDevanagari(text);
    DetectThresholds(text, hindiWordCount);
  }

  /** Text with more than 80% ASCII letters is English, whatever the word
      count: the Devanagari share is then below 20% on its own. */
  lemma LatinTextIsEnglish(text: string, hindiWordCount: nat)
    requires 5 * CountLatin(text) > 4 * |text|
    ensures Detect(text, hindiWordCount) == "en"
  {
    CountsDisjoint(text);
    DetectThresholds(text, hindiWordCount);
  }

  /** The Hindi word count decides only when neither script share does. */
  lemma WordCountDecidesMiddle(text: string, m: nat, n: nat)
    requires Detect(text, m) != Detect(text, n)
    ensures Trim(text) != []
    ensures 5 * CountDevanagari(text) <= |text| && 5 * CountLatin(text) <= 4 * |text|
    ensures Detect(text, m) == "hi" <==> m > 3
  {
    DetectThresholds(text, m);
    DetectThresholds(text, n);
  }

  datatype Detection = Detection(language: string, confidence: real)

  function Min(a: real, b: real): real {
    if a <= b then a else b
  }

  /** The branch cascade of `detectWithConfidence` on the counts of a text
      of length `len`, with the final clamp to 1. */
  function Classify(dev: nat, latin: nat, len: nat, hindiWordCount: nat): (r: Detection)
    requires len > 0
  {
    var devanagariPercent := Percent(dev, len);
    var latinPercent := Percent(latin, len);
    var d :=
      if devanagariPercent > 20.0 then
        Detection("hi", Min(1.0, devanagariPercent / 100.0 + hindiWordCount as real * 0.1))
      else if latinPercent > 80.0 then Detection("en", latinPercent / 100.0)
      else if hindiWordCount > 3 then Detection("hi", 0.7 + hindiWordCount as real * 0.05)
      else Detection("en", 0.5);
    Detection(d.language, Min(1.0, d.confidence))
  }

  /** `detectWithConfidence(text)`: the same language as `detect`, with a
      confidence above 0.2 and at most 1. */
  function DetectWithConfidence(text: string, hindiWordCount: nat): (r: Detection)
    ensures r.language == Detect(text, hindiWordCount)
    ensures 0.2 < r.confidence <= 1.0
    ensures Trim(text) == [] ==> r == Detection("en", 0.5)
  {
    if Trim(text) == [] then Detection("en", 0.5)
    else
      var r := Classify(CountDevanagari(text), CountLatin(text), |text|, hindiWordCount);
      ClassifyFacts(CountDevanagari(text), CountLatin(text), |text|, hindiWordCount);
      r
  }

  /** The cascade picks the language `detect` picks, with a confidence
      above 0.2 and at most 1. */
  lemma ClassifyFacts(dev: nat, latin: nat, len: nat, hindiWordCount: nat)
    requires len > 0
    ensures var r := Classify(dev, latin, len, hindiWordCount);
      && 0.2 < r.confidence <= 1.0
      && r.language == if Percent(dev, len) > 20.0 then "hi"
                       else if Percent(latin, len) > 80.0 then "en"
                       else if hindiWordCount > 3 then "hi"
                       else "en"
  {
    var dp := Percent(dev, len);
    var lp := Percent(latin, len);
    var h := hindiWordCount as real;
    if dp > 20.0 {
      assert dp / 100.0 > 0.2;
      assert dp / 100.0 + h * 0.1 > 0.2;
    } else if lp > 80.0 {
      assert lp / 100.0 > 0.8;
    } else if hindiWordCount > 3 {
      assert 0.7 + h * 0.05 > 0.2;
    }
  }

  /** `Percent` divided back by 100 is the share itself. */
  lemma PercentShare(count: nat, total: nat)
    requires total > 0
    ensures Percent(count, total) / 100.0 == count as real / total as real
  {
  }

  /** In the English-dominant branch the confidence is the ASCII-letter
      share of the text. */
  lemma ConfidenceOfEnglish(text: string, hindiWordCount: nat)
    requires Trim(text) != []
    requires 5 * CountLatin(text) > 4 * |text|
    ensures DetectWithConfidence(text, hindiWordCount).confidence == CountLatin(text) as real / |text| as real
  {
    var len := |text|;
    var dev := CountDevanagari(text);
    var latin := CountLatin(text);
    CountsDisjoint(text);
    ClassifyEnglish(dev, latin, len, hindiWordCount);
  }

  lemma ClassifyEnglish(dev: nat, latin: nat, len: nat, hindiWordCount: nat)
    requires len > 0 && dev + latin <= len && 5 * latin > 4 * len
    ensures Classify(dev, latin, len, hindiWordCount).confidence == latin as real / len as real
  {
    PercentAbove(dev, len, 20);
    PercentAbove(latin, len, 80);
    PercentShare(latin, len);
  }

  /** In the word-count branch the confidence is 1 from six words on. */
  lemma ConfidenceOfHindiWords(text: string, hindiWordCount: nat)
    requires Trim(text) != []
    requires 5 * CountDevanagari(text) <= |text| && 5 * CountLatin(text) <= 4 * |text|
    requires hindiWordCount > 3
    ensures DetectWithConfidence(text, hindiWordCount).confidence ==
      if hindiWordCount >= 6 then 1.0 else 0.7 + hindiWordCount as real * 0.05
  {
    ClassifyHindiWords(CountDevanagari(text), CountLatin(text), |text|, hindiWordCount);
  }

  lemma ClassifyHindiWords(dev: nat, latin: nat, len: nat, hindiWordCount: nat)
    requires len > 0 && 5 * dev <= len && 5 * latin <= 4 * len && hindiWordCount > 3
    ensures Classify(dev, latin, len, hindiWordCount).confidence ==
      if hindiWordCount >= 6 then 1.0 else 0.7 + hindiWordCount as real * 0.05
  {
    PercentAbove(dev, len, 20);
    PercentAbove(latin, len, 80);
  }

  /** In the Devanagari-dominant branch the confidence is the Devanagari
      share plus 0.1 per Hindi word, capped at 1. */
  lemma ConfidenceOfDevanagari(text: string, hindiWordCount: nat)
    requires 5 * CountDevanagari(text) > |text|
    ensures DetectWithConfidence(text, hindiWordCount) ==
      Detection("hi", Min(1.0, CountDevanagari(text) as real / |text| as real + hindiWordCount as real * 0.1))
  {
    DevanagariNotBlank(text);
    ClassifyDevanagari(CountDevanagari(text), CountLatin(text), |text|, hindiWordCount);
  }

  lemma DevanagariNotBlank(text: string)
    requires CountDevanagari(text) > 0
    ensures Trim(text) != []
  {
    TrimEmptyIffBlank(text);
    if IsBlank(text) {
      BlankHasNoDevanagari(text);
    }
  }

  lemma ClassifyDevanagari(dev: nat, latin: nat, len: nat, hindiWordCount: nat)
    requires len > 0 && 5 * dev > len
    ensures Classify(dev, latin, len, hindiWordCount) ==
      Detection("hi", Min(1.0, dev as real / len as real + hindiWordCount as real * 0.1))
  {
    PercentAbove(dev, len, 20);
    PercentShare(dev, len);
  }

  /** Non-blank text below both script thresholds and with at most three
      Hindi words keeps the default: English at 0.5. */
  lemma ConfidenceDefault(text: string, hindiWordCount: nat)
    requires Trim(text) != []
    requires 5 * CountDevanagari(text) <= |text| && 5 * CountLatin(text) <= 4 * |text|
    requires hindiWordCount <= 3
    ensures DetectWithConfidence(text, hindiWordCount) == Detection("en", 0.5)
  {
    ClassifyDefault(CountDevanagari(text), CountLatin(text), |text|, hindiWordCount);
  }

  lemma ClassifyDefault(dev: nat, latin: nat, len: nat, hindiWordCount: nat)
    requires len > 0 && 5 * dev <= len && 5 * latin <= 4 * len && hindiWordCount <= 3
    ensures Classify(dev, latin, len, hindiWordCount) == Detection("en", 0.5)
  {
    PercentAbove(dev, len, 20);
    PercentAbove(latin, len, 80);
  }

  /** Keys that a plain object literal inherits from `Object.prototype`:
      looking them up yields a function or an object, never `undefined`. */
  const InheritedKeys: set<string> := {
    "constructor", "hasOwnProperty", "isPrototypeOf", "propertyIsEnumerable",
    "toLocaleString", "toString", "valueOf", "__proto__",
    "__defineGetter__", "__defineSetter__", "__lookupGetter__", "__lookupSetter__"
  }

  /** What `getLanguageName` returns: a name, or the inherited member found
      under one of the `Object.prototype` keys. */
  datatype LanguageName = Name(name: string) | Inherited(key: string)

  /** `getLanguageName(code)`: the three own keys map to their names, an
      inherited key to the inherited member, and every other code to
      `'Unknown'`. */
  function GetLanguageName(code: string): (r: LanguageName)
    ensures r == Name("English") <==> code == "en"
    ensures r == Name("Hindi") <==> code == "hi"
    ensures r == Name("Mixed (English & Hindi)") <==> code == "mixed"
    ensures r.Inherited? <==> code in InheritedKeys
    ensures r == Name("Unknown") <==> code !in {"en", "hi", "mixed"} && code !in InheritedKeys
  {
    if code == "en" then Name("English")
    else if code == "hi" then Name("Hindi")
    else if code == "mixed" then Name("Mixed (English & Hindi)")
    else if code in InheritedKeys then Inherited(code)
    else Name("Unknown")
  }

  /** Whatever `detect` returns has a proper name. */
  lemma DetectedHasName(text: string, hindiWordCount: nat)
    ensures GetLanguageName(Detect(text, hindiWordCount)) in {Name("English"), Name("Hindi")}
  {
  }
}

=== FILE: ocr_fallback.dfy ===
/** `OCRFallback`: what the upload pipeline falls back to when OCR of an
    image fails. The only strategy that can produce text is reading the
    file name; the Google Vision strategy is a stub that never answers, and
    the last resort is a fixed placeholder. */
module OcrFallback {
  import opened Wrappers
  import opened JsStrings

  predicate IsSeparator(c: char) {
    c == '/' || c == '\\'
  }

  /** The last piece of `path.split(/[\\/]/)`: the longest suffix without a
      separator. */
  function LastSegment(path: string): (r: string)
    ensures |r| <= |path| && r == path[|path| - |r|..]
    ensures forall i :: 0 <= i < |r| ==> !IsSeparator(r[i])
    ensures |r| < |path| ==> IsSeparator(path[|path| - |r| - 1])
  {
    if path == [] || IsSeparator(path[|path| - 1]) then []
    else
      var r := LastSegment(path[..|path| - 1]) + [path[|path| - 1]];
      assert path[..|path| - 1][|path| - |r|..] == path[|path| - |r|..|path| - 1];
      r
  }

  /** `imagePath.split(/[\\/]/).pop() || 'image'`. */
  function Basename(path: string): (r: string)
    ensures r != []
  {
    var s := LastSegment(path);
    if s == [] then "image" else s
  }

  predicate StopsExtension(c: char) {
    c == '.' || c == '/'
  }

  /** Length of the longest suffix holding neither `.` nor `/`. */
  function ExtLength(s: string): (n: nat)
    ensures n <= |s|
    ensures forall i :: |s| - n <= i < |s| ==> !StopsExtension(s[i])
    ensures n < |s| ==> StopsExtension(s[|s| - n - 1])
  {
    if s == [] || StopsExtension(s[|s| - 1]) then 0
    else
      var n := 1 + ExtLength(s[..|s| - 1]);
      assert forall i :: |s| - n <= i < |s| - 1 ==> s[i] == s[..|s| - 1][i];
      n
  }

  /** `name.replace(/\.[^/.]+$/, '')`. The only place the pattern can match
      is a `.` directly before the longest suffix without `.` or `/`, and
      only when that suffix is not empty: exactly one extension goes. */
  function StripExtension(s: string): (r: string)
    ensures r == s || (|r| < |s| && s[..|r|] == r && s[|r|] == '.' && ValidExtension(s[|r| + 1..]))
  {
    var n := ExtLength(s);
    if n > 0 && n < |s| && s[|s| - n - 1] == '.' then
      assert s[|s| - n..] == s[|s| - n - 1 + 1..];
      s[..|s| - n - 1]
    else s
  }

  /** What the pattern's `[^/.]+` accepts. */
  predicate ValidExtension(e: string) {
    |e| > 0 && forall i :: 0 <= i < |e| ==> !StopsExtension(e[i])
  }

  /** The stripped name is unique: a name followed by one valid extension
      loses exactly that extension. */
  lemma StripExtensionOf(r: string, e: string)
    requires ValidExtension(e)
    ensures StripExtension(r + "." + e) == r
  {
    var s := r + "." + e;
    assert ExtLength(s) == |e| by {
      ExtLengthOf(s, |e|);
    }
    assert s[..|r|] == r;
  }

  lemma ExtLengthOf(s: string, n: nat)
    requires n <= |s| && forall i :: |s| - n <= i < |s| ==> !StopsExtension(s[i])
    requires n < |s| ==> StopsExtension(s[|s| - n - 1])
    ensures ExtLength(s) == n
  {
  }

  /** A name whose last `.` has nothing after it, or that has no `.` at all,
      keeps its name. */
  lemma StripExtensionKeeps(s: string)
    requires forall i :: 0 <= i < |s| ==> !StopsExtension(s[i])
    ensures StripExtension(s) == s
  {
  }

  /** Hyphens and underscores become spaces. */
  function SpaceDashes(s: string): (r: string)
    ensures |r| == |s|
    ensures forall i :: 0 <= i < |s| ==> r[i] == if s[i] == '-' || s[i] == '_' then ' ' else s[i]
  {
    if s == [] then []
    else [if s[0] == '-' || s[0] == '_' then ' ' else s[0]] + SpaceDashes(s[1..])
  }

  /** A lower-case ASCII letter directly followed by an upper-case one. */
  predicate CamelPair(s: string, i: nat)
    requires i + 1 < |s|
  {
    IsAsciiLower(s[i]) && IsAsciiUpper(s[i + 1])
  }

  function CamelPairs(s: string): nat {
    if |s| < 2 then 0
    else (if CamelPair(s, 0) then 1 else 0) + CamelPairs(s[1..])
  }

  /** `.replace(/([a-z])([A-Z])/g, '$1 $2')`. The matches cannot overlap
      (the second letter of a match is upper case, so it never starts
      one), so this puts a space inside every such pair. */
  function SplitCamel(s: string): (r: string)
    ensures |r| == |s| + CamelPairs(s)
    ensures r == [] <==> s == []
    ensures s != [] ==> r[0] == s[0]
  {
    if |s| < 2 then s
    else if CamelPair(s, 0) then [s[0], ' '] + SplitCamel(s[1..])
    else [s[0]] + SplitCamel(s[1..])
  }

  /** Only spaces are added, and afterwards no lower-case letter is directly
      followed by an upper-case one. */
  lemma {:induction false} SplitCamelSeparates(s: string)
    ensures NonSpaces(SplitCamel(s)) == NonSpaces(s)
    ensures forall i :: 0 <= i < |SplitCamel(s)| - 1 ==> !CamelPair(SplitCamel(s), i)
  {
    if |s| >= 2 {
      var t := SplitCamel(s[1..]);
      SplitCamelSeparates(s[1..]);
      var r := SplitCamel(s);
      var head := if CamelPair(s, 0) then [s[0], ' '] else [s[0]];
      assert r == head + t;
      assert NonSpaces(r) == NonSpaces(s) by {
        NonSpacesAppend(head, t);
        NonSpacesCons(s[0], s[1..]);
        assert s == [s[0]] + s[1..];
        if CamelPair(s, 0) {
          NonSpacesAppend([s[0]], [' ']);
          assert NonSpaces([' ']) == [] by {
            assert [' '][1..] == [];
          }
        }
      }
      forall i | 0 <= i < |r| - 1 ensures !CamelPair(r, i) {
        if i >= |head| {
          assert !CamelPair(t, i - |head|);
          assert r[i] == t[i - |head|] && r[i + 1] == t[i - |head| + 1];
        } else if i == |head| - 1 && |head| == 1 {
          assert r[i + 1] == t[0] == s[1];
        }
      }
    }
  }

  /** The readable text `extractFromFilename` derives from a path. */
  function Readable(path: string): string {
    SplitCamel(SpaceDashes(StripExtension(Basename(path))))
  }

  /** An extraction result: `{text, confidence, source}`, and for the
      placeholder also `originalPath`. */
  datatype Extraction = Extraction(text: string, confidence: int, source: string, originalPath: Option<string>)

  /** The text is split after `[Image` because the verifier does not look
      inside a literal this long: the short head lets proofs read its first
      characters. */
  const Placeholder := "[Image" + " - OCR processing skipped or failed. Image file stored for future analysis.]"

  /** `createEmptyResult(imagePath)`. */
  function CreateEmptyResult(path: string): (r: Extraction)
    ensures r.confidence == 0 && r.source == "fallback" && r.originalPath == Some(path)
    ensures r.text == Placeholder
  {
    Extraction(Placeholder, 0, "fallback", Some(path))
  }

  function FromFilenameText(readable: string): string {
    "[From filename: " + readable + "]"
  }

  /** `extractFromFilename(imagePath)`: `null` when the readable text has at
      most one character. */
  function ExtractFromFilename(path: string): (r: Option<Extraction>)
    ensures r.None? <==> |Readable(path)| <= 1
    ensures r.Some? ==> r.value == Extraction(FromFilenameText(Readable(path)), 10, "filename-extraction", None)
  {
    var readable := Readable(path);
    if readable != [] && |readable| > 1 then
      Some(Extraction(FromFilenameText(readable), 10, "filename-extraction", None))
    else None
  }

  /** A file name of at least two characters once its extension is gone
      always yields text: the readable text is never shorter. */
  lemma LongNameExtracts(path: string)
    requires |StripExtension(Basename(path))| >= 2
    ensures ExtractFromFilename(path).Some?
  {
  }

  /** `extractWithGoogle(imagePath, googleApiKey)`: without a key it skips,
      and with one the stub answers `null` all the same. */
  function ExtractWithGoogle(path: string, apiKey: Option<string>): (r: Option<string>)
    ensures r.None?
  {
    None
  }

  /** `extractWithFallbacks(imagePath, options)`. */
  function ExtractWithFallbacks(path: string, apiKey: Option<string>): (r: string)
    ensures r != []
  {
    match ExtractFromFilename(path)
    case Some(e) => e.text
    case None =>
      var google := if apiKey.Some? && apiKey.value != "" then ExtractWithGoogle(path, apiKey) else None;
      match google
      case Some(text) => if text != "" then text else CreateEmptyResult(path).text
      case None => CreateEmptyResult(path).text
  }

  /** The composite strategy cannot fail: it answers with the file-name text
      when there is one and with the placeholder otherwise, whatever key is
      given. */
  lemma FallbacksOutcome(path: string, apiKey: Option<string>)
    ensures ExtractFromFilename(path).Some? ==> ExtractWithFallbacks(path, apiKey) == FromFilenameText(Readable(path))
    ensures ExtractFromFilename(path).None? ==> ExtractWithFallbacks(path, apiKey) == Placeholder
    ensures ExtractWithFallbacks(path, apiKey) == Placeholder <==> |Readable(path)| <= 1
  {
    var e := ExtractFromFilename(path);
    var r := ExtractWithFallbacks(path, apiKey);
    assert e.Some? ==> r == FromFilenameText(Readable(path));
    assert e.None? ==> r == Placeholder by {
      if e.None? {
        GoogleFallsThrough(path, apiKey);
      }
    }
    assert r == Placeholder <==> e.None? by {
      PlaceholderDiffers(Readable(path));
    }
  }

  /** With no file-name text the placeholder answers, whatever the key. */
  lemma GoogleFallsThrough(path: string, apiKey: Option<string>)
    requires ExtractFromFilename(path).None?
    ensures ExtractWithFallbacks(path, apiKey) == Placeholder
  {
    var google := if apiKey.Some? && apiKey.value != "" then ExtractWithGoogle(path, apiKey) else None;
    assert google == None;
  }

  lemma PlaceholderDiffers(x: string)
    ensures FromFilenameText(x) != Placeholder
  {
    assert FromFilenameText(x)[1] == 'F' && Placeholder[1] == 'I';
  }

  /** Only the last extension goes; an empty last segment reads as
      `image`; a camel-case pair is split. */
  lemma FilenameExamples()
    ensures StripExtension("a.tar.gz") == "a.tar"
    ensures Basename("scans/") == "image"
    ensures SplitCamel("xY") == "x Y"
  {
    StripExtensionOf("a.tar", "gz");
    assert "a.tar" + "." + "gz" == "a.tar.gz";
    assert CamelPair("xY", 0);
  }
}

=== FILE: ollama.dfy ===
/** The prompt-building and reply-handling logic of `OllamaModule`. The HTTP
    endpoint is a parameter `post`: it receives the request payload and
    answers with `response.data.response` or with the failure's message. */
module Ollama {
  import opened Wrappers
  import opened JsStrings
  import Json
  import OM = OrderedMap

  /** The endpoint of `/api/generate`: payload in, reply text or error
      message out. */
  type Endpoint = Json.Object -> Result<string, string>

  /** The defaults of `generate`'s payload, before the caller's options. */
  function Defaults(model: string, prompt: string): Json.Object {
    [("model", Json.Str(model)), ("prompt", Json.Str(prompt)), ("stream", Json.Bool(false))]
  }

  /** `{model, prompt, stream: false, ...options}`. */
  function Payload(model: string, prompt: string, options: Json.Object): Json.Object {
    OM.SetAll(Defaults(model, prompt), options)
  }

  /** The spread comes last, so a caller's option overrides a default of
      the same name and the defaults fill in the rest. */
  lemma PayloadField(model: string, prompt: string, options: Json.Object, k: string)
    requires OM.DistinctKeys(options)
    ensures OM.Get(Payload(model, prompt, options), k) ==
      if k in OM.Keys(options) then OM.Get(options, k) else OM.Get(Defaults(model, prompt), k)
  {
    OM.SetAllGet(Defaults(model, prompt), options, k);
  }

  /** Without an override, the payload carries the prompt it was given and
      asks for a reply without streaming. */
  lemma PayloadCarriesPrompt(model: string, prompt: string, options: Json.Object)
    requires OM.DistinctKeys(options) && "prompt" !in OM.Keys(options) && "stream" !in OM.Keys(options)
    ensures OM.Get(Payload(model, prompt, options), "prompt") == Some(Json.Str(prompt))
    ensures OM.Get(Payload(model, prompt, options), "stream") == Some(Json.Bool(false))
  {
    PayloadField(model, prompt, options, "prompt");
    PayloadField(model, prompt, options, "stream");
    DefaultsGet(model, prompt);
  }

  lemma DefaultsGet(model: string, prompt: string)
    ensures OM.Get(Defaults(model, prompt), "model") == Some(Json.Str(model))
    ensures OM.Get(Defaults(model, prompt), "prompt") == Some(Json.Str(prompt))
    ensures OM.Get(Defaults(model, prompt), "stream") == Some(Json.Bool(false))
  {
    var d := Defaults(model, prompt);
    assert "stream"[0] == 's' && "prompt"[0] == 'p';
    var tail := [("stream", Json.Bool(false))];
    assert d[1..][1..] == tail;
    assert OM.Get(tail, "stream") == Some(Json.Bool(false));
    assert OM.Get(d[1..], "stream") == OM.Get(tail, "stream");
  }

  /** `generate(prompt, options)`: the reply, or the failure re-thrown with
      a prefix. */
  function Generate(model: string, prompt: string, options: Json.Object, post: Endpoint): (r: Result<string, string>)
    ensures r.Success? <==> post(Payload(model, prompt, options)).Success?
    ensures r.Success? ==> r.value == post(Payload(model, prompt, options)).value
    ensures r.Failure? ==> StartsWith(r.error, "Ollama generation failed: ")
  {
    match post(Payload(model, prompt, options))
    case Success(reply) => Success(reply)
    case Failure(e) =>
      var msg := "Ollama generation failed: " + e;
      assert msg[..26] == "Ollama generation failed: ";
      Failure(msg)
  }

  /** The fixed parts of a RAG prompt around the joined contexts and the
      question. */
  datatype Template = Template(header: string, questionLabel: string, answerLabel: string)

  const English := Template(
    "Based on the following context, answer the question:\n\nContext:\n",
    "\n\nQuestion: ",
    "\n\nAnswer:")

  const Hindi := Template(
    "निम्नलिखित संदर्भ के आधार पर सवाल का उत्तर दें:\n\nसंदर्भ:\n",
    "\n\nसवाल: ",
    "\n\nउत्तर:")

  const ContextSeparator := "\n\n---\n\n"

  function Fill(t: Template, question: string, contextText: string): string {
    t.header + contextText + t.questionLabel + question + t.answerLabel
  }

  /** `createRAGPrompt(question, contexts, language)`. */
  function CreateRAGPrompt(question: string, contexts: seq<string>, language: string): (r: string)
    ensures var t := if language == "hi" then Hindi else English;
      StartsWith(r, t.header + Join(ContextSeparator, contexts) + t.questionLabel)
      && |question + t.answerLabel| <= |r| && r[|r| - |question + t.answerLabel|..] == question + t.answerLabel
  {
    var contextText := Join(ContextSeparator, contexts);
    var t := if language == "hi" then Hindi else English;
    FillShape(t, question, contextText);
    Fill(t, question, contextText)
  }

  /** A filled template starts with everything up to the question and ends
      with the question and the answer label. */
  lemma FillShape(t: Template, question: string, contextText: string)
    ensures var r, p, q := Fill(t, question, contextText), t.header + contextText + t.questionLabel, question + t.answerLabel;
      StartsWith(r, p) && |q| <= |r| && r[|r| - |q|..] == q
  {
    var r, p, q := Fill(t, question, contextText), t.header + contextText + t.questionLabel, question + t.answerLabel;
    assert r == p + q;
  }

  /** The Hindi template is chosen for `hi` and only for it: the two
      templates never produce the same prompt. */
  lemma HindiTemplateIff(question: string, contexts: seq<string>, language: string)
    ensures CreateRAGPrompt(question, contexts, language) == Fill(Hindi, question, Join(ContextSeparator, contexts)) <==> language == "hi"
  {
    var c := Join(ContextSeparator, contexts);
    assert |Fill(English, question, c)| == |Fill(Hindi, question, c)| + 11;
  }

  /** The question appears verbatim in the prompt. */
  lemma PromptHoldsQuestion(question: string, contexts: seq<string>, language: string)
    ensures Contains(CreateRAGPrompt(question, contexts, language), question)
  {
    var t := if language == "hi" then Hindi else English;
    ContainsMiddle(t.header + Join(ContextSeparator, contexts) + t.questionLabel, question, t.answerLabel);
  }

  /** Every context appears verbatim in the prompt. */
  lemma PromptHoldsContext(question: string, contexts: seq<string>, language: string, i: nat)
    requires i < |contexts|
    ensures Contains(CreateRAGPrompt(question, contexts, language), contexts[i])
  {
    var t := if language == "hi" then Hindi else English;
    var c := Join(ContextSeparator, contexts);
    JoinHasPart(ContextSeparator, contexts, i);
    FillHolds(t, question, c, contexts[i]);
  }

  lemma FillHolds(t: Template, question: string, c: string, sub: string)
    requires Contains(c, sub)
    ensures Contains(Fill(t, question, c), sub)
  {
    ContainsPrepend(t.header, c, sub);
    ContainsExtend(t.header + c, t.questionLabel + question + t.answerLabel, sub);
    assert t.header + c + (t.questionLabel + question + t.answerLabel) == Fill(t, question, c);
  }

  function NoContextMessage(language: string): string {
    if language == "hi" then "दुर्भाग्यवश, दिए गए दस्तावेजों में इसका कोई उत्तर नहीं मिला।"
    else "I couldn't find information to answer your question in the provided documents."
  }

  /** The options `generateRAGAnswer` passes to `generate`. */
  const RagOptions: Json.Object := [("temperature", Json.Num(0.5)), ("top_p", Json.Num(0.9)), ("num_predict", Json.Num(256.0))]

  /** `generateRAGAnswer(question, contexts, language)`. With no contexts
      the endpoint is never called; otherwise its reply comes back trimmed
      and its failure is passed on. */
  function GenerateRAGAnswer(model: string, question: string, contexts: seq<string>, language: string, post: Endpoint): (r: Result<string, string>)
    ensures |contexts| == 0 ==> r == Success(NoContextMessage(language))
    ensures |contexts| > 0 ==> (r.Success? <==> post(Payload(model, CreateRAGPrompt(question, contexts, language), RagOptions)).Success?)
    ensures |contexts| > 0 && r.Success? ==>
      r.value == Trim(post(Payload(model, CreateRAGPrompt(question, contexts, language), RagOptions)).value)
    ensures |contexts| > 0 && r.Failure? ==> StartsWith(r.error, "Ollama generation failed: ")
  {
    if |contexts| == 0 then Success(NoContextMessage(language))
    else
      match Generate(model, CreateRAGPrompt(question, contexts, language), RagOptions, post)
      case Success(answer) => Success(Trim(answer))
      case Failure(e) => Failure(e)
  }

  /** The endpoint sees the RAG prompt, unstreamed, with 256 tokens to
      answer in. */
  lemma RagPayloadFields(model: string, question: string, contexts: seq<string>, language: string)
    ensures var p := Payload(model, CreateRAGPrompt(question, contexts, language), RagOptions);
      OM.Get(p, "prompt") == Some(Json.Str(CreateRAGPrompt(question, contexts, language)))
      && OM.Get(p, "num_predict") == Some(Json.Num(256.0))
      && OM.Get(p, "model") == Some(Json.Str(model))
  {
    var prompt := CreateRAGPrompt(question, contexts, language);
    assert OM.DistinctKeys(RagOptions);
    assert OM.Keys(RagOptions) == ["temperature", "top_p", "num_predict"];
    PayloadCarriesPrompt(model, prompt, RagOptions);
    PayloadField(model, prompt, RagOptions, "num_predict");
    PayloadField(model, prompt, RagOptions, "model");
  }

  /** The prompt of `detectLanguage`, quoting the first 200 characters. */
  function DetectPrompt(text: string): string {
    "Identify the language of this text in one word (e.g., \"English\", \"Hindi\", \"Spanish\"):\n\nText: \""
      + Substring(text, 0, 200) + "\"\n\nLanguage:"
  }

  /** The reply as `detectLanguage` compares it. */
  function Normalized(reply: string): string {
    Trim(ToLower(reply))
  }

  /** The reply mapping of `detectLanguage`. */
  function ClassifyReply(reply: string): (r: string)
    ensures r == "hi" || r == "en"
    ensures r == "hi" <==> Contains(Normalized(reply), "hindi") || Normalized(reply) == "hi"
  {
    var lang := Normalized(reply);
    if Contains(lang, "hindi") || lang == "hi" then "hi"
    else if Contains(lang, "english") || lang == "en" then "en"
    else "en"
  }

  /** `detectLanguage(text)`: `en` whenever the endpoint fails. */
  function DetectLanguage(model: string, text: string, post: Endpoint): (r: string)
    ensures r == "hi" || r == "en"
    ensures post(Payload(model, DetectPrompt(text), [("num_predict", Json.Num(10.0))])).Failure? ==> r == "en"
    ensures post(Payload(model, DetectPrompt(text), [("num_predict", Json.Num(10.0))])).Success? ==>
      r == ClassifyReply(post(Payload(model, DetectPrompt(text), [("num_predict", Json.Num(10.0))])).value)
  {
    match Generate(model, DetectPrompt(text), [("num_predict", Json.Num(10.0))], post)
    case Failure(_) => "en"
    case Success(response) => ClassifyReply(response)
  }

  /** The prompt quotes the text, cut to its first 200 characters. */
  lemma DetectPromptQuotes(text: string)
    ensures Contains(DetectPrompt(text), if |text| <= 200 then text else text[..200])
  {
    SubstringPrefix(text, 200);
    var head := "Identify the language of this text in one word (e.g., \"English\", \"Hindi\", \"Spanish\"):\n\nText: \"";
    ContainsMiddle(head, Substring(text, 0, 200), "\"\n\nLanguage:");
  }

  /** Letter case in the reply does not matter. */
  lemma ClassifyIgnoresCase(reply: string)
    ensures ClassifyReply(ToLower(reply)) == ClassifyReply(reply)
  {
    assert ToLower(ToLower(reply)) == ToLower(reply);
  }
}

=== FILE: ordered_map.dfy ===
/** A JavaScript `Map` as a value: its entries in insertion order. `set` on
    a present key replaces the value where it stands, `set` on a new key
    appends, `delete` removes the entry, and iteration visits the entries in
    order. Every map of the backend is keyed by strings. */
module OrderedMap {
  import opened Wrappers

  /** No key occurs twice, which every `Map` guarantees. */
  predicate DistinctKeys<V>(m: seq<(string, V)>) {
    forall i, j :: 0 <= i < j < |m| ==> m[i].0 != m[j].0
  }

  function Keys<V>(m: seq<(string, V)>): (ks: seq<string>)
    ensures |ks| == |m|
    ensures forall i :: 0 <= i < |m| ==> ks[i] == m[i].0
  {
    seq(|m|, i requires 0 <= i < |m| => m[i].0)
  }

  /** `map.get(k)`, with `None` for `undefined`. */
  function Get<V>(m: seq<(string, V)>, k: string): (r: Option<V>)
    ensures r.None? <==> k !in Keys(m)
  {
    if |m| == 0 then None
    else if m[0].0 == k then Some(m[0].1)
    else
      assert Keys(m)[1..] == Keys(m[1..]);
      Get(m[1..], k)
  }

  /** In a map without repeated keys, `get` finds the value stored with the
      key wherever that entry stands. */
  lemma {:induction false} GetAt<V>(m: seq<(string, V)>, i: nat)
    requires DistinctKeys(m) && i < |m|
    ensures Get(m, m[i].0) == Some(m[i].1)
  {
    if i > 0 {
      GetAt(m[1..], i - 1);
    }
  }

  /** `map.set(k, v)`. */
  function Set<V>(m: seq<(string, V)>, k: string, v: V): (r: seq<(string, V)>)
    ensures |r| > 0
  {
    if |m| == 0 then [(k, v)]
    else if m[0].0 == k then [(k, v)] + m[1..]
    else [m[0]] + Set(m[1..], k, v)
  }

  /** `set` keeps every key where it stood: a present key keeps the size,
      a new one adds a single entry at the end. */
  lemma {:induction false} SetKeys<V>(m: seq<(string, V)>, k: string, v: V)
    ensures var r := Set(m, k, v);
      && |r| == (if k in Keys(m) then |m| else |m| + 1)
      && Keys(r)[..|m|] == Keys(m)
  {
    if |m| > 0 {
      var r := Set(m, k, v);
      assert Keys(m) == [m[0].0] + Keys(m[1..]) by {
        KeysCons(m[0], m[1..]);
        assert m == [m[0]] + m[1..];
      }
      if m[0].0 == k {
        assert Keys(r) == Keys(m) by {
          KeysCons((k, v), m[1..]);
        }
      } else {
        var rest := Set(m[1..], k, v);
        SetKeys(m[1..], k, v);
        assert Keys(r) == [m[0].0] + Keys(rest) by {
          KeysCons(m[0], rest);
        }
        assert Keys(r)[..|m|] == [m[0].0] + Keys(rest)[..|m| - 1];
      }
    }
  }

  lemma KeysCons<V>(e: (string, V), m: seq<(string, V)>)
    ensures Keys([e] + m) == [e.0] + Keys(m)
  {
  }

  /** After `set(k, v)`, `get(k)` is `v`. */
  lemma {:induction false} SetGetSame<V>(m: seq<(string, V)>, k: string, v: V)
    ensures Get(Set(m, k, v), k) == Some(v)
  {
    if |m| > 0 && m[0].0 != k {
      SetGetSame(m[1..], k, v);
    }
  }

  /** `set(k, v)` leaves every other key's value as it was. */
  lemma {:induction false} SetGetOther<V>(m: seq<(string, V)>, k: string, v: V, k': string)
    requires k' != k
    ensures Get(Set(m, k, v), k') == Get(m, k')
  {
    if |m| > 0 && m[0].0 != k {
      SetGetOther(m[1..], k, v, k');
    }
  }

  /** `set` never creates a second entry for a key. */
  lemma {:induction false} SetDistinct<V>(m: seq<(string, V)>, k: string, v: V)
    requires DistinctKeys(m)
    ensures DistinctKeys(Set(m, k, v))
  {
    if |m| > 0 && m[0].0 != k {
      SetDistinct(m[1..], k, v);
      var rest := Set(m[1..], k, v);
      assert Keys(m) == [m[0].0] + Keys(m[1..]);
      assert m[0].0 !in Keys(m[1..]);
      assert Get(rest, m[0].0) == Get(m[1..], m[0].0) by {
        SetGetOther(m[1..], k, v, m[0].0);
      }
      assert m[0].0 !in Keys(rest);
    } else if |m| > 0 {
      assert Keys(Set(m, k, v)) == Keys(m);
    }
  }

  /** The entries whose key satisfies `keep`, in their original order. This is
      what deleting the other keys while iterating the map leaves behind. */
  function Filter<V>(m: seq<(string, V)>, keep: string -> bool): (r: seq<(string, V)>)
    ensures |r| <= |m|
    ensures forall i :: 0 <= i < |r| ==> keep(r[i].0)
  {
    if |m| == 0 then []
    else
      var rest := Filter(m[1..], keep);
      if keep(m[0].0) then [m[0]] + rest else rest
  }

  /** A filtered map answers `get` like the original on kept keys and has no
      other keys. */
  lemma {:induction false} FilterGet<V>(m: seq<(string, V)>, keep: string -> bool, k: string)
    ensures Get(Filter(m, keep), k) == if keep(k) then Get(m, k) else None
  {
    if |m| > 0 {
      FilterGet(m[1..], keep, k);
    }
  }

  /** Filtering never creates a second entry for a key. */
  lemma {:induction false} FilterDistinct<V>(m: seq<(string, V)>, keep: string -> bool)
    requires DistinctKeys(m)
    ensures DistinctKeys(Filter(m, keep))
  {
    if |m| > 0 {
      FilterDistinct(m[1..], keep);
      var rest := Filter(m[1..], keep);
      assert Keys(m) == [m[0].0] + Keys(m[1..]);
      FilterGet(m[1..], keep, m[0].0);
      assert m[0].0 !in Keys(rest);
    }
  }

  /** `map.delete(k)`. */
  function Delete<V>(m: seq<(string, V)>, k: string): (r: seq<(string, V)>)
    ensures Get(r, k) == None
  {
    FilterGet(m, k' => k' != k, k);
    Filter(m, k' => k' != k)
  }

  /** The number of entries `Filter` drops: how many keys fail `keep`. */
  function CountDropped<V>(m: seq<(string, V)>, keep: string -> bool): nat {
    if |m| == 0 then 0
    else (if keep(m[0].0) then 0 else 1) + CountDropped(m[1..], keep)
  }

  /** Filtering drops exactly the counted entries. */
  lemma {:induction false} FilterSize<V>(m: seq<(string, V)>, keep: string -> bool)
    ensures |Filter(m, keep)| + CountDropped(m, keep) == |m|
  {
    if |m| > 0 {
      FilterSize(m[1..], keep);
    }
  }

  /** Filtering with a predicate every key satisfies changes nothing. */
  lemma {:induction false} FilterKeepAll<V>(m: seq<(string, V)>, keep: string -> bool)
    requires forall i :: 0 <= i < |m| ==> keep(m[i].0)
    ensures Filter(m, keep) == m
  {
    if |m| > 0 {
      FilterKeepAll(m[1..], keep);
    }
  }

  /** Filtering twice with the same predicate is filtering once. */
  lemma FilterIdempotent<V>(m: seq<(string, V)>, keep: string -> bool)
    ensures Filter(Filter(m, keep), keep) == Filter(m, keep)
  {
    FilterKeepAll(Filter(m, keep), keep);
  }

  /** Entries appended after `m` that `keep` rejects vanish again. */
  lemma {:induction false} FilterAppendDropped<V>(m: seq<(string, V)>, extra: seq<(string, V)>, keep: string -> bool)
    requires forall i :: 0 <= i < |extra| ==> !keep(extra[i].0)
    ensures Filter(m + extra, keep) == Filter(m, keep)
  {
    if |m| == 0 {
      FilterDropAll(extra, keep);
      assert m + extra == extra;
    } else {
      assert (m + extra)[1..] == m[1..] + extra;
      FilterAppendDropped(m[1..], extra, keep);
    }
  }

  lemma {:induction false} FilterDropAll<V>(m: seq<(string, V)>, keep: string -> bool)
    requires forall i :: 0 <= i < |m| ==> !keep(m[i].0)
    ensures Filter(m, keep) == []
  {
    if |m| > 0 {
      FilterDropAll(m[1..], keep);
    }
  }

  /** Setting a key that was absent appends exactly one entry at the end. */
  lemma {:induction false} SetAbsentAppends<V>(m: seq<(string, V)>, k: string, v: V)
    requires k !in Keys(m)
    ensures Set(m, k, v) == m + [(k, v)]
  {
    if |m| > 0 {
      assert k != m[0].0 && k !in Keys(m[1..]) by {
        KeysCons(m[0], m[1..]);
        assert m == [m[0]] + m[1..];
      }
      assert Set(m[1..], k, v) == m[1..] + [(k, v)] by {
        SetAbsentAppends(m[1..], k, v);
      }
      assert [m[0]] + (m[1..] + [(k, v)]) == m + [(k, v)];
    }
  }

  /** Deleting a key that was just added to a map without it gives the map
      back. */
  lemma DeleteUndoesFreshSet<V>(m: seq<(string, V)>, k: string, v: V)
    requires k !in Keys(m)
    ensures Delete(Set(m, k, v), k) == m
  {
    SetAbsentAppends(m, k, v);
    FilterKeepAll(m, k' => k' != k);
    FilterAppendDropped(m, [(k, v)], k' => k' != k);
  }

  /** Object spread `{...obj, ...src}`: every entry of `src`, in order, is
      set on `obj`. */
  function SetAll<V>(m: seq<(string, V)>, src: seq<(string, V)>): (r: seq<(string, V)>)
    decreases |src|
  {
    if |src| == 0 then m
    else SetAll(Set(m, src[0].0, src[0].1), src[1..])
  }

  /** After a spread, a key of `src` has the value `src` gives it and every
      other key keeps its value. */
  lemma {:induction false} SetAllGet<V>(m: seq<(string, V)>, src: seq<(string, V)>, k: string)
    requires DistinctKeys(src)
    ensures Get(SetAll(m, src), k) == if k in Keys(src) then Get(src, k) else Get(m, k)
    decreases |src|
  {
    if |src| > 0 {
      var m' := Set(m, src[0].0, src[0].1);
      assert Keys(src) == [src[0].0] + Keys(src[1..]);
      assert DistinctKeys(src[1..]);
      SetAllGet(m', src[1..], k);
      if k == src[0].0 {
        SetGetSame(m, k, src[0].1);
        assert k !in Keys(src[1..]);
      } else {
        SetGetOther(m, src[0].0, src[0].1, k);
      }
    }
  }

  /** A spread never creates a second entry for a key. */
  lemma {:induction false} SetAllDistinct<V>(m: seq<(string, V)>, src: seq<(string, V)>)
    requires DistinctKeys(m)
    ensures DistinctKeys(SetAll(m, src))
    decreases |src|
  {
    if |src| > 0 {
      SetDistinct(m, src[0].0, src[0].1);
      SetAllDistinct(Set(m, src[0].0, src[0].1), src[1..]);
    }
  }

  /** A key `get` finds is stored in some entry with that value. */
  lemma {:induction false} GetIn<V>(m: seq<(string, V)>, k: string, v: V)
    requires Get(m, k) == Some(v)
    ensures exists i :: 0 <= i < |m| && m[i] == (k, v)
  {
    if m[0].0 != k {
      GetIn(m[1..], k, v);
      var i :| 0 <= i < |m[1..]| && m[1..][i] == (k, v);
      assert m[i + 1] == (k, v);
    }
  }

  /** A property every entry has, and the new entry too, holds of every
      entry after `set(k, v)`. */
  lemma {:induction false} SetKeepsAll<V>(m: seq<(string, V)>, k: string, v: V, p: ((string, V)) -> bool)
    requires forall i :: 0 <= i < |m| ==> p(m[i])
    requires p((k, v))
    ensures forall i :: 0 <= i < |Set(m, k, v)| ==> p(Set(m, k, v)[i])
  {
    if |m| > 0 && m[0].0 != k {
      var rest := Set(m[1..], k, v);
      SetKeepsAll(m[1..], k, v, p);
      assert Set(m, k, v) == [m[0]] + rest;
    }
  }

  /** Every entry after `set(k, v)` is `(k, v)` or an entry that was there. */
  lemma {:induction false} SetEntries<V>(m: seq<(string, V)>, k: string, v: V)
    ensures forall e :: e in Set(m, k, v) ==> e == (k, v) || e in m
  {
    if |m| > 0 && m[0].0 != k {
      SetEntries(m[1..], k, v);
    }
  }
}

=== FILE: query_routes.dfy ===
/** The answer-selection logic of the `/api/query` and `/api/ask` routes,
    lifted out of the HTTP handlers. The store search is `VectorStore.Query`
    on the embedding service's reply for the question; the Groq client is
    an optional value whose two calls are given as outcomes. */
module QueryRoutes {
  import opened Wrappers
  import opened JsStrings
  import opened Ranking
  import VectorStore
  import LanguageDetector
  import Ollama

  /** The Groq client: what `isAvailable()` resolves to, and what
      `generate(prompt, 1024)` resolves to for each prompt (a failure is
      a thrown error). */
  datatype Groq = Groq(available: Result<bool, string>, generate: string -> Result<string, string>)

  /** One entry of `relevantChunks`. */
  datatype ChunkRef = ChunkRef(text: string, similarity: real, docId: string)

  /** `searchResults.map(r => ({text, similarity, docId}))`. */
  function RelevantChunks(results: seq<Hit>): (r: seq<ChunkRef>)
    ensures |r| == |results|
    ensures forall i :: 0 <= i < |r| ==> r[i] == ChunkRef(results[i].text, results[i].similarity, results[i].docId)
  {
    seq(|results|, i requires 0 <= i < |results| => ChunkRef(results[i].text, results[i].similarity, results[i].docId))
  }

  /** `searchResults.map(r => r.text)`. */
  function Contexts(results: seq<Hit>): (r: seq<string>)
    ensures |r| == |results|
    ensures forall i :: 0 <= i < |r| ==> r[i] == results[i].text
  {
    seq(|results|, i requires 0 <= i < |results| => results[i].text)
  }

  /** The Hindi form of the inline RAG prompt; it says "प्रश्न" where the
      Ollama module's says "सवाल". The English form is the same text as the
      Ollama module's. */
  const InlineHindi := Ollama.Template("निम्नलिखित संदर्भ के आधार पर प्रश्न का उत्तर दें:\n\nसंदर्भ:\n", "\n\nप्रश्न: ", "\n\nउत्तर:")

  function Template(language: string): Ollama.Template {
    if language == "hi" then InlineHindi else Ollama.English
  }

  /** The prompt both routes send: the top three contexts joined by a blank
      line. */
  function RagPrompt(language: string, question: string, contexts: seq<string>): string {
    Ollama.Fill(Template(language), question, Join("\n\n", SliceTo(contexts, 3)))
  }

  /** The context-only answer: a localised heading and the top two
      contexts. */
  function FallbackAnswer(language: string, contexts: seq<string>): string {
    (if language == "hi" then "निम्नलिखित संदर्भ प्रासंगिक हो सकता है:\n\n" else "Based on the document:\n\n")
      + Join("\n\n", SliceTo(contexts, 2))
  }

  function NoMatchMessage(language: string): string {
    if language == "hi" then "दुर्भाग्यवश, आपके दस्तावेजों में इस प्रश्न का उत्तर नहीं मिला।" else "No relevant information found in your documents."
  }

  function NoDocsMessage(language: string): string {
    if language == "hi" then "कृपया पहले एक दस्तावेज़ अपलोड करें या सीधे प्रश्न पूछें।" else "Please upload a document first or ask a question directly."
  }

  /** The Hindi prompt is used for `hi` and only for it. */
  lemma HindiPromptIff(language: string, question: string, contexts: seq<string>)
    ensures RagPrompt(language, question, contexts) == Ollama.Fill(InlineHindi, question, Join("\n\n", SliceTo(contexts, 3))) <==> language == "hi"
  {
    var c := Join("\n\n", SliceTo(contexts, 3));
    assert |Ollama.Fill(Ollama.English, question, c)| == |Ollama.Fill(InlineHindi, question, c)| + 7;
  }

  /** Results ranked below the third never reach the prompt. */
  lemma PromptUsesTopThree(language: string, question: string, contexts: seq<string>, lower: seq<string>)
    requires |contexts| >= 3
    ensures RagPrompt(language, question, contexts[..3] + lower) == RagPrompt(language, question, contexts)
  {
    assert SliceTo(contexts[..3] + lower, 3) == contexts[..3];
  }

  /** Results ranked below the second never reach the fallback answer. */
  lemma FallbackUsesTopTwo(language: string, contexts: seq<string>, lower: seq<string>)
    requires |contexts| >= 2
    ensures FallbackAnswer(language, contexts[..2] + lower) == FallbackAnswer(language, contexts)
  {
    assert SliceTo(contexts[..2] + lower, 2) == contexts[..2];
  }

  /** The fallback answer quotes the best context in full. */
  lemma FallbackQuotesBest(language: string, contexts: seq<string>)
    requires |contexts| > 0
    ensures Contains(FallbackAnswer(language, contexts), contexts[0])
  {
    var top := SliceTo(contexts, 2);
    JoinHasPart("\n\n", top, 0);
    ContainsPrepend(if language == "hi" then "निम्नलिखित संदर्भ प्रासंगिक हो सकता है:\n\n" else "Based on the document:\n\n", Join("\n\n", top), contexts[0]);
  }

  /** The body of `/api/query`. */
  datatype QueryRequest = QueryRequest(question: Option<string>, topK: Option<int>, useOllama: bool)

  datatype QueryResponse =
    | BadRequest(error: string)
    | ServerError(error: string)
    | Answered(question: string, language: string, answer: string, relevantChunks: seq<ChunkRef>, source: string)

  /** The `useOllama` block: the answer Groq gave, if it was asked, and the
      source tag afterwards. A missing client fails at `isAvailable`, which
      the block catches like any other error. */
  function QueryGeneration(useOllama: bool, groq: Option<Groq>, prompt: string): (r: (Option<string>, string))
    ensures r.1 == "groq_rag" <==> r.0.Some?
    ensures r.1 == "groq_rag" || r.1 == "embedding_only"
    ensures r.0.Some? <==> useOllama && groq.Some? && groq.value.available == Success(true) && groq.value.generate(prompt).Success?
    ensures r.0.Some? ==> r.0.value == groq.value.generate(prompt).value
  {
    if !useOllama || groq.None? then (None, "embedding_only")
    else
      match groq.value.available
      case Failure(_) => (None, "embedding_only")
      case Success(ok) =>
        if !ok then (None, "embedding_only")
        else
          match groq.value.generate(prompt)
          case Failure(_) => (None, "embedding_only")
          case Success(answer) => (Some(answer), "groq_rag")
  }

  /** What `/api/query` answers once the question is accepted and the
      search has returned `results`. */
  function Respond(question: string, language: string, results: seq<Hit>, useOllama: bool, groq: Option<Groq>): (r: QueryResponse)
    ensures r.Answered?
  {
    if |results| == 0 then Answered(question, language, NoMatchMessage(language), [], "no_match")
    else
      var contexts := Contexts(results);
      var g := QueryGeneration(useOllama, groq, RagPrompt(language, question, contexts));
      var answer := if g.0.Some? && g.0.value != "" then g.0.value else FallbackAnswer(language, contexts);
      Answered(question, language, answer, RelevantChunks(results), g.1)
  }

  /** `POST /api/query`. `hindiWords` is the Hindi-word count of the
      question; `reply` is the embedding service's answer for it. */
  function Query(req: QueryRequest, hindiWords: nat, st: VectorStore.Store, reply: VectorStore.EmbedReply,
                 sqrt: real -> real, groq: Option<Groq>): (r: QueryResponse)
    ensures req.question.None? || IsBlank(req.question.value) ==> r == BadRequest("Question is required")
    ensures r.ServerError? <==> !r.BadRequest? && VectorStore.GenerateEmbedding(reply).Failure?
    ensures req.question.Some? && !IsBlank(req.question.value) && VectorStore.GenerateEmbedding(reply).Success? ==>
      var q := req.question.value;
      var results := VectorStore.Query(st, reply, if req.topK.None? then 5 else req.topK.value, sqrt).value;
      r == Respond(q, LanguageDetector.Detect(q, hindiWords), results, req.useOllama, groq)
  {
    if req.question.None? || |Trim(req.question.value)| == 0 then
      TrimEmptyIffBlank(if req.question.None? then "" else req.question.value);
      BadRequest("Question is required")
    else
      var question := req.question.value;
      TrimEmptyIffBlank(question);
      var language := LanguageDetector.Detect(question, hindiWords);
      var topK := if req.topK.None? then 5 else req.topK.value;
      match VectorStore.Query(st, reply, topK, sqrt)
      case Failure(e) => ServerError(e)
      case Success(results) => Respond(question, language, results, req.useOllama, groq)
  }

  /** What `/api/query` answers for an accepted question and a search that
      succeeds: no match, a Groq answer, or the context fallback, with
      every result listed whatever the prompt or the fallback kept. */
  lemma RespondOutcome(question: string, language: string, results: seq<Hit>, useOllama: bool, groq: Option<Groq>)
    ensures var r := Respond(question, language, results, useOllama, groq);
      && r.question == question && r.language == language
      && (|results| == 0 ==> r.answer == NoMatchMessage(language) && r.relevantChunks == [] && r.source == "no_match")
      && (|results| > 0 ==> r.relevantChunks == RelevantChunks(results))
      && (|results| > 0 && (!useOllama || groq.None?) ==>
            r.source == "embedding_only" && r.answer == FallbackAnswer(language, Contexts(results)))
    ensures useOllama && groq.Some? && |results| > 0 ==>
      var r := Respond(question, language, results, useOllama, groq);
      var asked := groq.value.available == Success(true);
      var generated := groq.value.generate(RagPrompt(language, question, Contexts(results)));
      && (r.source == "groq_rag" <==> asked && generated.Success?)
      && (r.source == "groq_rag" || r.source == "embedding_only")
      && (asked && generated.Success? && generated.value != "" ==> r.answer == generated.value)
      && (!(asked && generated.Success? && generated.value != "") ==> r.answer == FallbackAnswer(language, Contexts(results)))
  {
  }

  /** With nothing found, the Groq client plays no part in the answer. */
  lemma NoMatchIgnoresGroq(question: string, language: string, useOllama: bool, g1: Option<Groq>, g2: Option<Groq>)
    ensures Respond(question, language, [], useOllama, g1) == Respond(question, language, [], useOllama, g2)
  {
  }

  /** An empty Groq answer still falls back to the contexts, but the source
      tag already says `groq_rag`. */
  lemma EmptyAnswerKeepsGroqTag(question: string, language: string, results: seq<Hit>, groq: Groq)
    requires |results| > 0 && groq.available == Success(true)
    requires groq.generate(RagPrompt(language, question, Contexts(results))) == Success("")
    ensures var r := Respond(question, language, results, true, Some(groq));
      r.source == "groq_rag" && r.answer == FallbackAnswer(language, Contexts(results))
  {
  }

  /** The body of `/api/ask`: `message`, and the `messages` history with
      each entry's `content` (missing when absent). */
  datatype AskRequest = AskRequest(message: Option<string>, messages: seq<Option<string>>)

  datatype AskResponse =
    | AskBadRequest(error: string)
    | AskAnswered(answer: Option<string>, source: string, relevantChunks: seq<ChunkRef>, timestamp: string)

  /** `message || messages[messages.length - 1].content || ''`, with a
      missing value read as the empty string (both are rejected alike). */
  function AskQuestion(req: AskRequest): (q: string)
    ensures req.message.Some? && req.message.value != "" ==> q == req.message.value
    ensures (req.message.None? || req.message.value == "") && req.messages == [] ==> q == ""
    ensures (req.message.None? || req.message.value == "") && req.messages != [] ==>
      q == (if req.messages[|req.messages| - 1].None? then "" else req.messages[|req.messages| - 1].value)
  {
    if req.message.Some? && req.message.value != "" then req.message.value
    else if req.messages == [] then ""
    else
      var last := req.messages[|req.messages| - 1];
      if last.None? then "" else last.value
  }

  /** The Groq step of `/api/ask` and its `catch`: the answer and source. */
  function AskGeneration(language: string, question: string, results: seq<Hit>, groq: Option<Groq>): (r: (Option<string>, string))
    ensures r.0.None? <==> groq.None?
    ensures r.1 in {"direct", "groq_rag", "groq_direct", "fallback_context", "fallback_no_docs"}
  {
    if groq.None? then (None, "direct")
    else
      var prompt := if |results| > 0 then RagPrompt(language, question, Contexts(results)) else question;
      match groq.value.generate(prompt)
      case Success(answer) => (Some(answer), if |results| > 0 then "groq_rag" else "groq_direct")
      case Failure(_) =>
        if |results| > 0 then (Some(FallbackAnswer(language, Contexts(results))), "fallback_context")
        else (Some(NoDocsMessage(language)), "fallback_no_docs")
  }

  /** `POST /api/ask` at time `now`. A failed search counts as finding
      nothing. */
  function Ask(req: AskRequest, hindiWords: nat, st: VectorStore.Store, reply: VectorStore.EmbedReply,
               sqrt: real -> real, groq: Option<Groq>, now: string): (r: AskResponse)
    ensures IsBlank(AskQuestion(req)) <==> r == AskBadRequest("Message is required")
    ensures r.AskAnswered? ==> r.timestamp == now
    ensures r.AskAnswered? && VectorStore.GenerateEmbedding(reply).Failure? ==> r.relevantChunks == []
    ensures !IsBlank(AskQuestion(req)) ==>
      var q := AskQuestion(req);
      var search := VectorStore.Query(st, reply, 5, sqrt);
      var results := if search.Success? then search.value else [];
      var g := AskGeneration(LanguageDetector.Detect(q, hindiWords), q, results, groq);
      r == AskAnswered(g.0, g.1, RelevantChunks(results), now)
  {
    var question := AskQuestion(req);
    TrimEmptyIffBlank(question);
    if |Trim(question)| == 0 then AskBadRequest("Message is required")
    else
      var language := LanguageDetector.Detect(question, hindiWords);
      var results := match VectorStore.Query(st, reply, 5, sqrt)
        case Success(hits) => hits
        case Failure(_) => [];
      var g := AskGeneration(language, question, results, groq);
      AskAnswered(g.0, g.1, RelevantChunks(results), now)
  }

  /** The five ways `/api/ask` answers an accepted question, by whether a
      client exists, whether the search found anything and whether the
      generation succeeded. */
  lemma AskOutcome(language: string, question: string, results: seq<Hit>, groq: Option<Groq>)
    ensures var r := AskGeneration(language, question, results, groq);
      && (groq.None? ==> r == (None, "direct"))
      && (groq.Some? && |results| > 0 ==>
           var g := groq.value.generate(RagPrompt(language, question, Contexts(results)));
           (g.Success? ==> r == (Some(g.value), "groq_rag"))
           && (g.Failure? ==> r == (Some(FallbackAnswer(language, Contexts(results))), "fallback_context")))
      && (groq.Some? && |results| == 0 ==>
           var g := groq.value.generate(question);
           (g.Success? ==> r == (Some(g.value), "groq_direct"))
           && (g.Failure? ==> r == (Some(NoDocsMessage(language)), "fallback_no_docs")))
  {
  }

  /** Without a client the answer is absent; with one there is always an
      answer, and it comes from the documents exactly when the search found
      something. */
  lemma AskSources(language: string, question: string, results: seq<Hit>, groq: Option<Groq>)
    ensures var r := AskGeneration(language, question, results, groq);
      && (r.0.None? <==> groq.None?)
      && (r.1 == "groq_rag" || r.1 == "fallback_context" <==> groq.Some? && |results| > 0)
      && (r.1 == "groq_direct" || r.1 == "fallback_no_docs" <==> groq.Some? && |results| == 0)
  {
  }
}

=== FILE: ranking.dfy ===
/** The ranking step of `similaritySearch`: a stable sort by descending
    similarity (`Array.prototype.sort` is stable and the comparator is
    `b.similarity - a.similarity`) followed by `slice(0, topK)`. */
module Ranking {

  /** One search result: `{chunkId, docId, text, similarity}`. */
  datatype Hit = Hit(chunkId: string, docId: string, text: string, similarity: real)

  predicate SortedDesc(s: seq<Hit>) {
    forall i, j :: 0 <= i < j < |s| ==> s[i].similarity >= s[j].similarity
  }

  /** Places `x` after every leading hit that scores strictly higher, so that
      among equal scores `x` comes first. */
  function Insert(x: Hit, l: seq<Hit>): (r: seq<Hit>)
    ensures |r| == |l| + 1
    ensures multiset(r) == multiset(l) + multiset{x}
  {
    if l == [] || x.similarity >= l[0].similarity then [x] + l
    else
      assert l == [l[0]] + l[1..];
      [l[0]] + Insert(x, l[1..])
  }

  /** The result of the stable sort. */
  function Sort(s: seq<Hit>): (r: seq<Hit>)
    ensures |r| == |s|
    ensures multiset(r) == multiset(s)
  {
    if s == [] then []
    else
      assert s == [s[0]] + s[1..];
      Insert(s[0], Sort(s[1..]))
  }

  lemma {:induction false} InsertSorted(x: Hit, l: seq<Hit>)
    requires SortedDesc(l)
    ensures SortedDesc(Insert(x, l))
  {
    if l == [] || x.similarity >= l[0].similarity {
      ConsSorted(x, l);
    } else {
      var r := Insert(x, l[1..]);
      assert SortedDesc(r) by {
        InsertSorted(x, l[1..]);
      }
      assert l[0].similarity >= r[0].similarity by {
        InsertFirst(x, l[1..]);
      }
      ConsSorted(l[0], r);
    }
  }

  /** An insertion starts with `x` or with the first hit of `l`. */
  lemma InsertFirst(x: Hit, l: seq<Hit>)
    ensures Insert(x, l)[0] == x || (l != [] && Insert(x, l)[0] == l[0])
  {
  }

  /** A hit scoring at least as high as the head of a sorted list extends
      it. */
  lemma ConsSorted(a: Hit, r: seq<Hit>)
    requires SortedDesc(r) && (r != [] ==> a.similarity >= r[0].similarity)
    ensures SortedDesc([a] + r)
  {
    var s := [a] + r;
    forall i, j | 0 <= i < j < |s| ensures s[i].similarity >= s[j].similarity {
      if i == 0 {
        assert s[j] == r[j - 1];
        assert r[0].similarity >= r[j - 1].similarity || j == 1;
      } else {
        assert s[i] == r[i - 1] && s[j] == r[j - 1];
      }
    }
  }

  /** The sort's output is ordered by non-increasing similarity. */
  lemma {:induction false} SortSorted(s: seq<Hit>)
    ensures SortedDesc(Sort(s))
  {
    if s != [] {
      SortSorted(s[1..]);
      InsertSorted(s[0], Sort(s[1..]));
    }
  }

  /** The hits of `s` scoring exactly `v`, in order. */
  function WithScore(s: seq<Hit>, v: real): (r: seq<Hit>)
    ensures forall i :: 0 <= i < |r| ==> r[i].similarity == v
  {
    if s == [] then []
    else (if s[0].similarity == v then [s[0]] else []) + WithScore(s[1..], v)
  }

  lemma {:induction false} InsertWithScore(x: Hit, l: seq<Hit>, v: real)
    ensures WithScore(Insert(x, l), v) == (if x.similarity == v then [x] else []) + WithScore(l, v)
  {
    var hx := if x.similarity == v then [x] else [];
    if l != [] && x.similarity < l[0].similarity {
      var r := Insert(x, l[1..]);
      var rest := WithScore(l[1..], v);
      var h0 := if l[0].similarity == v then [l[0]] else [];
      assert WithScore(Insert(x, l), v) == h0 + WithScore(r, v) by {
        assert Insert(x, l) == [l[0]] + r;
        WithScoreCons(l[0], r, v);
      }
      assert WithScore(r, v) == hx + rest by {
        InsertWithScore(x, l[1..], v);
      }
      assert WithScore(l, v) == h0 + rest;
      SwapEmpty(h0, hx, rest);
    } else {
      WithScoreCons(x, l, v);
    }
  }

  /** Two sequences, one of them empty, can be prepended in either order. */
  lemma SwapEmpty<T>(a: seq<T>, b: seq<T>, c: seq<T>)
    requires a == [] || b == []
    ensures a + (b + c) == b + (a + c)
  {
  }

  lemma WithScoreCons(h: Hit, r: seq<Hit>, v: real)
    ensures WithScore([h] + r, v) == (if h.similarity == v then [h] else []) + WithScore(r, v)
  {
    assert ([h] + r)[1..] == r;
  }

  /** Stability: hits with equal scores leave the sort in their original
      order. */
  lemma {:induction false} SortStable(s: seq<Hit>, v: real)
    ensures WithScore(Sort(s), v) == WithScore(s, v)
  {
    if s != [] {
      SortStable(s[1..], v);
      InsertWithScore(s[0], Sort(s[1..]), v);
    }
  }

  /** Filtering by score distributes over concatenation. */
  lemma {:induction false} WithScoreAppend(a: seq<Hit>, b: seq<Hit>, v: real)
    ensures WithScore(a + b, v) == WithScore(a, v) + WithScore(b, v)
  {
    if a == [] {
      assert a + b == b;
    } else {
      assert a + b == [a[0]] + (a[1..] + b);
      WithScoreCons(a[0], a[1..] + b, v);
      WithScoreAppend(a[1..], b, v);
    }
  }

  /** The hits of a prefix scoring `v` are the first hits of the whole
      scoring `v`. */
  lemma WithScorePrefix(s: seq<Hit>, k: nat, v: real)
    requires k <= |s|
    ensures var p := WithScore(s[..k], v);
      |p| <= |WithScore(s, v)| && p == WithScore(s, v)[..|p|]
  {
    assert s == s[..k] + s[k..];
    WithScoreAppend(s[..k], s[k..], v);
  }

  /** `array.slice(0, k)`: a negative `k` counts back from the end. */
  function SliceTo<T>(s: seq<T>, k: int): (r: seq<T>)
    ensures k >= 0 ==> |r| == if k < |s| then k else |s|
    ensures k < 0 ==> |r| == if |s| + k > 0 then |s| + k else 0
    ensures r == s[..|r|]
  {
    var end := if k < 0 then |s| + k else k;
    if end <= 0 then [] else if end >= |s| then s else s[..end]
  }

  /** `results.sort(...).slice(0, topK)`. */
  function TopK(hits: seq<Hit>, topK: int): (r: seq<Hit>)
    ensures SortedDesc(r)
    ensures |r| <= |hits| && r == Sort(hits)[..|r|]
    ensures topK >= 0 ==> |r| == if topK < |hits| then topK else |hits|
    ensures topK < 0 ==> |r| == if |hits| + topK > 0 then |hits| + topK else 0
  {
    var sorted := Sort(hits);
    SortSorted(hits);
    SliceTo(sorted, topK)
  }

  /** Every returned hit scores at least as high as every hit left out. */
  lemma TopKDominates(hits: seq<Hit>, topK: int, h: Hit)
    requires h in hits && h !in TopK(hits, topK)
    ensures forall i :: 0 <= i < |TopK(hits, topK)| ==> TopK(hits, topK)[i].similarity >= h.similarity
  {
    var sorted := Sort(hits);
    SortSorted(hits);
    assert h in multiset(sorted);
    var j :| 0 <= j < |sorted| && sorted[j] == h;
    var r := TopK(hits, topK);
    assert r == sorted[..|r|];
    assert forall i :: 0 <= i < |r| ==> r[i] in r;
    assert j >= |r|;
  }

  /** A non-negative `topK` at least the number of hits returns them all,
      each exactly once. */
  lemma TopKAll(hits: seq<Hit>, topK: int)
    requires topK >= |hits|
    ensures multiset(TopK(hits, topK)) == multiset(hits)
  {
  }

  /** A negative `topK` drops that many results from the end of the ranking
      instead of returning the first ones. */
  lemma NegativeTopK(hits: seq<Hit>, topK: int)
    requires topK < 0 && |hits| + topK > 0
    ensures TopK(hits, topK) == Sort(hits)[..|hits| + topK]
  {
    assert |Sort(hits)| == |hits|;
  }
}

=== FILE: sentences.dfy ===
/** Sentence splitting as `text.match(/[^.!?]*[.!?]+/g) || [text]` performs
    it. From the current position the pattern takes every character up to
    the next terminator (`.`, `!` or `?`, newlines included) and then the
    whole run of terminators; text after the last terminator matches
    nothing, and a text without any terminator yields `null`. */
module Sentences {
  import opened JsStrings

  predicate IsTerminator(c: char) {
    c == '.' || c == '!' || c == '?'
  }

  predicate NoTerminator(s: string) {
    forall i :: 0 <= i < |s| ==> !IsTerminator(s[i])
  }

  /** Index of the first terminator, `|s|` if there is none. */
  function FirstTerminator(s: string): (i: nat)
    ensures i <= |s| && NoTerminator(s[..i])
    ensures i < |s| ==> IsTerminator(s[i])
  {
    if s == [] || IsTerminator(s[0]) then 0
    else
      var i := 1 + FirstTerminator(s[1..]);
      assert s[..i] == [s[0]] + s[1..][..i - 1];
      i
  }

  /** The shape of every match: it contains a terminator, and from the first
      one on it holds nothing but terminators. */
  predicate IsSentence(m: string) {
    && FirstTerminator(m) < |m|
    && forall k :: FirstTerminator(m) <= k < |m| ==> IsTerminator(m[k])
  }

  /** The first terminator is the one at `t` when none comes before it. */
  lemma {:induction false} FirstTerminatorAt(s: string, t: nat)
    requires t <= |s| && NoTerminator(s[..t])
    requires t < |s| ==> IsTerminator(s[t])
    ensures FirstTerminator(s) == t
  {
    if t > 0 {
      assert !IsTerminator(s[..t][0]);
      assert s[1..][..t - 1] == s[..t][1..];
      FirstTerminatorAt(s[1..], t - 1);
    }
  }

  /** End of the run of terminators that starts at `i`. */
  function RunEnd(s: string, i: nat): (j: nat)
    requires i <= |s|
    ensures i <= j <= |s|
    ensures forall k :: i <= k < j ==> IsTerminator(s[k])
    ensures j < |s| ==> !IsTerminator(s[j])
    decreases |s| - i
  {
    if i < |s| && IsTerminator(s[i]) then RunEnd(s, i + 1) else i
  }

  /** The successive matches of the global regex. */
  function Matches(s: string): (ms: seq<string>)
    ensures forall k :: 0 <= k < |ms| ==> IsSentence(ms[k])
    decreases |s|
  {
    var i := FirstTerminator(s);
    if i == |s| then []
    else
      var j := RunEnd(s, i);
      var m := s[..j];
      assert IsSentence(m) by {
        assert m[..i] == s[..i];
        FirstTerminatorAt(m, i);
      }
      [m] + Matches(s[j..])
  }

  /** `text.match(...) || [text]`. */
  function Split(text: string): (ss: seq<string>)
    ensures |ss| > 0
  {
    var ms := Matches(text);
    if ms == [] then [text] else ms
  }

  /** No match at all exactly when there is no terminator. */
  lemma MatchesEmpty(s: string)
    ensures Matches(s) == [] <==> NoTerminator(s)
  {
    var i := FirstTerminator(s);
    if i == |s| {
      assert s[..i] == s;
    }
  }

  /** The matches spell out the text up to the end of its last terminator
      run; what follows holds no terminator and is dropped. */
  lemma {:induction false} MatchesCover(s: string)
    ensures |Concat(Matches(s))| <= |s|
    ensures Concat(Matches(s)) == s[..|Concat(Matches(s))|]
    ensures NoTerminator(s[|Concat(Matches(s))|..])
    decreases |s|
  {
    var i := FirstTerminator(s);
    if i == |s| {
      assert s[..i] == s;
    } else {
      var j := RunEnd(s, i);
      var tail := s[j..];
      var rest := Concat(Matches(tail));
      var c := Concat(Matches(s));
      assert |rest| <= |tail| && rest == tail[..|rest|] && NoTerminator(tail[|rest|..]) by {
        MatchesCover(tail);
      }
      assert c == s[..j] + rest by {
        MatchesStep(s);
      }
      assert c == s[..|c|] by {
        assert s[..j] + tail[..|rest|] == s[..j + |rest|];
      }
      assert s[|c|..] == tail[|rest|..];
    }
  }

  /** The first match runs to the end of the first run of terminators; the
      others are the matches of what follows. */
  lemma MatchesStep(s: string)
    requires FirstTerminator(s) < |s|
    ensures var j := RunEnd(s, FirstTerminator(s));
      Concat(Matches(s)) == s[..j] + Concat(Matches(s[j..]))
  {
    var j := RunEnd(s, FirstTerminator(s));
    var ms := Matches(s);
    assert ms == [s[..j]] + Matches(s[j..]);
    assert ms[1..] == Matches(s[j..]);
  }

  /** Each match after the first starts where the previous run of
      terminators ended, so it does not start with a terminator. */
  lemma {:induction false} MatchesMaximal(s: string, k: nat)
    requires 0 < k < |Matches(s)|
    ensures !IsTerminator(Matches(s)[k][0])
    decreases |s|
  {
    var i := FirstTerminator(s);
    var j := RunEnd(s, i);
    var rest := s[j..];
    if k == 1 {
      var i' := FirstTerminator(rest);
      assert Matches(s)[1] == rest[..RunEnd(rest, i')];
      assert rest[0] == s[j];
    } else {
      MatchesMaximal(rest, k - 1);
    }
  }

  /** The decomposition is unique: sentences of that shape, each after the
      first starting with a non-terminator, followed by terminator-free text,
      are matched back exactly. */
  lemma {:induction false} MatchesOfConcat(ms: seq<string>, tail: string)
    requires forall k :: 0 <= k < |ms| ==> IsSentence(ms[k])
    requires forall k :: 0 < k < |ms| ==> |ms[k]| > 0 && !IsTerminator(ms[k][0])
    requires NoTerminator(tail)
    requires |ms| > 0 && |tail| > 0 ==> !IsTerminator(tail[0])
    ensures Matches(Concat(ms) + tail) == ms
  {
    var s := Concat(ms) + tail;
    if ms == [] {
      MatchesEmpty(s);
    } else {
      var m := ms[0];
      var rest := Concat(ms[1..]) + tail;
      assert s == m + rest;
      var t := FirstTerminator(m);
      assert s[..t] == m[..t];
      assert FirstTerminator(s) == t by {
        FirstTerminatorAt(s, t);
      }
      assert RunEnd(s, t) == |m| by {
        forall k | t <= k < |m| ensures IsTerminator(s[k]) {
          assert s[k] == m[k];
        }
        RunEndAt(s, t, |m|);
      }
      assert s[..|m|] == m;
      assert s[|m|..] == rest;
      MatchesOfConcat(ms[1..], tail);
    }
  }

  lemma {:induction false} RunEndAt(s: string, i: nat, j: nat)
    requires i <= j <= |s|
    requires forall k :: i <= k < j ==> IsTerminator(s[k])
    requires j < |s| ==> !IsTerminator(s[j])
    ensures RunEnd(s, i) == j
    decreases j - i
  {
    if i < j {
      RunEndAt(s, i + 1, j);
    }
  }
}

=== FILE: similarity.dfy ===
/** `cosineSimilarity` of the embedding module over exact reals. `Math.sqrt`
    is a parameter: every property that needs it asks for `IsSqrt`, i.e. that
    it returns the non-negative square root of a non-negative argument. */
module Similarity {
  import opened Wrappers

  /** An embedding: the array of numbers the embedding service returns. */
  type Vector = seq<real>

  ghost predicate IsSqrt(sqrt: real -> real) {
    forall x :: 0.0 <= x ==> 0.0 <= sqrt(x) && sqrt(x) * sqrt(x) == x
  }

  function Dot(a: Vector, b: Vector): real
    requires |a| == |b|
  {
    if |a| == 0 then 0.0 else a[0] * b[0] + Dot(a[1..], b[1..])
  }

  /** The squared Euclidean norm, accumulated as `norm1`/`norm2` are. */
  function NormSq(a: Vector): real {
    Dot(a, a)
  }

  lemma {:induction false} DotSymmetric(a: Vector, b: Vector)
    requires |a| == |b|
    ensures Dot(a, b) == Dot(b, a)
  {
    if |a| > 0 {
      DotSymmetric(a[1..], b[1..]);
    }
  }

  lemma {:induction false} NormSqNonNegative(a: Vector)
    ensures NormSq(a) >= 0.0
  {
    if |a| > 0 {
      NormSqNonNegative(a[1..]);
      assert a[0] * a[0] >= 0.0;
    }
  }

  /** Cauchy-Schwarz: `(a.b)^2 <= |a|^2 |b|^2`, by induction on the length
      with the step done on plain reals. */
  lemma {:induction false} CauchySchwarz(a: Vector, b: Vector)
    requires |a| == |b|
    ensures Dot(a, b) * Dot(a, b) <= NormSq(a) * NormSq(b)
  {
    if |a| > 0 {
      var A, B, C := NormSq(a[1..]), NormSq(b[1..]), Dot(a[1..], b[1..]);
      assert A >= 0.0 && B >= 0.0 by {
        NormSqNonNegative(a[1..]);
        NormSqNonNegative(b[1..]);
      }
      assert C * C <= A * B by {
        CauchySchwarz(a[1..], b[1..]);
      }
      assert NormSq(a) == a[0] * a[0] + A && NormSq(b) == b[0] * b[0] + B && Dot(a, b) == C + a[0] * b[0] by {
        DotCons(a, a);
        DotCons(b, b);
        DotCons(a, b);
      }
      CauchyStep(a[0], b[0], A, B, C);
    }
  }

  lemma DotCons(a: Vector, b: Vector)
    requires |a| == |b| > 0
    ensures Dot(a, b) == a[0] * b[0] + Dot(a[1..], b[1..])
  {
  }

  /** The inductive step: adding a coordinate to both vectors keeps the
      inequality. */
  lemma CauchyStep(x: real, y: real, A: real, B: real, C: real)
    requires A >= 0.0 && B >= 0.0 && C * C <= A * B
    ensures (C + x * y) * (C + x * y) <= (A + x * x) * (B + y * y)
  {
    var p, q, u := A * (y * y), B * (x * x), 2.0 * C * (x * y);
    assert p >= 0.0 && q >= 0.0 by {
      NonNegProduct(A, y * y);
      NonNegProduct(B, x * x);
    }
    assert u <= p + q by {
      CrossTerm(x, y, A, B, C, p, q, u);
    }
    Expand(x, y, A, B, C);
  }

  lemma Expand(x: real, y: real, A: real, B: real, C: real)
    ensures (C + x * y) * (C + x * y) == C * C + 2.0 * C * (x * y) + (x * y) * (x * y)
    ensures (A + x * x) * (B + y * y) == A * B + A * (y * y) + B * (x * x) + (x * x) * (y * y)
    ensures (x * y) * (x * y) == (x * x) * (y * y)
  {
  }

  lemma NonNegProduct(a: real, b: real)
    requires a >= 0.0 && b >= 0.0
    ensures a * b >= 0.0
  {
  }

  /** `2 C xy <= A y^2 + B x^2` when `C^2 <= AB`. */
  lemma CrossTerm(x: real, y: real, A: real, B: real, C: real, p: real, q: real, u: real)
    requires A >= 0.0 && B >= 0.0 && C * C <= A * B
    requires p == A * (y * y) && q == B * (x * x) && u == 2.0 * C * (x * y)
    requires p >= 0.0 && q >= 0.0
    ensures u <= p + q
  {
    var w := (x * x) * (y * y);
    assert w >= 0.0 by { NonNegProduct(x * x, y * y); }
    assert u * u == 4.0 * (C * C) * w by { SquareCross(x, y, C, u, w); }
    assert p * q == (A * B) * w by { PQ(x, y, A, B, p, q, w); }
    assert (C * C) * w <= (A * B) * w by { MulLe(C * C, A * B, w); }
    assert 4.0 * (p * q) <= (p + q) * (p + q) by { AmGm(p, q); }
    if u > p + q {
      SquareAbove(u, p + q);
      assert false;
    }
  }

  lemma SquareCross(x: real, y: real, C: real, u: real, w: real)
    requires u == 2.0 * C * (x * y) && w == (x * x) * (y * y)
    ensures u * u == 4.0 * (C * C) * w
  {
  }

  lemma PQ(x: real, y: real, A: real, B: real, p: real, q: real, w: real)
    requires p == A * (y * y) && q == B * (x * x) && w == (x * x) * (y * y)
    ensures p * q == (A * B) * w
  {
  }

  lemma MulLe(a: real, b: real, w: real)
    requires a <= b && w >= 0.0
    ensures a * w <= b * w
  {
    NonNegProduct(b - a, w);
  }

  lemma AmGm(p: real, q: real)
    ensures 4.0 * (p * q) <= (p + q) * (p + q)
  {
    assert (p + q) * (p + q) - 4.0 * (p * q) == (p - q) * (p - q);
  }

  /** A number above a non-negative `d` has a square above `d * d`. */
  lemma SquareAbove(u: real, d: real)
    requires d >= 0.0 && u > d
    ensures u * u > d * d
  {
    assert u * u - d * d == (u - d) * (u + d);
    assert u - d > 0.0 && u + d > 0.0;
    MulPos(u - d, u + d);
  }

  /** `cosineSimilarity(vec1, vec2)`: zero when a vector is absent, the lengths
      differ or a norm is zero; otherwise the cosine of the angle, which lies
      in [-1, 1] (not in [0, 1] as the doc comment says). */
  function Cosine(v1: Option<Vector>, v2: Option<Vector>, sqrt: real -> real): (r: real)
    ensures v1.None? || v2.None? || |v1.value| != |v2.value| ==> r == 0.0
    ensures IsSqrt(sqrt) && v1.Some? && v2.Some? && (NormSq(v1.value) == 0.0 || NormSq(v2.value) == 0.0) ==> r == 0.0
    ensures IsSqrt(sqrt) ==> -1.0 <= r <= 1.0
  {
    if v1.None? || v2.None? || |v1.value| != |v2.value| then 0.0
    else
      var a, b := v1.value, v2.value;
      var s1, s2 := sqrt(NormSq(a)), sqrt(NormSq(b));
      var denominator := s1 * s2;
      if denominator == 0.0 then 0.0
      else
        var r := Dot(a, b) / denominator;
        CosineBounded(a, b, sqrt, s1, s2, denominator, r);
        r
  }

  lemma CosineBounded(a: Vector, b: Vector, sqrt: real -> real, s1: real, s2: real, denominator: real, r: real)
    requires |a| == |b| && denominator != 0.0
    requires s1 == sqrt(NormSq(a)) && s2 == sqrt(NormSq(b)) && denominator == s1 * s2
    requires r == Dot(a, b) / denominator
    ensures IsSqrt(sqrt) ==> NormSq(a) > 0.0 && NormSq(b) > 0.0
    ensures IsSqrt(sqrt) ==> -1.0 <= r <= 1.0
  {
    if IsSqrt(sqrt) {
      var A, B, C := NormSq(a), NormSq(b), Dot(a, b);
      assert A >= 0.0 && B >= 0.0 by {
        NormSqNonNegative(a);
        NormSqNonNegative(b);
      }
      assert s1 >= 0.0 && s1 * s1 == A by {
        SqrtOf(sqrt, A, s1);
      }
      assert s2 >= 0.0 && s2 * s2 == B by {
        SqrtOf(sqrt, B, s2);
      }
      assert C * C <= A * B by {
        CauchySchwarz(a, b);
      }
      RealBound(A, B, C, s1, s2, denominator, r);
      PositiveRoots(A, B, s1, s2, denominator);
    }
  }

  lemma SqrtOf(sqrt: real -> real, x: real, s: real)
    requires IsSqrt(sqrt) && 0.0 <= x && s == sqrt(x)
    ensures 0.0 <= s && s * s == x
  {
  }

  /** A non-zero product of two square roots has positive radicands. */
  lemma PositiveRoots(A: real, B: real, s1: real, s2: real, d: real)
    requires s1 >= 0.0 && s2 >= 0.0 && s1 * s1 == A && s2 * s2 == B && d == s1 * s2 && d != 0.0
    ensures A > 0.0 && B > 0.0
  {
    NonZeroFactors(s1, s2, d);
    MulPos(s1, s1);
    MulPos(s2, s2);
  }

  /** The arithmetic core of the bound, over plain reals. */
  lemma RealBound(A: real, B: real, C: real, s1: real, s2: real, d: real, r: real)
    requires s1 >= 0.0 && s2 >= 0.0 && s1 * s1 == A && s2 * s2 == B && d == s1 * s2 && d != 0.0
    requires C * C <= A * B && r == C / d
    ensures -1.0 <= r <= 1.0
  {
    NonZeroFactors(s1, s2, d);
    MulPos(s1, s2);
    ProductOfSquares(s1, s2);
    assert d * d == A * B;
    AbsBound(C, d);
    DivBound(C, d, r);
  }

  lemma MulPos(x: real, y: real)
    requires x > 0.0 && y > 0.0
    ensures x * y > 0.0
  {
  }

  lemma MulMono(x: real, y: real, e: real)
    requires e > 0.0 && x > y
    ensures x * e > y * e
  {
    assert x * e - y * e == (x - y) * e;
    MulPos(x - y, e);
  }

  /** If `c` exceeds `d > 0` then so does its square. */
  lemma SquareMono(c: real, d: real)
    requires d > 0.0 && c > d
    ensures c * c > d * d
  {
    MulMono(c, d, c);
    MulMono(c, d, d);
  }

  lemma AbsBound(c: real, d: real)
    requires d > 0.0 && c * c <= d * d
    ensures -d <= c <= d
  {
    if c > d {
      SquareMono(c, d);
      assert false;
    } else if -c > d {
      SquareMono(-c, d);
      assert false;
    }
  }

  lemma DivBound(c: real, d: real, r: real)
    requires d > 0.0 && -d <= c <= d && r == c / d
    ensures -1.0 <= r <= 1.0
  {
    assert r * d == c;
    if r > 1.0 { MulMono(r, 1.0, d); assert false; }
    if -1.0 > r { MulMono(-1.0, r, d); assert false; }
  }

  lemma ProductOfSquares(x: real, y: real)
    ensures (x * y) * (x * y) == (x * x) * (y * y)
  {
  }

  lemma NonZeroFactors(x: real, y: real, p: real)
    requires p == x * y && p != 0.0
    ensures x != 0.0 && y != 0.0
  {
  }

  /** A non-zero vector is perfectly similar to itself. */
  lemma CosineSelf(a: Vector, sqrt: real -> real)
    requires IsSqrt(sqrt) && NormSq(a) > 0.0
    ensures Cosine(Some(a), Some(a), sqrt) == 1.0
  {
    var s := sqrt(NormSq(a));
    assert s * s == NormSq(a);
  }

  /** The score does not depend on the order of its arguments. */
  lemma CosineSymmetric(v1: Option<Vector>, v2: Option<Vector>, sqrt: real -> real)
    ensures Cosine(v1, v2, sqrt) == Cosine(v2, v1, sqrt)
  {
    if v1.Some? && v2.Some? && |v1.value| == |v2.value| {
      DotSymmetric(v1.value, v2.value);
    }
  }
}

=== FILE: text_chunker.dfy ===
/** `TextChunker`: the four chunking strategies and the chunk statistics.
    Sizes are in characters; a token is taken to be four characters. */
module TextChunker {
  import opened JsStrings
  import Sentences

  /** The strings of `xs` that are not empty (`filter(c => c.length > 0)`). */
  function NonEmpty(xs: seq<string>): (r: seq<string>)
    ensures |r| <= |xs|
    ensures forall k :: 0 <= k < |r| ==> r[k] != [] && r[k] in xs
  {
    if xs == [] then []
    else (if xs[0] != [] then [xs[0]] else []) + NonEmpty(xs[1..])
  }

  /** Dropping the empty strings of trimmed strings leaves non-empty
      trimmed strings. */
  lemma {:induction false} NonEmptyTrimmed(xs: seq<string>)
    requires forall k :: 0 <= k < |xs| ==> IsTrimmed(xs[k])
    ensures forall k :: 0 <= k < |NonEmpty(xs)| ==> NonEmpty(xs)[k] != [] && IsTrimmed(NonEmpty(xs)[k])
  {
    if xs != [] {
      NonEmptyTrimmed(xs[1..]);
      var head := if xs[0] != [] then [xs[0]] else [];
      assert NonEmpty(xs) == head + NonEmpty(xs[1..]);
    }
  }

  /** Dropping empty strings changes nothing written out. */
  lemma {:induction false} NonEmptyConcat(xs: seq<string>)
    ensures Concat(NonEmpty(xs)) == Concat(xs)
  {
    if xs != [] {
      NonEmptyConcat(xs[1..]);
      ConcatAppend(if xs[0] != [] then [xs[0]] else [], NonEmpty(xs[1..]));
    }
  }

  // ---------------------------------------------------------------------
  // chunkByTokens

  /** The characters `chunkByTokens` may break after. */
  predicate IsBreakChar(c: char) {
    c == '.' || c == '!' || c == '?' || c == '\n'
  }

  /** The largest index `k <= i` holding `c`, or -1. */
  function LastAt(s: string, c: char, i: int): (r: int)
    requires -1 <= i < |s|
    ensures -1 <= r <= i
    ensures r >= 0 ==> s[r] == c
    ensures forall k :: r < k <= i && 0 <= k ==> s[k] != c
    decreases i + 1
  {
    if i < 0 then -1
    else if s[i] == c then i
    else
      var r := LastAt(s, c, i - 1);
      assert forall k :: r < k <= i - 1 && 0 <= k ==> s[k] != c;
      r
  }

  /** `s.lastIndexOf(c, from)` for a single character; the position is
      clamped to the string. */
  function LastIndexOf(s: string, c: char, from: int): (r: int)
    ensures -1 <= r < |s|
    ensures r >= 0 ==> s[r] == c && (r <= from || r == 0)
    ensures forall k :: r < k < |s| && k <= from ==> s[k] != c
  {
    if |s| == 0 then -1
    else LastAt(s, c, if from >= |s| then |s| - 1 else if from < 0 then 0 else from)
  }

  /** `candidates.filter(i => i > start + charSize * 0.7)`, the comparison
      taken over exact rationals. */
  function Above(xs: seq<int>, start: int, charSize: int): (r: seq<int>)
    ensures forall k :: 0 <= k < |r| ==> r[k] in xs && 10 * r[k] > 10 * start + 7 * charSize
  {
    if xs == [] then []
    else (if 10 * xs[0] > 10 * start + 7 * charSize then [xs[0]] else []) + Above(xs[1..], start, charSize)
  }

  /** Every candidate beyond the threshold survives the filter. */
  lemma {:induction false} AboveKeeps(xs: seq<int>, start: int, charSize: int, k: nat)
    requires k < |xs| && 10 * xs[k] > 10 * start + 7 * charSize
    ensures xs[k] in Above(xs, start, charSize)
  {
    if k > 0 {
      AboveKeeps(xs[1..], start, charSize, k - 1);
    }
  }

  lemma {:induction false} AboveNone(xs: seq<int>, start: int, charSize: int)
    requires forall k :: 0 <= k < |xs| ==> 10 * xs[k] <= 10 * start + 7 * charSize
    ensures Above(xs, start, charSize) == []
  {
    if xs != [] {
      AboveNone(xs[1..], start, charSize);
    }
  }

  /** `Math.max(...xs)` of a non-empty list. */
  function Max(xs: seq<int>): (m: int)
    requires |xs| > 0
    ensures m in xs && forall k :: 0 <= k < |xs| ==> xs[k] <= m
  {
    if |xs| == 1 then xs[0]
    else
      var m := Max(xs[1..]);
      assert xs[1..][0] in xs[1..];
      if xs[0] >= m then xs[0] else m
  }

  /** The four `lastIndexOf(ch, end)` results for `.`, `!`, `?` and
      newline. */
  function LastIndices(s: string, end: nat): (xs: seq<int>)
    ensures |xs| == 4
    ensures forall k :: 0 <= k < 4 ==> -1 <= xs[k] <= end && xs[k] < |s| && (xs[k] >= 0 ==> IsBreakChar(s[xs[k]]))
  {
    [LastIndexOf(s, '.', end), LastIndexOf(s, '!', end), LastIndexOf(s, '?', end), LastIndexOf(s, '\n', end)]
  }

  /** Where a pass of the loop from `start` ends: `start + charSize`, cut
      back to just after the last break character when that one lies beyond
      70% of the window; the final window ends at the end of the text. The
      loop as written can reach a negative `start`, which `lastIndexOf`
      treats as 0. */
  function PassEnd(s: string, start: int, charSize: int): (e: int)
    requires start < |s| && charSize >= 1
    ensures e <= |s|
    ensures start >= 0 ==> start < e <= start + charSize + 1
  {
    var end := if start + charSize < |s| then start + charSize else |s|;
    if end < |s| then
      var xs := LastIndices(s, if end < 0 then 0 else end);
      var candidates := Above(xs, start, charSize);
      if |candidates| > 0 then
        var m := Max(candidates);
        assert m in xs;
        m + 1
      else end
    else end
  }

  /** Where the window that starts at a position `start` of the text
      ends. */
  function WindowEnd(s: string, start: nat, charSize: int): (e: nat)
    requires start < |s| && charSize >= 1
    ensures start < e <= |s| && e <= start + charSize + 1
  {
    PassEnd(s, start, charSize)
  }

  /** The last break character at or before `i`, or -1. */
  function LastBreak(s: string, i: int): (r: int)
    requires -1 <= i < |s|
    ensures -1 <= r <= i
    ensures r >= 0 ==> IsBreakChar(s[r])
    ensures forall k :: r < k <= i && 0 <= k ==> !IsBreakChar(s[k])
    decreases i + 1
  {
    if i < 0 then -1
    else if IsBreakChar(s[i]) then i
    else
      var r := LastBreak(s, i - 1);
      assert forall k :: r < k <= i - 1 && 0 <= k ==> !IsBreakChar(s[k]);
      r
  }

  /** The last break character is the largest of the four `lastIndexOf`
      results. */
  lemma LastIndicesMax(s: string, end: nat)
    requires end < |s|
    ensures LastBreak(s, end) in LastIndices(s, end)
    ensures forall k :: 0 <= k < 4 ==> LastIndices(s, end)[k] <= LastBreak(s, end)
  {
    var b := LastBreak(s, end);
    var xs := LastIndices(s, end);
    forall k | 0 <= k < 4 ensures xs[k] <= b {
    }
    if b < 0 {
      assert xs[0] == -1;
    } else if s[b] == '.' {
      assert xs[0] == b;
    } else if s[b] == '!' {
      assert xs[1] == b;
    } else if s[b] == '?' {
      assert xs[2] == b;
    } else {
      assert xs[3] == b;
    }
  }

  /** Where the window that starts at `start` ends, put plainly: just after
      the last break character within reach when that one lies beyond 70% of
      the window, and at the full width otherwise. */
  function BreakEnd(s: string, start: nat, charSize: int): (e: nat)
    requires start < |s| && charSize >= 1
    ensures start < e <= |s| && e <= start + charSize + 1
  {
    var end := if start + charSize < |s| then start + charSize else |s|;
    var b := if end < |s| then LastBreak(s, end) else -1;
    if 10 * b > 10 * start + 7 * charSize then b + 1 else end
  }

  /** The largest of the four `lastIndexOf` candidates beyond 70% of the
      window is the last break character within reach. */
  lemma WindowEndIsLastBreak(s: string, start: nat, charSize: int)
    requires start < |s| && charSize >= 1
    ensures WindowEnd(s, start, charSize) == BreakEnd(s, start, charSize)
  {
    var end := if start + charSize < |s| then start + charSize else |s|;
    if end < |s| {
      var b := LastBreak(s, end);
      var xs := LastIndices(s, end);
      var candidates := Above(xs, start, charSize);
      LastIndicesMax(s, end);
      if 10 * b > 10 * start + 7 * charSize {
        var k :| 0 <= k < 4 && xs[k] == b;
        AboveKeeps(xs, start, charSize, k);
        var m := Max(candidates);
        assert m in xs;
        assert m <= b && b <= m;
      } else {
        forall k | 0 <= k < 4 ensures !(10 * xs[k] > 10 * start + 7 * charSize) {
        }
        AboveNone(xs, start, charSize);
      }
    }
  }

  /** `ends[j]` is where a window starting at `j` ends, in a text of
      length `n`. */
  predicate ValidEnds(n: nat, ends: seq<nat>) {
    |ends| == n && forall j :: 0 <= j < n ==> j < ends[j] <= n
  }

  /** Where the window starting at each position of `s` ends. */
  function WindowEnds(s: string, charSize: int): (ends: seq<nat>)
    requires charSize >= 1
    ensures ValidEnds(|s|, ends)
    ensures forall j :: 0 <= j < |s| ==> ends[j] <= j + charSize + 1
  {
    seq(|s|, j requires 0 <= j < |s| => BreakEnd(s, j, charSize))
  }

  lemma WindowEndsAt(s: string, charSize: int, j: nat)
    requires charSize >= 1 && j < |s|
    ensures WindowEnds(s, charSize)[j] == WindowEnd(s, j, charSize)
  {
    WindowEndIsLastBreak(s, j, charSize);
  }

  /** The windows `[start, end)` the loop visits from `start`, moving on to
      `end + skip` each time, until `start` reaches `n`. */
  function Tiles(n: nat, ends: seq<nat>, start: nat, skip: nat): (ws: seq<(nat, nat)>)
    requires ValidEnds(n, ends)
    ensures forall k :: 0 <= k < |ws| ==> start <= ws[k].0 < ws[k].1 <= n && ws[k].1 == ends[ws[k].0]
    decreases n - start
  {
    if start >= n then []
    else [(start, ends[start])] + Tiles(n, ends, ends[start] + skip, skip)
  }

  /** The windows of `chunkByTokens` over `s` from `start`, moving on to
      `end + skip` each time (`skip` is `-charOverlap`). */
  function Windows(s: string, start: nat, charSize: int, skip: nat): (ws: seq<(nat, nat)>)
    requires charSize >= 1
    ensures forall k :: 0 <= k < |ws| ==> start <= ws[k].0 < ws[k].1 <= |s| && ws[k].1 <= ws[k].0 + charSize + 1
    ensures WithinWidth(s, ws, charSize + 1)
  {
    Tiles(|s|, WindowEnds(s, charSize), start, skip)
  }

  /** The part of `s` under each window, as `substring(start, end)` or
      `slice(start, end)` cuts it. */
  function Raw<T>(s: seq<T>, ws: seq<(nat, nat)>): (r: seq<seq<T>>)
    requires forall k :: 0 <= k < |ws| ==> ws[k].0 <= ws[k].1 <= |s|
    ensures |r| == |ws|
    ensures forall k :: 0 <= k < |ws| ==> r[k] == s[ws[k].0..ws[k].1]
  {
    seq(|ws|, k requires 0 <= k < |ws| => s[ws[k].0..ws[k].1])
  }

  function TrimAll(xs: seq<string>): (r: seq<string>)
    ensures |r| == |xs|
    ensures forall k :: 0 <= k < |xs| ==> r[k] == Trim(xs[k])
  {
    seq(|xs|, k requires 0 <= k < |xs| => Trim(xs[k]))
  }

  /** The chunks cut from `s` by windows of width at most `n`: each window's
      text trimmed, the empty ones dropped. They are non-empty trimmed
      strings of length at most `n`. */
  function Pieces(s: string, ws: seq<(nat, nat)>, n: int): (r: seq<string>)
    requires WithinWidth(s, ws, n)
    ensures forall k :: 0 <= k < |r| ==> r[k] != [] && IsTrimmed(r[k]) && |r[k]| <= n
  {
    var xs := TrimAll(Raw(s, ws));
    TrimAllBounded(s, ws, n);
    NonEmptyBounded(xs, n);
    NonEmpty(xs)
  }

  /** Every window lies inside `s` and is at most `n` wide. */
  predicate WithinWidth(s: string, ws: seq<(nat, nat)>, n: int) {
    forall k :: 0 <= k < |ws| ==> ws[k].0 <= ws[k].1 <= |s| && ws[k].1 - ws[k].0 <= n
  }

  lemma TrimAllBounded(s: string, ws: seq<(nat, nat)>, n: int)
    requires WithinWidth(s, ws, n)
    ensures forall k :: 0 <= k < |ws| ==> IsTrimmed(TrimAll(Raw(s, ws))[k]) && |TrimAll(Raw(s, ws))[k]| <= n
  {
    var raw := Raw(s, ws);
    forall k | 0 <= k < |ws| ensures |Trim(raw[k])| <= n {
      assert |raw[k]| == ws[k].1 - ws[k].0;
    }
  }

  lemma {:induction false} NonEmptyBounded(xs: seq<string>, n: int)
    requires forall k :: 0 <= k < |xs| ==> IsTrimmed(xs[k]) && |xs[k]| <= n
    ensures forall k :: 0 <= k < |NonEmpty(xs)| ==> NonEmpty(xs)[k] != [] && IsTrimmed(NonEmpty(xs)[k]) && |NonEmpty(xs)[k]| <= n
  {
    if xs != [] {
      NonEmptyBounded(xs[1..], n);
      var head := if xs[0] != [] then [xs[0]] else [];
      assert NonEmpty(xs) == head + NonEmpty(xs[1..]);
    }
  }

  /** `text.trim().replace(/\s+/g, ' ')`. */
  function Clean(text: string): (r: string)
    ensures IsCollapsed(r) && IsTrimmed(r)
  {
    CollapseKeepsTrimmed(Trim(text));
    CollapseSpaces(Trim(text))
  }

  /** A text that is not blank stays non-empty once cleaned. */
  lemma CleanNonEmpty(text: string)
    requires Trim(text) != []
    ensures Clean(text) != []
  {
    CollapseKeepsLastChar(Trim(text));
  }

  /** `chunkByTokens(text, chunkSize, overlap)` for the arguments with which
      the loop ends: a positive `chunkSize` and an `overlap` that is not
      positive. */
  function ChunkByTokens(text: string, chunkSize: int, overlap: int): (r: seq<string>)
    requires chunkSize >= 1 && overlap <= 0
    ensures Trim(text) == [] ==> r == []
    ensures forall k :: 0 <= k < |r| ==> r[k] != [] && IsTrimmed(r[k]) && |r[k]| <= 4 * chunkSize + 1
  {
    if Trim(text) == [] then []
    else
      var clean := Clean(text);
      var ws := Windows(clean, 0, 4 * chunkSize, -4 * overlap);
      Pieces(clean, ws, 4 * chunkSize + 1)
  }

  /** Without overlap the windows tile the text: each starts where the
      previous one ended and together they spell it out. */
  lemma {:induction false} TilesSpell<T>(s: seq<T>, ends: seq<nat>, start: nat)
    requires ValidEnds(|s|, ends) && start <= |s|
    ensures Concat(Raw(s, Tiles(|s|, ends, start, 0))) == s[start..]
    decreases |s| - start
  {
    var ws := Tiles(|s|, ends, start, 0);
    if start < |s| {
      var e := ends[start];
      TilesSpell(s, ends, e);
      assert ws[1..] == Tiles(|s|, ends, e, 0);
      assert Raw(s, ws)[1..] == Raw(s, ws[1..]);
      assert s[start..] == s[start..e] + s[e..];
    }
  }

  /** Every window after the first starts where the previous one ended. */
  lemma {:induction false} TilesContiguous(n: nat, ends: seq<nat>, start: nat, k: nat)
    requires ValidEnds(n, ends) && k + 1 < |Tiles(n, ends, start, 0)|
    ensures Tiles(n, ends, start, 0)[k].1 == Tiles(n, ends, start, 0)[k + 1].0
    decreases n - start
  {
    var ws := Tiles(n, ends, start, 0);
    var rest := Tiles(n, ends, ends[start], 0);
    assert ws[1..] == rest;
    if k > 0 {
      assert ws[k] == rest[k - 1] && ws[k + 1] == rest[k];
      TilesContiguous(n, ends, ends[start], k - 1);
    }
  }

  /** The windows of the text, one after another, spell it out. */
  lemma WindowsTile(s: string, charSize: int)
    requires charSize >= 1
    ensures Concat(Raw(s, Windows(s, 0, charSize, 0))) == s
  {
    TilesSpell(s, WindowEnds(s, charSize), 0);
    assert s[0..] == s;
  }

  /** Each window ends where `WindowEnd` puts it, and the next one starts
      there. */
  lemma WindowsContiguous(s: string, charSize: int, k: nat)
    requires charSize >= 1 && k < |Windows(s, 0, charSize, 0)|
    ensures var ws := Windows(s, 0, charSize, 0);
      ws[k].1 == WindowEnd(s, ws[k].0, charSize)
      && (k + 1 < |ws| ==> ws[k].1 == ws[k + 1].0)
  {
    var ws := Windows(s, 0, charSize, 0);
    WindowEndsAt(s, charSize, ws[k].0);
    if k + 1 < |ws| {
      TilesContiguous(|s|, WindowEnds(s, charSize), 0, k);
    }
  }

  /** A window that stops short of `start + charSize` (and of the end of the
      text) ends just after a `.`, `!` or `?` lying beyond 70% of the
      window. */
  lemma WindowBreaksAtTerminator(s: string, start: nat, charSize: int)
    requires start < |s| && charSize >= 1 && IsCollapsed(s)
    ensures var e := WindowEnds(s, charSize)[start];
      e == start + charSize || e == |s|
      || (Sentences.IsTerminator(s[e - 1]) && 10 * (e - 1) > 10 * start + 7 * charSize)
  {
    var e := WindowEnds(s, charSize)[start];
    var end := if start + charSize < |s| then start + charSize else |s|;
    var b := if end < |s| then LastBreak(s, end) else -1;
    assert e == BreakEnd(s, start, charSize);
    if 10 * b > 10 * start + 7 * charSize {
      BreakIsTerminator(s, b);
    }
  }

  /** In a collapsed text every break character is a terminator. */
  lemma BreakIsTerminator(s: string, i: nat)
    requires i < |s| && IsCollapsed(s) && IsBreakChar(s[i])
    ensures Sentences.IsTerminator(s[i])
  {
    if s[i] == '\n' {
      assert IsSpace(s[i]);
    }
  }

  /** The chunks hold every character of the text that is not white space,
      in order: chunking without overlap loses and repeats nothing. */
  lemma ChunkByTokensKeepsText(text: string, chunkSize: int)
    requires chunkSize >= 1
    ensures NonSpaces(Concat(ChunkByTokens(text, chunkSize, 0))) == NonSpaces(text)
  {
    if Trim(text) == [] {
      TrimEmptyIffBlank(text);
      NonSpacesBlank(text);
    } else {
      var clean := Clean(text);
      var raw := Raw(clean, Windows(clean, 0, 4 * chunkSize, 0));
      WindowsTile(clean, 4 * chunkSize);
      NonEmptyConcat(TrimAll(raw));
      NonSpacesTrimAll(raw);
      CollapseKeepsNonSpaces(Trim(text));
      NonSpacesTrim(text);
    }
  }

  /** Trimming every part keeps the non-space characters of the whole. */
  lemma {:induction false} NonSpacesTrimAll(xs: seq<string>)
    ensures NonSpaces(Concat(TrimAll(xs))) == NonSpaces(Concat(xs))
  {
    if xs != [] {
      NonSpacesTrimAll(xs[1..]);
      assert TrimAll(xs)[1..] == TrimAll(xs[1..]);
      NonSpacesAppend(Trim(xs[0]), Concat(TrimAll(xs[1..])));
      NonSpacesAppend(xs[0], Concat(xs[1..]));
      NonSpacesTrim(xs[0]);
    }
  }

  // ---------------------------------------------------------------------
  // chunkBySentences

  /** A chunk made of a group of sentences: `group.join(' ').trim()`. */
  function GroupText(g: seq<string>): string {
    Trim(Join(" ", g))
  }

  function GroupTexts(gs: seq<seq<string>>): (r: seq<string>)
    ensures |r| == |gs|
    ensures AllTrimmed(r)
  {
    Map(GroupText, gs)
  }

  function Map<A, B>(f: A -> B, xs: seq<A>): (r: seq<B>)
    ensures |r| == |xs|
    ensures forall k :: 0 <= k < |xs| ==> r[k] == f(xs[k])
  {
    seq(|xs|, k requires 0 <= k < |xs| => f(xs[k]))
  }

  /** Where the group starting at each of `n` sentences ends: `perChunk`
      sentences later, capped at `n`. */
  function GroupEnds(n: nat, perChunk: int): (ends: seq<nat>)
    requires perChunk >= 1
    ensures ValidEnds(n, ends)
    ensures forall j :: 0 <= j < n ==> ends[j] == if j + perChunk < n then j + perChunk else n
  {
    seq(n, j requires 0 <= j < n => if j + perChunk < n then j + perChunk else n)
  }

  /** The groups `sentences.slice(start, end)` the loop takes, moving on to
      `end + skip` each time (`skip` is `-overlapSentences`). */
  function Groups(ss: seq<string>, start: nat, perChunk: int, skip: nat): (gs: seq<seq<string>>)
    requires perChunk >= 1
    ensures forall k :: 0 <= k < |gs| ==> 0 < |gs[k]| <= perChunk
  {
    Raw(ss, Tiles(|ss|, GroupEnds(|ss|, perChunk), start, skip))
  }

  /** Without overlap the groups cut the sentences into consecutive runs of
      exactly `perChunk`, the last one possibly shorter. */
  lemma GroupsPartition(ss: seq<string>, start: nat, perChunk: int)
    requires perChunk >= 1 && start <= |ss|
    ensures Concat(Groups(ss, start, perChunk, 0)) == ss[start..]
    ensures forall k :: 0 <= k < |Groups(ss, start, perChunk, 0)| - 1 ==> |Groups(ss, start, perChunk, 0)[k]| == perChunk
  {
    var ends := GroupEnds(|ss|, perChunk);
    var ws := Tiles(|ss|, ends, start, 0);
    TilesSpell(ss, ends, start);
    forall k | 0 <= k < |ws| - 1
      ensures ws[k].1 - ws[k].0 == perChunk
    {
      TilesContiguous(|ss|, ends, start, k);
    }
  }

  /** `chunkBySentences(text, perChunk, overlap)` for the arguments with
      which the loop ends: a positive `perChunk` and an `overlap` that is not
      positive. */
  function ChunkBySentences(text: string, perChunk: int, overlap: int): (r: seq<string>)
    requires perChunk >= 1 && overlap <= 0
    ensures Trim(text) == [] ==> r == []
    ensures forall k :: 0 <= k < |r| ==> r[k] != [] && IsTrimmed(r[k])
  {
    if Trim(text) == [] then []
    else NonEmpty(GroupTexts(Groups(Sentences.Split(text), 0, perChunk, -overlap)))
  }

  /** Without overlap every chunk is the text of one group, and the groups
      partition the sentences in order. */
  lemma ChunkBySentencesGroups(text: string, perChunk: int)
    requires perChunk >= 1 && Trim(text) != []
    ensures var gs := Groups(Sentences.Split(text), 0, perChunk, 0);
      && ChunkBySentences(text, perChunk, 0) == NonEmpty(GroupTexts(gs))
      && Concat(gs) == Sentences.Split(text)
  {
    var ss := Sentences.Split(text);
    GroupsPartition(ss, 0, perChunk);
    assert ss[0..] == ss;
  }

  // ---------------------------------------------------------------------
  // chunkByParagraphs

  /** No two newlines side by side. */
  predicate NoParagraphBreak(s: string) {
    forall i :: 0 <= i < |s| - 1 ==> !NewlinePair(s, i)
  }

  predicate NewlinePair(s: string, i: nat)
    requires i + 1 < |s|
  {
    s[i] == '\n' && s[i + 1] == '\n'
  }

  /** The first position where two newlines meet, `|s|` if none. */
  function ParagraphBreak(s: string): (p: nat)
    ensures p <= |s|
    ensures p < |s| ==> p + 1 < |s| && s[p] == '\n' && s[p + 1] == '\n'
    ensures NoParagraphBreak(s[..p])
  {
    if |s| < 2 then |s|
    else if s[0] == '\n' && s[1] == '\n' then 0
    else
      var p := 1 + ParagraphBreak(s[1..]);
      assert NoParagraphBreak(s[..p]) by {
        var t, u := s[..p], s[1..][..p - 1];
        forall i | 0 <= i < |t| - 1 ensures !NewlinePair(t, i) {
          if i > 0 {
            assert !NewlinePair(u, i - 1);
            assert t[i] == u[i - 1] && t[i + 1] == u[i];
          }
        }
      }
      p
  }

  /** End of the run of newlines starting at `i`. */
  function NewlineRunEnd(s: string, i: nat): (j: nat)
    requires i <= |s|
    ensures i <= j <= |s|
    ensures forall k :: i <= k < j ==> s[k] == '\n'
    decreases |s| - i
  {
    if i < |s| && s[i] == '\n' then NewlineRunEnd(s, i + 1) else i
  }

  /** `text.split(/\n\n+/)`: the pieces between maximal runs of two or more
      newlines. */
  function SplitParagraphs(s: string): (ps: seq<string>)
    ensures |ps| > 0
    ensures forall k :: 0 <= k < |ps| ==> NoParagraphBreak(ps[k])
    decreases |s|
  {
    var p := ParagraphBreak(s);
    if p == |s| then
      assert s[..p] == s;
      [s]
    else
      var q := NewlineRunEnd(s, p);
      [s[..p]] + SplitParagraphs(s[q..])
  }

  /** `chunkByParagraphs(text)`. */
  function ChunkByParagraphs(text: string): (r: seq<string>)
    ensures Trim(text) == [] ==> r == []
    ensures forall k :: 0 <= k < |r| ==> r[k] != [] && IsTrimmed(r[k]) && NoParagraphBreak(r[k])
  {
    if Trim(text) == [] then []
    else
      var ps := SplitParagraphs(text);
      forall k | 0 <= k < |ps| ensures NoParagraphBreak(TrimAll(ps)[k]) {
        TrimKeepsNoBreak(ps[k]);
      }
      NonEmpty(TrimAll(ps))
  }

  /** Trimming cuts a slice out of the string, so it creates no paragraph
      break. */
  lemma TrimKeepsNoBreak(s: string)
    requires NoParagraphBreak(s)
    ensures NoParagraphBreak(Trim(s))
  {
    TrimIsSlice(s);
    SliceNoBreak(s, Lead(s), Lead(s) + |Trim(s)|, Trim(s));
  }

  /** A slice of a string without paragraph break has none either. */
  lemma SliceNoBreak(s: string, a: nat, b: nat, t: string)
    requires NoParagraphBreak(s) && a <= b <= |s| && t == s[a..b]
    ensures NoParagraphBreak(t)
  {
    forall i | 0 <= i < |t| - 1 ensures !NewlinePair(t, i) {
      assert !NewlinePair(s, a + i);
      assert t[i] == s[a + i] && t[i + 1] == s[a + i + 1];
    }
  }

  /** A run of newlines is white space. */
  lemma NewlineRunBlank(s: string, p: nat)
    requires p <= |s|
    ensures IsBlank(s[p..NewlineRunEnd(s, p)])
  {
    var q := NewlineRunEnd(s, p);
    forall i | 0 <= i < q - p ensures IsSpace(s[p..q][i]) {
      assert s[p..q][i] == s[p + i];
    }
  }

  /** The pieces of a split hold every character that is not white space:
      only newlines go. */
  lemma {:induction false} SplitParagraphsKeepsText(s: string)
    ensures NonSpaces(Concat(SplitParagraphs(s))) == NonSpaces(s)
    decreases |s|
  {
    var p := ParagraphBreak(s);
    if p == |s| {
      assert SplitParagraphs(s) == [s];
      assert [s][1..] == [];
      assert Concat([s]) == s + "" == s;
    } else {
      var q := NewlineRunEnd(s, p);
      SplitParagraphsKeepsText(s[q..]);
      var ps := SplitParagraphs(s);
      assert ps[1..] == SplitParagraphs(s[q..]);
      SplitStep(s, p, q, Concat(ps[1..]));
      assert Concat(ps) == s[..p] + Concat(ps[1..]);
    }
  }

  lemma SplitStep(s: string, p: nat, q: nat, rest: string)
    requires p <= |s| && q == NewlineRunEnd(s, p)
    requires NonSpaces(rest) == NonSpaces(s[q..])
    ensures NonSpaces(s[..p] + rest) == NonSpaces(s)
  {
    assert s == s[..p] + s[p..q] + s[q..];
    NonSpacesAppend(s[..p] + s[p..q], s[q..]);
    NonSpacesAppend(s[..p], s[p..q]);
    NonSpacesAppend(s[..p], rest);
    NewlineRunBlank(s, p);
    NonSpacesBlank(s[p..q]);
  }

  /** The paragraphs hold every character of the text that is not white
      space, in order. */
  lemma ChunkByParagraphsKeepsText(text: string)
    ensures NonSpaces(Concat(ChunkByParagraphs(text))) == NonSpaces(text)
  {
    if Trim(text) == [] {
      TrimEmptyIffBlank(text);
      NonSpacesBlank(text);
    } else {
      var ps := SplitParagraphs(text);
      NonEmptyConcat(TrimAll(ps));
      NonSpacesTrimAll(ps);
      SplitParagraphsKeepsText(text);
    }
  }

  // ---------------------------------------------------------------------
  // smartChunk

  /** `Math.ceil(s.length / 4)`, the token estimate of a string. */
  function Tokens(s: string): (t: nat)
    ensures 4 * t >= |s| && 4 * t < |s| + 4
  {
    (|s| + 3) / 4
  }

  /** Token estimates of a group of sentences, added up. */
  function TokenSum(g: seq<string>): nat {
    if g == [] then 0 else TokenSum(g[..|g| - 1]) + Tokens(g[|g| - 1])
  }

  /** The loop variables of `smartChunk`: the chunks pushed so far, the chunk
      being built and its token count. */
  datatype SmartState = SmartState(chunks: seq<string>, current: string, tokens: int)

  /** One iteration: seal the current chunk when the sentence would push it
      over `maxTokens` and it is not the empty string; otherwise append the
      sentence after a space. */
  function SmartStep(st: SmartState, sentence: string, maxTokens: int): SmartState {
    var t := Tokens(sentence);
    if st.tokens + t > maxTokens && st.current != "" then
      SmartState(st.chunks + [Trim(st.current)], sentence, t)
    else
      SmartState(st.chunks, st.current + " " + sentence, st.tokens + t)
  }

  predicate AllTrimmed(xs: seq<string>) {
    forall k :: 0 <= k < |xs| ==> IsTrimmed(xs[k])
  }

  function SmartLoop(st: SmartState, ss: seq<string>, maxTokens: int): (r: SmartState)
    ensures AllTrimmed(st.chunks) ==> AllTrimmed(r.chunks)
    decreases |ss|
  {
    if ss == [] then st else SmartLoop(SmartStep(st, ss[0], maxTokens), ss[1..], maxTokens)
  }

  /** `smartChunk(text, maxTokens, overlapTokens)`; `overlapTokens` is never
      read. */
  function SmartChunk(text: string, maxTokens: int): (r: seq<string>)
    ensures forall k :: 0 <= k < |r| ==> r[k] != [] && IsTrimmed(r[k])
  {
    var st := SmartLoop(SmartState([], "", 0), Sentences.Split(text), maxTokens);
    var chunks := if Trim(st.current) != [] then st.chunks + [Trim(st.current)] else st.chunks;
    assert AllTrimmed(st.chunks);
    assert AllTrimmed(chunks);
    NonEmptyTrimmed(chunks);
    NonEmpty(chunks)
  }

  /** Reference grouping. Starting from a group of `n` sentences, the first
      group keeps growing while the grown group's token sum stays within
      `maxTokens`. */
  function Span(ss: seq<string>, maxTokens: int, n: nat): (m: nat)
    requires 1 <= n <= |ss|
    ensures n <= m <= |ss|
    ensures m > n ==> TokenSum(ss[..m]) <= maxTokens
    ensures m < |ss| ==> TokenSum(ss[..m + 1]) > maxTokens
    decreases |ss| - n
  {
    if n < |ss| && TokenSum(ss[..n + 1]) <= maxTokens then Span(ss, maxTokens, n + 1) else n
  }

  /** The greedy partition of the sentences: each group is the longest run
      that fits within `maxTokens`, a single sentence counting as fitting. */
  function Greedy(ss: seq<string>, maxTokens: int): (gs: seq<seq<string>>)
    ensures forall k :: 0 <= k < |gs| ==> gs[k] != []
    decreases |ss|
  {
    if ss == [] then []
    else
      var n := Span(ss, maxTokens, 1);
      [ss[..n]] + Greedy(ss[n..], maxTokens)
  }

  /** The greedy groups partition the sentences in order. */
  lemma {:induction false} GreedyPartition(ss: seq<string>, maxTokens: int)
    ensures Concat(Greedy(ss, maxTokens)) == ss
    decreases |ss|
  {
    if ss != [] {
      var n := Span(ss, maxTokens, 1);
      var gs := Greedy(ss, maxTokens);
      var rest := Greedy(ss[n..], maxTokens);
      assert Concat(rest) == ss[n..] by {
        GreedyPartition(ss[n..], maxTokens);
      }
      assert Concat(gs) == ss[..n] + Concat(rest) by {
        assert gs[0] == ss[..n] && gs[1..] == rest;
      }
      assert ss == ss[..n] + ss[n..];
    }
  }

  /** Each greedy group holds a single sentence or fits within
      `maxTokens`. */
  lemma {:induction false} GreedyFits(ss: seq<string>, maxTokens: int, k: nat)
    requires k < |Greedy(ss, maxTokens)|
    ensures var g := Greedy(ss, maxTokens)[k]; |g| == 1 || TokenSum(g) <= maxTokens
    decreases |ss|
  {
    var n := Span(ss, maxTokens, 1);
    if k > 0 {
      assert Greedy(ss, maxTokens)[k] == Greedy(ss[n..], maxTokens)[k - 1];
      GreedyFits(ss[n..], maxTokens, k - 1);
    }
  }

  /** No greedy group could have taken the first sentence of the next one
      without going over `maxTokens`. */
  lemma {:induction false} GreedyMaximal(ss: seq<string>, maxTokens: int, k: nat)
    requires k + 1 < |Greedy(ss, maxTokens)|
    ensures TokenSum(Greedy(ss, maxTokens)[k]) + Tokens(Greedy(ss, maxTokens)[k + 1][0]) > maxTokens
    decreases |ss|
  {
    var n := Span(ss, maxTokens, 1);
    var gs := Greedy(ss, maxTokens);
    var rest := Greedy(ss[n..], maxTokens);
    assert gs[1..] == rest;
    if k == 0 {
      assert ss[..n + 1][..n] == ss[..n];
      var n' := Span(ss[n..], maxTokens, 1);
      assert rest[0] == ss[n..][..n'];
      assert rest[0][0] == ss[n];
    } else {
      GreedyMaximal(ss[n..], maxTokens, k - 1);
    }
  }

  /** The first group is unchanged by starting it from any prefix that fits. */
  lemma {:induction false} SpanSkip(ss: seq<string>, maxTokens: int, n: nat)
    requires 1 <= n <= |ss|
    requires forall m :: 1 < m <= n ==> TokenSum(ss[..m]) <= maxTokens
    ensures Span(ss, maxTokens, 1) == Span(ss, maxTokens, n)
  {
    if n > 1 {
      SpanSkip(ss, maxTokens, n - 1);
    }
  }

  lemma GroupTextsAppend(a: seq<seq<string>>, b: seq<seq<string>>)
    ensures GroupTexts(a + b) == GroupTexts(a) + GroupTexts(b)
  {
    MapAppend(GroupText, a, b);
  }

  lemma MapAppend<A, B>(f: A -> B, a: seq<A>, b: seq<A>)
    ensures Map(f, a + b) == Map(f, a) + Map(f, b)
  {
    var l := Map(f, a + b);
    var r := Map(f, a) + Map(f, b);
    forall k | 0 <= k < |l| ensures l[k] == r[k] {
      if k < |a| {
        assert (a + b)[k] == a[k];
      } else {
        assert (a + b)[k] == b[k - |a|];
      }
    }
  }

  /** A chunk being built from the group `cg` (after a leading space for the
      first chunk) ends up, with every chunk after it, as the texts of the
      greedy groups of `whole`, the group followed by the sentences still to
      come. */
  lemma {:induction false} LoopIsGreedy(chunks: seq<string>, lead: string, cg: seq<string>, rest: seq<string>, whole: seq<string>, maxTokens: int)
    requires cg != [] && (lead == "" || lead == " ")
    requires lead + Join(" ", cg) != []
    requires Fits(cg, maxTokens) && whole == cg + rest
    requires forall i :: 0 <= i < |rest| ==> rest[i] != []
    ensures var st := SmartLoop(SmartState(chunks, lead + Join(" ", cg), TokenSum(cg)), rest, maxTokens);
      st.chunks + [Trim(st.current)] == chunks + GroupTexts(Greedy(whole, maxTokens))
    decreases |rest|, 1
  {
    if rest == [] {
      LoopLast(chunks, lead, cg, whole, maxTokens);
    } else if TokenSum(cg) + Tokens(rest[0]) > maxTokens {
      LoopSealCase(chunks, lead, cg, rest, whole, maxTokens);
    } else {
      LoopGrowCase(chunks, lead, cg, rest, whole, maxTokens);
    }
  }

  /** With no sentence left the chunk being built is the last group. */
  lemma LoopLast(chunks: seq<string>, lead: string, cg: seq<string>, whole: seq<string>, maxTokens: int)
    requires cg != [] && (lead == "" || lead == " ")
    requires Fits(cg, maxTokens) && whole == cg
    ensures var st := SmartLoop(SmartState(chunks, lead + Join(" ", cg), TokenSum(cg)), [], maxTokens);
      st.chunks + [Trim(st.current)] == chunks + GroupTexts(Greedy(whole, maxTokens))
  {
    var st := SmartState(chunks, lead + Join(" ", cg), TokenSum(cg));
    SmartLoopDone(st, maxTokens);
    LeadTrimmed(lead, cg);
    GreedyWhole(cg, maxTokens);
  }

  lemma SmartLoopDone(st: SmartState, maxTokens: int)
    ensures SmartLoop(st, [], maxTokens) == st
  {
  }

  /** A group that fits is its own single greedy group. */
  lemma GreedyWhole(cg: seq<string>, maxTokens: int)
    requires cg != [] && Fits(cg, maxTokens)
    ensures GroupTexts(Greedy(cg, maxTokens)) == [GroupText(cg)]
  {
    assert Greedy(cg, maxTokens) == [cg] by {
      GreedySeal(cg, [], maxTokens);
      assert cg + [] == cg;
    }
    GroupTextsSingle(cg);
  }

  lemma GroupTextsSingle(g: seq<string>)
    ensures GroupTexts([g]) == [GroupText(g)]
  {
    var r := GroupTexts([g]);
    assert |r| == 1 && r[0] == GroupText([g][0]);
  }

  /** The next sentence seals the chunk and starts a new one. */
  lemma {:induction false} LoopSealCase(chunks: seq<string>, lead: string, cg: seq<string>, rest: seq<string>, whole: seq<string>, maxTokens: int)
    requires cg != [] && (lead == "" || lead == " ")
    requires lead + Join(" ", cg) != []
    requires Fits(cg, maxTokens) && whole == cg + rest
    requires forall i :: 0 <= i < |rest| ==> rest[i] != []
    requires rest != [] && TokenSum(cg) + Tokens(rest[0]) > maxTokens
    ensures var st := SmartLoop(SmartState(chunks, lead + Join(" ", cg), TokenSum(cg)), rest, maxTokens);
      st.chunks + [Trim(st.current)] == chunks + GroupTexts(Greedy(whole, maxTokens))
    decreases |rest|, 0
  {
    var x := rest[0];
    assert rest == [x] + rest[1..];
    assert "" + Join(" ", [x]) != [] by {
      SingleGroup(x);
    }
    LoopIsGreedy(chunks + [GroupText(cg)], "", [x], rest[1..], rest, maxTokens);
    LoopSeal(chunks, lead, cg, rest, whole, maxTokens);
  }

  /** The next sentence joins the chunk. */
  lemma {:induction false} LoopGrowCase(chunks: seq<string>, lead: string, cg: seq<string>, rest: seq<string>, whole: seq<string>, maxTokens: int)
    requires cg != [] && (lead == "" || lead == " ")
    requires lead + Join(" ", cg) != []
    requires Fits(cg, maxTokens) && whole == cg + rest
    requires forall i :: 0 <= i < |rest| ==> rest[i] != []
    requires rest != [] && TokenSum(cg) + Tokens(rest[0]) <= maxTokens
    ensures var st := SmartLoop(SmartState(chunks, lead + Join(" ", cg), TokenSum(cg)), rest, maxTokens);
      st.chunks + [Trim(st.current)] == chunks + GroupTexts(Greedy(whole, maxTokens))
    decreases |rest|, 0
  {
    var x := rest[0];
    GrowFits(cg, x, maxTokens);
    assert whole == (cg + [x]) + rest[1..];
    assert lead + Join(" ", cg + [x]) != [] by {
      JoinSnoc(" ", cg, x);
      assert (cg + [x])[..|cg|] == cg;
    }
    LoopIsGreedy(chunks, lead, cg + [x], rest[1..], whole, maxTokens);
    LoopGrow(chunks, lead, cg, rest, whole, maxTokens);
  }

  /** The step of the loop that seals a chunk. */
  lemma LoopSeal(chunks: seq<string>, lead: string, cg: seq<string>, rest: seq<string>, whole: seq<string>, maxTokens: int)
    requires cg != [] && (lead == "" || lead == " ")
    requires lead + Join(" ", cg) != []
    requires Fits(cg, maxTokens) && rest != [] && whole == cg + rest
    requires TokenSum(cg) + Tokens(rest[0]) > maxTokens
    requires var st := SmartLoop(SmartState(chunks + [GroupText(cg)], "" + Join(" ", [rest[0]]), TokenSum([rest[0]])), rest[1..], maxTokens);
      st.chunks + [Trim(st.current)] == chunks + [GroupText(cg)] + GroupTexts(Greedy(rest, maxTokens))
    ensures var st := SmartLoop(SmartState(chunks, lead + Join(" ", cg), TokenSum(cg)), rest, maxTokens);
      st.chunks + [Trim(st.current)] == chunks + GroupTexts(Greedy(whole, maxTokens))
  {
    var st := SmartState(chunks, lead + Join(" ", cg), TokenSum(cg));
    var x := rest[0];
    var st' := SmartState(chunks + [GroupText(cg)], "" + Join(" ", [x]), TokenSum([x]));
    assert SmartLoop(st, rest, maxTokens) == SmartLoop(st', rest[1..], maxTokens) by {
      LoopUnfold(st, rest, maxTokens);
      StepSeal(chunks, lead, cg, x, maxTokens);
      SingleGroup(x);
    }
    SealedGroups(chunks, cg, rest, whole, maxTokens);
  }

  /** The step of the loop that appends a sentence to the chunk. */
  lemma LoopGrow(chunks: seq<string>, lead: string, cg: seq<string>, rest: seq<string>, whole: seq<string>, maxTokens: int)
    requires cg != [] && rest != []
    requires TokenSum(cg) + Tokens(rest[0]) <= maxTokens
    requires var st := SmartLoop(SmartState(chunks, lead + Join(" ", cg + [rest[0]]), TokenSum(cg + [rest[0]])), rest[1..], maxTokens);
      st.chunks + [Trim(st.current)] == chunks + GroupTexts(Greedy(whole, maxTokens))
    ensures var st := SmartLoop(SmartState(chunks, lead + Join(" ", cg), TokenSum(cg)), rest, maxTokens);
      st.chunks + [Trim(st.current)] == chunks + GroupTexts(Greedy(whole, maxTokens))
  {
    var st := SmartState(chunks, lead + Join(" ", cg), TokenSum(cg));
    var x := rest[0];
    var st' := SmartState(chunks, lead + Join(" ", cg + [x]), TokenSum(cg + [x]));
    assert SmartLoop(st, rest, maxTokens) == SmartLoop(st', rest[1..], maxTokens) by {
      LoopUnfold(st, rest, maxTokens);
      StepGrow(chunks, lead, cg, x, maxTokens);
    }
  }

  lemma LoopUnfold(st: SmartState, ss: seq<string>, maxTokens: int)
    requires ss != []
    ensures SmartLoop(st, ss, maxTokens) == SmartLoop(SmartStep(st, ss[0], maxTokens), ss[1..], maxTokens)
  {
  }

  lemma SealedGroups(chunks: seq<string>, cg: seq<string>, rest: seq<string>, whole: seq<string>, maxTokens: int)
    requires cg != [] && Fits(cg, maxTokens) && rest != [] && whole == cg + rest
    requires TokenSum(cg) + Tokens(rest[0]) > maxTokens
    ensures chunks + [GroupText(cg)] + GroupTexts(Greedy(rest, maxTokens))
      == chunks + GroupTexts(Greedy(whole, maxTokens))
  {
    GreedySeal(cg, rest, maxTokens);
    GroupTextsAppend([cg], Greedy(rest, maxTokens));
    assert GroupTexts([cg]) == [GroupText(cg)];
  }

  /** Sealing: the trimmed chunk is the group's text and the sentence starts
      the next chunk. */
  lemma StepSeal(chunks: seq<string>, lead: string, cg: seq<string>, x: string, maxTokens: int)
    requires lead == "" || lead == " "
    requires lead + Join(" ", cg) != []
    requires TokenSum(cg) + Tokens(x) > maxTokens
    ensures SmartStep(SmartState(chunks, lead + Join(" ", cg), TokenSum(cg)), x, maxTokens)
      == SmartState(chunks + [GroupText(cg)], x, Tokens(x))
  {
    LeadTrimmed(lead, cg);
  }

  /** A chunk of one sentence, as the loop state describes it. */
  lemma SingleGroup(x: string)
    ensures "" + Join(" ", [x]) == x && TokenSum([x]) == Tokens(x)
  {
    JoinSingle(" ", x);
    assert [x][..0] == [];
  }

  /** Appending: the sentence joins the group after a space. */
  lemma StepGrow(chunks: seq<string>, lead: string, cg: seq<string>, x: string, maxTokens: int)
    requires cg != []
    requires TokenSum(cg) + Tokens(x) <= maxTokens
    ensures SmartStep(SmartState(chunks, lead + Join(" ", cg), TokenSum(cg)), x, maxTokens)
      == SmartState(chunks, lead + Join(" ", cg + [x]), TokenSum(cg + [x]))
  {
    JoinSnoc(" ", cg, x);
    assert (cg + [x])[..|cg|] == cg;
    assert lead + Join(" ", cg) + " " + x == lead + (Join(" ", cg) + " " + x);
  }

  /** Every prefix of at least two sentences keeps within `maxTokens`. */
  predicate Fits(cg: seq<string>, maxTokens: int) {
    forall m :: 1 < m <= |cg| ==> TokenSum(cg[..m]) <= maxTokens
  }

  lemma GrowFits(cg: seq<string>, x: string, maxTokens: int)
    requires Fits(cg, maxTokens) && cg != []
    requires TokenSum(cg) + Tokens(x) <= maxTokens
    ensures Fits(cg + [x], maxTokens)
  {
    var cg' := cg + [x];
    assert cg'[..|cg|] == cg;
    forall m | 1 < m <= |cg'| ensures TokenSum(cg'[..m]) <= maxTokens {
      if m <= |cg| {
        assert cg'[..m] == cg[..m];
      } else {
        assert cg'[..m] == cg';
      }
    }
  }

  /** A fitting group that cannot take the next sentence, or has none left
      to take, is the first greedy group. */
  lemma GreedySeal(cg: seq<string>, rest: seq<string>, maxTokens: int)
    requires cg != [] && Fits(cg, maxTokens)
    requires rest != [] ==> TokenSum(cg) + Tokens(rest[0]) > maxTokens
    ensures Greedy(cg + rest, maxTokens) == [cg] + Greedy(rest, maxTokens)
  {
    var ss := cg + rest;
    assert Span(ss, maxTokens, 1) == |cg| by {
      FitsPrefix(cg, rest, maxTokens);
      SpanSkip(ss, maxTokens, |cg|);
      SpanStops(cg, rest, maxTokens);
    }
    assert ss[..|cg|] == cg && ss[|cg|..] == rest;
  }

  /** The prefixes of a fitting group fit, whatever follows it. */
  lemma FitsPrefix(cg: seq<string>, rest: seq<string>, maxTokens: int)
    requires Fits(cg, maxTokens)
    ensures forall m :: 1 < m <= |cg| ==> TokenSum((cg + rest)[..m]) <= maxTokens
  {
    forall m | 1 < m <= |cg| ensures TokenSum((cg + rest)[..m]) <= maxTokens {
      assert (cg + rest)[..m] == cg[..m];
    }
  }

  /** A group that cannot take the next sentence stops growing. */
  lemma SpanStops(cg: seq<string>, rest: seq<string>, maxTokens: int)
    requires cg != []
    requires rest != [] ==> TokenSum(cg) + Tokens(rest[0]) > maxTokens
    ensures Span(cg + rest, maxTokens, |cg|) == |cg|
  {
    var ss := cg + rest;
    if rest != [] {
      var p := ss[..|cg| + 1];
      assert p == cg + [rest[0]];
      assert p[..|p| - 1] == cg;
      assert TokenSum(p) == TokenSum(cg) + Tokens(rest[0]);
    }
  }

  /** The leading space of the first chunk disappears when it is trimmed. */
  lemma LeadTrimmed(lead: string, cg: seq<string>)
    requires lead == "" || lead == " "
    ensures Trim(lead + Join(" ", cg)) == GroupText(cg)
  {
    if lead == " " {
      assert lead + Join(" ", cg) == [' '] + Join(" ", cg);
      TrimIgnoresLeadingSpace(' ', Join(" ", cg));
    } else {
      assert lead + Join(" ", cg) == Join(" ", cg);
    }
  }

  lemma {:induction false} NonEmptyAppend(a: seq<string>, b: seq<string>)
    ensures NonEmpty(a + b) == NonEmpty(a) + NonEmpty(b)
  {
    if a == [] {
      assert a + b == b;
    } else {
      assert (a + b)[1..] == a[1..] + b;
      NonEmptyAppend(a[1..], b);
    }
  }

  /** Every sentence after the first is non-empty: matches always are, and
      the fallback `[text]` holds a single sentence. */
  lemma SplitNonEmpty(text: string)
    ensures forall i :: 0 < i < |Sentences.Split(text)| ==> Sentences.Split(text)[i] != []
  {
    var ms := Sentences.Matches(text);
    forall i | 0 <= i < |ms| ensures ms[i] != [] {
      assert Sentences.IsSentence(ms[i]);
    }
  }

  /** `smartChunk` is the greedy grouping of the sentences: its chunks are
      the trimmed texts of the greedy groups, the blank ones left out. */
  lemma SmartChunkIsGreedy(text: string, maxTokens: int)
    ensures SmartChunk(text, maxTokens) == NonEmpty(GroupTexts(Greedy(Sentences.Split(text), maxTokens)))
  {
    var ss := Sentences.Split(text);
    SplitNonEmpty(text);
    var st0 := SmartState([], "", 0);
    var st1 := SmartState([], " " + Join(" ", [ss[0]]), TokenSum([ss[0]]));
    assert SmartLoop(st0, ss, maxTokens) == SmartLoop(st1, ss[1..], maxTokens) by {
      LoopUnfold(st0, ss, maxTokens);
      FirstStep(ss[0], maxTokens);
    }
    assert Fits([ss[0]], maxTokens);
    LoopIsGreedy([], " ", [ss[0]], ss[1..], ss, maxTokens);
    var st := SmartLoop(st0, ss, maxTokens);
    var all := st.chunks + [Trim(st.current)];
    assert all == GroupTexts(Greedy(ss, maxTokens)) by {
      assert [] + GroupTexts(Greedy(ss, maxTokens)) == GroupTexts(Greedy(ss, maxTokens));
    }
    var pushed := if Trim(st.current) != [] then all else st.chunks;
    assert SmartChunk(text, maxTokens) == NonEmpty(pushed);
    FinalPush(st.chunks, Trim(st.current));
  }

  /** The first sentence never seals: it starts the first chunk after a
      space. */
  lemma FirstStep(x: string, maxTokens: int)
    ensures SmartStep(SmartState([], "", 0), x, maxTokens) == SmartState([], " " + Join(" ", [x]), TokenSum([x]))
  {
    assert [x][..0] == [];
  }

  /** The final push adds the last chunk only when it is not blank, which
      the filter would drop anyway. */
  lemma FinalPush(chunks: seq<string>, last: string)
    ensures NonEmpty(if last != [] then chunks + [last] else chunks) == NonEmpty(chunks + [last])
  {
    NonEmptyAppend(chunks, [last]);
    assert NonEmpty([last]) == (if last != [] then [last] else []) + NonEmpty([]);
    if last != [] {
    } else {
      assert NonEmpty(chunks) + [] == NonEmpty(chunks);
    }
  }

  /** Joining with spaces adds only white space. */
  lemma {:induction false} NonSpacesJoin(g: seq<string>)
    ensures NonSpaces(Join(" ", g)) == NonSpaces(Concat(g))
    decreases |g|
  {
    if |g| == 1 {
      assert g == [g[0]];
      ConcatOne(g[0]);
    } else if |g| > 1 {
      var init, last := g[..|g| - 1], g[|g| - 1];
      var j := Join(" ", init);
      assert NonSpaces(j) == NonSpaces(Concat(init)) by {
        NonSpacesJoin(init);
      }
      assert Concat(g) == Concat(init) + last by {
        assert g == init + [last];
        ConcatAppend(init, [last]);
        ConcatOne(last);
      }
      assert NonSpaces(Join(" ", g)) == NonSpaces(j) + NonSpaces(last) by {
        NonSpacesAppend(j + " ", last);
        NonSpacesAppend(j, " ");
        assert NonSpaces(" ") == [] by {
          assert " "[1..] == [];
        }
      }
      NonSpacesAppend(Concat(init), last);
    }
  }

  /** The texts of a sequence of groups hold the non-space characters of
      their sentences, in order. */
  lemma {:induction false} NonSpacesGroupTexts(gs: seq<seq<string>>)
    ensures NonSpaces(Concat(GroupTexts(gs))) == NonSpaces(Concat(Concat(gs)))
  {
    if gs != [] {
      var g, more := gs[0], gs[1..];
      NonSpacesGroupTexts(more);
      var ts := GroupTexts(gs);
      assert Concat(ts) == GroupText(g) + Concat(GroupTexts(more)) by {
        GroupTextsTail(gs);
      }
      assert Concat(Concat(gs)) == Concat(g) + Concat(Concat(more)) by {
        ConcatAppend(g, Concat(more));
      }
      NonSpacesAppend(GroupText(g), Concat(GroupTexts(more)));
      NonSpacesAppend(Concat(g), Concat(Concat(more)));
      assert NonSpaces(GroupText(g)) == NonSpaces(Concat(g)) by {
        NonSpacesTrim(Join(" ", g));
        NonSpacesJoin(g);
      }
    }
  }

  lemma GroupTextsTail(gs: seq<seq<string>>)
    requires gs != []
    ensures GroupTexts(gs)[0] == GroupText(gs[0]) && GroupTexts(gs)[1..] == GroupTexts(gs[1..])
  {
    MapTail(GroupText, gs);
  }

  lemma MapTail<A, B>(f: A -> B, xs: seq<A>)
    requires xs != []
    ensures Map(f, xs)[0] == f(xs[0]) && Map(f, xs)[1..] == Map(f, xs[1..])
  {
    var a, b := Map(f, xs)[1..], Map(f, xs[1..]);
    forall k | 0 <= k < |b| ensures a[k] == b[k] {
      assert xs[1..][k] == xs[k + 1];
    }
  }

  /** `smartChunk` loses no non-space character of its sentences and adds
      none. */
  lemma SmartChunkKeepsText(text: string, maxTokens: int)
    ensures NonSpaces(Concat(SmartChunk(text, maxTokens))) == NonSpaces(Concat(Sentences.Split(text)))
  {
    var ss := Sentences.Split(text);
    var gs := Greedy(ss, maxTokens);
    SmartChunkIsGreedy(text, maxTokens);
    NonEmptyConcat(GroupTexts(gs));
    NonSpacesGroupTexts(gs);
    GreedyPartition(ss, maxTokens);
  }

  /** Without overlap `chunkBySentences` also keeps every non-space character
      of its sentences. */
  lemma ChunkBySentencesKeepsText(text: string, perChunk: int)
    requires perChunk >= 1 && Trim(text) != []
    ensures NonSpaces(Concat(ChunkBySentences(text, perChunk, 0))) == NonSpaces(Concat(Sentences.Split(text)))
  {
    var gs := Groups(Sentences.Split(text), 0, perChunk, 0);
    ChunkBySentencesGroups(text, perChunk);
    NonEmptyConcat(GroupTexts(gs));
    NonSpacesGroupTexts(gs);
  }

  /** A text without any terminator is one sentence, which becomes the only
      chunk once trimmed, or no chunk when it is blank. */
  lemma SmartChunkNoTerminator(text: string, maxTokens: int)
    requires Sentences.NoTerminator(text)
    ensures SmartChunk(text, maxTokens) == if Trim(text) == [] then [] else [Trim(text)]
  {
    assert Sentences.Split(text) == [text] by {
      Sentences.MatchesEmpty(text);
    }
    assert SmartChunk(text, maxTokens) == NonEmpty(GroupTexts(Greedy([text], maxTokens))) by {
      SmartChunkIsGreedy(text, maxTokens);
    }
    assert Greedy([text], maxTokens) == [[text]] by {
      GreedySingle(text, maxTokens);
    }
    assert GroupTexts([[text]]) == [Trim(text)] by {
      GroupTextsSingle([text]);
      GroupTextSingle(text);
    }
    NonEmptySingle(Trim(text));
  }

  lemma GreedySingle(x: string, maxTokens: int)
    ensures Greedy([x], maxTokens) == [[x]]
  {
    assert [x][..1] == [x] && [x][1..] == [];
  }

  lemma NonEmptySingle(x: string)
    ensures NonEmpty([x]) == if x == [] then [] else [x]
  {
    assert [x][1..] == [];
  }

  /** Blank input gives no chunk. */
  lemma SmartChunkBlank(text: string, maxTokens: int)
    requires IsBlank(text)
    ensures SmartChunk(text, maxTokens) == []
  {
    forall i | 0 <= i < |text| ensures !Sentences.IsTerminator(text[i]) {
      assert IsSpace(text[i]);
    }
    TrimEmptyIffBlank(text);
    SmartChunkNoTerminator(text, maxTokens);
  }

  /** No two neighbouring sentences fit in one chunk. */
  predicate NoPairFits(ss: seq<string>, maxTokens: int) {
    forall i :: 0 <= i < |ss| - 1 ==> !PairFits(ss, i, maxTokens)
  }

  predicate PairFits(ss: seq<string>, i: nat, maxTokens: int)
    requires i + 1 < |ss|
  {
    Tokens(ss[i]) + Tokens(ss[i + 1]) <= maxTokens
  }

  /** When no two neighbouring sentences fit together, as with sentences of
      four estimated tokens and a budget of five, every sentence is a group
      of its own. */
  lemma {:induction false} GreedySingletons(ss: seq<string>, maxTokens: int)
    requires NoPairFits(ss, maxTokens)
    ensures |Greedy(ss, maxTokens)| == |ss|
    ensures forall k :: 0 <= k < |ss| ==> Greedy(ss, maxTokens)[k] == [ss[k]]
    decreases |ss|
  {
    if ss != [] {
      if |ss| > 1 {
        assert !PairFits(ss, 0, maxTokens);
        assert ss[..2][..1] == [ss[0]] && [ss[0]][..0] == [];
        assert TokenSum([ss[0]]) == Tokens(ss[0]);
        assert TokenSum(ss[..2]) == Tokens(ss[0]) + Tokens(ss[1]);
      }
      assert Span(ss, maxTokens, 1) == 1;
      assert ss[..1] == [ss[0]];
      assert NoPairFits(ss[1..], maxTokens) by {
        forall i | 0 <= i < |ss[1..]| - 1 ensures !PairFits(ss[1..], i, maxTokens) {
          assert !PairFits(ss, i + 1, maxTokens);
        }
      }
      GreedySingletons(ss[1..], maxTokens);
    }
  }

  /** Hence `smartChunk` then returns the trimmed sentences, the blank ones
      left out. */
  lemma SmartChunkSingletons(text: string, maxTokens: int)
    requires var ss := Sentences.Split(text);
      NoPairFits(ss, maxTokens)
    ensures SmartChunk(text, maxTokens) == NonEmpty(TrimAll(Sentences.Split(text)))
  {
    var ss := Sentences.Split(text);
    SmartChunkIsGreedy(text, maxTokens);
    GreedySingletons(ss, maxTokens);
    var gs := Greedy(ss, maxTokens);
    assert GroupTexts(gs) == TrimAll(ss) by {
      assert GroupTexts(gs) == Map(GroupText, gs);
      forall k | 0 <= k < |ss| ensures GroupTexts(gs)[k] == TrimAll(ss)[k] {
        GroupTextSingle(ss[k]);
      }
    }
  }

  lemma GroupTextSingle(x: string)
    ensures GroupText([x]) == Trim(x)
  {
    JoinSingle(" ", x);
  }

  /** Once the text holds a terminator, what `smartChunk` keeps is exactly
      the text up to the end of the last run of terminators: the rest holds
      no terminator and is lost. */
  lemma SmartChunkDropsTail(text: string, maxTokens: int)
    requires !Sentences.NoTerminator(text)
    ensures var p := |Concat(Sentences.Matches(text))|;
      && p <= |text|
      && NonSpaces(Concat(SmartChunk(text, maxTokens))) == NonSpaces(text[..p])
      && Sentences.NoTerminator(text[p..])
  {
    Sentences.MatchesEmpty(text);
    Sentences.MatchesCover(text);
    SmartChunkKeepsText(text, maxTokens);
  }

  // ---------------------------------------------------------------------
  // getStats

  /** `Math.ceil(x)` for a real `x`. */
  function Ceil(x: real): (r: int)
    ensures (r - 1) as real < x <= r as real
  {
    var f := x.Floor;
    if f as real == x then f else f + 1
  }

  /** The object `getStats(chunks)` returns. */
  datatype ChunkStats = ChunkStats(
    totalChunks: nat,
    totalCharacters: nat,
    totalTokens: int,
    averageChunkSize: real,
    averageChunkTokens: int,
    minChunkSize: nat,
    maxChunkSize: nat)

  function Lengths(chunks: seq<string>): (ls: seq<nat>)
    ensures |ls| == |chunks|
    ensures forall k :: 0 <= k < |chunks| ==> ls[k] == |chunks[k]|
  {
    seq(|chunks|, k requires 0 <= k < |chunks| => |chunks[k]|)
  }

  /** `Math.min(...xs)` of a non-empty list. */
  function Min(xs: seq<int>): (m: int)
    requires |xs| > 0
    ensures m in xs && forall k :: 0 <= k < |xs| ==> m <= xs[k]
  {
    if |xs| == 1 then xs[0]
    else
      var m := Min(xs[1..]);
      assert xs[1..][0] in xs[1..];
      if xs[0] <= m then xs[0] else m
  }

  /** `getStats(chunks)`. */
  function GetStats(chunks: seq<string>): (st: ChunkStats)
    ensures st.totalChunks == |chunks| && st.totalCharacters == |Concat(chunks)|
    ensures 4 * st.totalTokens >= st.totalCharacters > 4 * st.totalTokens - 4
    ensures chunks == [] ==> st == ChunkStats(0, 0, 0, 0.0, 0, 0, 0)
    ensures chunks != [] ==> st.minChunkSize <= st.maxChunkSize
  {
    var total := |Concat(chunks)|;
    var average := if |chunks| > 0 then total as real / |chunks| as real else 0.0;
    ChunkStats(
      |chunks|,
      total,
      Ceil(total as real / 4.0),
      average,
      Ceil(average / 4.0),
      if |chunks| > 0 then Min(Lengths(chunks)) else 0,
      if |chunks| > 0 then Max(Lengths(chunks)) else 0)
  }

  /** The smallest and largest sizes are the sizes of actual chunks and
      bound every chunk's size, and the average lies between them. */
  lemma GetStatsBounds(chunks: seq<string>)
    requires chunks != []
    ensures var st := GetStats(chunks);
      && (exists k :: 0 <= k < |chunks| && |chunks[k]| == st.minChunkSize)
      && (exists k :: 0 <= k < |chunks| && |chunks[k]| == st.maxChunkSize)
      && (forall k :: 0 <= k < |chunks| ==> st.minChunkSize <= |chunks[k]| <= st.maxChunkSize)
      && st.minChunkSize as real <= st.averageChunkSize <= st.maxChunkSize as real
  {
    var st := GetStats(chunks);
    var ls := Lengths(chunks);
    var n := |chunks|;
    var total := |Concat(chunks)|;
    assert st.minChunkSize == Min(ls) && st.maxChunkSize == Max(ls);
    assert st.averageChunkSize == total as real / n as real;
    var i :| 0 <= i < n && ls[i] == st.minChunkSize;
    var j :| 0 <= j < n && ls[j] == st.maxChunkSize;
    assert |chunks[i]| == st.minChunkSize && |chunks[j]| == st.maxChunkSize;
    SumBetween(chunks, st.minChunkSize, st.maxChunkSize);
    AverageBetween(total, n, st.minChunkSize, st.maxChunkSize);
  }

  /** Sizes between `lo` and `hi` add up to between `n * lo` and `n * hi`. */
  lemma {:induction false} SumBetween(chunks: seq<string>, lo: nat, hi: nat)
    requires forall k :: 0 <= k < |chunks| ==> lo <= |chunks[k]| <= hi
    ensures |chunks| * lo <= |Concat(chunks)| <= |chunks| * hi
  {
    if chunks != [] {
      var m := |chunks| - 1;
      var rest := |Concat(chunks[1..])|;
      assert m * lo <= rest <= m * hi by {
        SumBetween(chunks[1..], lo, hi);
      }
      assert |Concat(chunks)| == |chunks[0]| + rest;
      MulSucc(m, lo);
      MulSucc(m, hi);
    }
  }

  lemma MulSucc(m: nat, x: nat)
    ensures (m + 1) * x == m * x + x
  {
  }

  lemma AverageBetween(total: nat, n: nat, lo: nat, hi: nat)
    requires n > 0 && n * lo <= total <= n * hi
    ensures lo as real <= total as real / n as real <= hi as real
  {
    var t, b, l, h := total as real, n as real, lo as real, hi as real;
    var p := t / b;
    assert l * b <= t by { CastProduct(lo, n); }
    assert t <= h * b by { CastProduct(hi, n); }
    BetweenScaled(p, b, l, h, t);
  }

  lemma CastProduct(x: nat, y: nat)
    ensures (x * y) as real == x as real * y as real
  {
  }

  /** Dividing both bounds by the same positive number. */
  lemma BetweenScaled(p: real, b: real, l: real, h: real, t: real)
    requires b > 0.0 && p == t / b && l * b <= t <= h * b
    ensures l <= p <= h
  {
    assert p * b == t;
    if p < l {
      MulMonoReal(b, p, l);
    }
    if p > h {
      MulMonoReal(b, h, p);
    }
  }

  lemma MulMonoReal(n: real, x: real, y: real)
    requires n > 0.0 && x < y
    ensures x * n < y * n
  {
  }
}

=== FILE: vector_store.dfy ===
/** `EmbeddingModule`'s in-memory store: the chunk map `vectorStore`
    (chunk id to chunk) and the document map `documentIndex` (document id to
    metadata), both insertion-ordered. The store is a value; every operation
    returns the new store. Embedding calls, the clock and `Math.sqrt` are
    parameters. */
module VectorStore {
  import opened Wrappers
  import opened JsStrings
  import opened Json
  import OM = OrderedMap
  import opened Similarity
  import opened Ranking

  /** A stored chunk: `{docId, chunkIndex, text, embedding}`; a chunk whose
      embedding failed holds `None` (`null`). */
  datatype Chunk = Chunk(docId: string, chunkIndex: nat, text: string, embedding: Option<Vector>)

  datatype Store = Store(vectors: seq<(string, Chunk)>, documents: seq<(string, Object)>)

  const Empty := Store([], [])

  /** Both maps are genuine maps: no key occurs twice. */
  predicate Valid(st: Store) {
    OM.DistinctKeys(st.vectors) && OM.DistinctKeys(st.documents)
  }

  /** The chunk id `${docId}:${i}`. */
  function ChunkKey(docId: string, i: nat): (k: string)
    ensures StartsWith(k, docId + ":")
  {
    docId + ":" + Decimal(i)
  }

  /** Chunk ids of one document differ exactly when their indices do. */
  lemma ChunkKeyInjective(docId: string, i: nat, j: nat)
    requires ChunkKey(docId, i) == ChunkKey(docId, j)
    ensures i == j
  {
    var p := docId + ":";
    assert ChunkKey(docId, i)[|p|..] == Decimal(i);
    assert ChunkKey(docId, j)[|p|..] == Decimal(j);
    DecimalInjective(i, j);
  }

  /** The entry `{...metadata, chunkCount, createdAt}` `addDocument` records. */
  function DocEntry(metadata: Object, chunkCount: nat, createdAt: string): (e: Object)
  {
    OM.Set(OM.Set(OM.SetAll([], metadata), "chunkCount", Num(chunkCount as real)), "createdAt", Str(createdAt))
  }

  /** The chunk map after the first `k` iterations of the storing loop. */
  function PutChunks(vectors: seq<(string, Chunk)>, docId: string, chunks: seq<string>,
                     embeddings: seq<Option<Vector>>, k: nat): (r: seq<(string, Chunk)>)
    requires k <= |chunks| == |embeddings|
    ensures |r| >= |vectors| && OM.Keys(r)[..|vectors|] == OM.Keys(vectors)
  {
    if k == 0 then vectors
    else
      var prev := PutChunks(vectors, docId, chunks, embeddings, k - 1);
      var r := OM.Set(prev, ChunkKey(docId, k - 1), Chunk(docId, k - 1, chunks[k - 1], embeddings[k - 1]));
      OM.SetKeys(prev, ChunkKey(docId, k - 1), Chunk(docId, k - 1, chunks[k - 1], embeddings[k - 1]));
      assert OM.Keys(r)[..|vectors|] == OM.Keys(r)[..|prev|][..|vectors|];
      r
  }

  /** What a successful `addDocument` returns: `{success: true, chunkCount}`
      together with the updated store. */
  datatype Added = Added(store: Store, chunkCount: nat)

  /** `addDocument(docId, chunks, embeddings, metadata)` with `createdAt` as
      the timestamp. */
  function AddDocument(st: Store, docId: string, chunks: seq<string>, embeddings: seq<Option<Vector>>,
                       metadata: Object, createdAt: string): (r: Result<Added, string>)
    ensures r.Failure? <==> |chunks| != |embeddings|
    ensures r.Failure? ==> r.error == "Chunks and embeddings length mismatch"
    ensures r.Success? ==> r.value.chunkCount == |chunks|
  {
    if |chunks| != |embeddings| then Failure("Chunks and embeddings length mismatch")
    else
      var documents := OM.Set(st.documents, docId, DocEntry(metadata, |chunks|, createdAt));
      var vectors := PutChunks(st.vectors, docId, chunks, embeddings, |chunks|);
      Success(Added(Store(vectors, documents), |chunks|))
  }

  /** After the first `k` iterations, chunk `i < k` is stored under its id. */
  lemma {:induction false} PutChunksHit(vectors: seq<(string, Chunk)>, docId: string, chunks: seq<string>,
                                        embeddings: seq<Option<Vector>>, k: nat, i: nat)
    requires k <= |chunks| == |embeddings| && i < k
    ensures OM.Get(PutChunks(vectors, docId, chunks, embeddings, k), ChunkKey(docId, i))
         == Some(Chunk(docId, i, chunks[i], embeddings[i]))
  {
    var prev := PutChunks(vectors, docId, chunks, embeddings, k - 1);
    var c := Chunk(docId, k - 1, chunks[k - 1], embeddings[k - 1]);
    if i == k - 1 {
      OM.SetGetSame(prev, ChunkKey(docId, i), c);
    } else {
      PutChunksHit(vectors, docId, chunks, embeddings, k - 1, i);
      if ChunkKey(docId, k - 1) == ChunkKey(docId, i) {
        ChunkKeyInjective(docId, k - 1, i);
      }
      OM.SetGetOther(prev, ChunkKey(docId, k - 1), c, ChunkKey(docId, i));
    }
  }

  /** Keys other than the first `k` chunk ids keep their old values. */
  lemma {:induction false} PutChunksMiss(vectors: seq<(string, Chunk)>, docId: string, chunks: seq<string>,
                                         embeddings: seq<Option<Vector>>, k: nat, key: string)
    requires k <= |chunks| == |embeddings|
    requires forall j :: 0 <= j < k ==> key != ChunkKey(docId, j)
    ensures OM.Get(PutChunks(vectors, docId, chunks, embeddings, k), key) == OM.Get(vectors, key)
  {
    if k > 0 {
      PutChunksMiss(vectors, docId, chunks, embeddings, k - 1, key);
      var prev := PutChunks(vectors, docId, chunks, embeddings, k - 1);
      OM.SetGetOther(prev, ChunkKey(docId, k - 1), Chunk(docId, k - 1, chunks[k - 1], embeddings[k - 1]), key);
    }
  }

  /** A successful `addDocument` records the metadata with `chunkCount = n`,
      stores chunk `i` under `${docId}:${i}` for every `i < n` and changes no
      other key of either map. */
  lemma AddDocumentEffect(st: Store, docId: string, chunks: seq<string>, embeddings: seq<Option<Vector>>,
                          metadata: Object, createdAt: string, key: string, d: string, i: nat)
    requires |chunks| == |embeddings|
    ensures var st' := AddDocument(st, docId, chunks, embeddings, metadata, createdAt).value.store;
      && OM.Get(st'.documents, docId) == Some(DocEntry(metadata, |chunks|, createdAt))
      && (d != docId ==> OM.Get(st'.documents, d) == OM.Get(st.documents, d))
      && (i < |chunks| ==> OM.Get(st'.vectors, ChunkKey(docId, i)) == Some(Chunk(docId, i, chunks[i], embeddings[i])))
      && ((forall j :: 0 <= j < |chunks| ==> key != ChunkKey(docId, j)) ==> OM.Get(st'.vectors, key) == OM.Get(st.vectors, key))
  {
    var entry := DocEntry(metadata, |chunks|, createdAt);
    OM.SetGetSame(st.documents, docId, entry);
    if d != docId {
      OM.SetGetOther(st.documents, docId, entry, d);
    }
    if i < |chunks| {
      PutChunksHit(st.vectors, docId, chunks, embeddings, |chunks|, i);
    }
    if forall j :: 0 <= j < |chunks| ==> key != ChunkKey(docId, j) {
      PutChunksMiss(st.vectors, docId, chunks, embeddings, |chunks|, key);
    }
  }

  /** The recorded metadata carries `chunkCount` and `createdAt`, overriding
      fields of the same name, and every other metadata field unchanged. */
  lemma DocEntryFields(metadata: Object, chunkCount: nat, createdAt: string, f: string)
    requires OM.DistinctKeys(metadata)
    ensures OM.Get(DocEntry(metadata, chunkCount, createdAt), "chunkCount") == Some(Num(chunkCount as real))
    ensures OM.Get(DocEntry(metadata, chunkCount, createdAt), "createdAt") == Some(Str(createdAt))
    ensures f != "chunkCount" && f != "createdAt" ==> OM.Get(DocEntry(metadata, chunkCount, createdAt), f) == OM.Get(metadata, f)
  {
    var base := OM.SetAll([], metadata);
    var withCount := OM.Set(base, "chunkCount", Num(chunkCount as real));
    OM.SetGetSame(base, "chunkCount", Num(chunkCount as real));
    OM.SetGetSame(withCount, "createdAt", Str(createdAt));
    OM.SetGetOther(withCount, "createdAt", Str(createdAt), "chunkCount");
    if f != "chunkCount" && f != "createdAt" {
      OM.SetGetOther(withCount, "createdAt", Str(createdAt), f);
      OM.SetGetOther(base, "chunkCount", Num(chunkCount as real), f);
      OM.SetAllGet([], metadata, f);
    }
  }

  /** Re-adding a document with fewer chunks leaves its old chunks with
      higher indices in place. */
  lemma StaleChunksSurvive(st: Store, docId: string, chunks: seq<string>, embeddings: seq<Option<Vector>>,
                           metadata: Object, createdAt: string, j: nat)
    requires |chunks| == |embeddings| && j >= |chunks|
    ensures var st' := AddDocument(st, docId, chunks, embeddings, metadata, createdAt).value.store;
      OM.Get(st'.vectors, ChunkKey(docId, j)) == OM.Get(st.vectors, ChunkKey(docId, j))
  {
    forall i | 0 <= i < |chunks| ensures ChunkKey(docId, j) != ChunkKey(docId, i) {
      if ChunkKey(docId, j) == ChunkKey(docId, i) {
        ChunkKeyInjective(docId, j, i);
      }
    }
    AddDocumentEffect(st, docId, chunks, embeddings, metadata, createdAt, ChunkKey(docId, j), docId, 0);
  }

  lemma {:induction false} PutChunksDistinct(vectors: seq<(string, Chunk)>, docId: string, chunks: seq<string>,
                                             embeddings: seq<Option<Vector>>, k: nat)
    requires k <= |chunks| == |embeddings| && OM.DistinctKeys(vectors)
    ensures OM.DistinctKeys(PutChunks(vectors, docId, chunks, embeddings, k))
  {
    if k > 0 {
      PutChunksDistinct(vectors, docId, chunks, embeddings, k - 1);
      var prev := PutChunks(vectors, docId, chunks, embeddings, k - 1);
      OM.SetDistinct(prev, ChunkKey(docId, k - 1), Chunk(docId, k - 1, chunks[k - 1], embeddings[k - 1]));
    }
  }

  /** `addDocument` keeps both maps free of repeated keys. */
  lemma AddDocumentValid(st: Store, docId: string, chunks: seq<string>, embeddings: seq<Option<Vector>>,
                         metadata: Object, createdAt: string)
    requires Valid(st) && |chunks| == |embeddings|
    ensures Valid(AddDocument(st, docId, chunks, embeddings, metadata, createdAt).value.store)
  {
    PutChunksDistinct(st.vectors, docId, chunks, embeddings, |chunks|);
    OM.SetDistinct(st.documents, docId, DocEntry(metadata, |chunks|, createdAt));
  }

  /** The keeping test of `deleteDocument`'s loop: a chunk id survives unless
      it starts with `${docId}:`. */
  function KeepFor(docId: string): string -> bool {
    k => !StartsWith(k, docId + ":")
  }

  datatype Deleted = Deleted(store: Store, removed: nat)

  /** `deleteDocument(docId)`: removes every chunk id starting with
      `${docId}:` and the document entry, and returns how many chunks went. */
  function DeleteDocument(st: Store, docId: string): (r: Deleted)
    ensures r.removed + |r.store.vectors| == |st.vectors|
    ensures OM.Get(r.store.documents, docId) == None
  {
    var vectors := OM.Filter(st.vectors, KeepFor(docId));
    OM.FilterSize(st.vectors, KeepFor(docId));
    Deleted(Store(vectors, OM.Delete(st.documents, docId)), OM.CountDropped(st.vectors, KeepFor(docId)))
  }

  /** Exactly the chunk ids with the prefix disappear; every other chunk and
      every other document stays as it was. */
  lemma DeleteDocumentEffect(st: Store, docId: string, key: string, d: string)
    requires d != docId
    ensures var st' := DeleteDocument(st, docId).store;
      && OM.Get(st'.vectors, key) == (if StartsWith(key, docId + ":") then None else OM.Get(st.vectors, key))
      && OM.Get(st'.documents, d) == OM.Get(st.documents, d)
  {
    OM.FilterGet(st.vectors, KeepFor(docId), key);
    OM.FilterGet(st.documents, k' => k' != docId, d);
  }

  /** Nothing stored under the prefix `${docId}:`. */
  predicate NoChunksOf(vectors: seq<(string, Chunk)>, docId: string) {
    forall i :: 0 <= i < |vectors| ==> !StartsWith(vectors[i].0, docId + ":")
  }

  /** Deleting a document without chunks removes none and leaves the chunk
      map as it was. */
  lemma DeleteAbsent(st: Store, docId: string)
    requires NoChunksOf(st.vectors, docId)
    ensures DeleteDocument(st, docId).removed == 0
    ensures DeleteDocument(st, docId).store.vectors == st.vectors
  {
    OM.FilterKeepAll(st.vectors, KeepFor(docId));
    OM.FilterSize(st.vectors, KeepFor(docId));
  }

  /** A second `deleteDocument` of the same id removes nothing and changes
      nothing. */
  lemma DeleteTwice(st: Store, docId: string)
    ensures var once := DeleteDocument(st, docId).store;
      DeleteDocument(once, docId).removed == 0 && DeleteDocument(once, docId).store == once
  {
    var once := DeleteDocument(st, docId).store;
    DeleteAbsent(once, docId);
    OM.FilterIdempotent(st.documents, k' => k' != docId);
  }

  /** `getStats()`: the two map sizes and one `{docId, ...meta}` object per
      document, in insertion order. */
  datatype Stats = Stats(totalDocuments: nat, totalChunks: nat, documents: seq<Object>)

  /** The listed object for one document: `{docId, ...meta}`. */
  function Listing(docId: string, meta: Object): Object {
    OM.SetAll([("docId", Str(docId))], meta)
  }

  function GetStats(st: Store): (r: Stats)
    ensures r.totalDocuments == |st.documents| == |r.documents|
    ensures r.totalChunks == |st.vectors|
    ensures forall i :: 0 <= i < |st.documents| ==> r.documents[i] == Listing(st.documents[i].0, st.documents[i].1)
  {
    Stats(|st.documents|, |st.vectors|,
          seq(|st.documents|, i requires 0 <= i < |st.documents| => Listing(st.documents[i].0, st.documents[i].1)))
  }

  /** Each listed document shows its metadata fields, and its id under
      `docId` unless the metadata has a field of that name. */
  lemma ListingFields(docId: string, meta: Object, f: string)
    requires OM.DistinctKeys(meta)
    ensures OM.Get(Listing(docId, meta), f)
         == if f in OM.Keys(meta) then OM.Get(meta, f)
            else if f == "docId" then Some(Str(docId)) else None
  {
    OM.SetAllGet([("docId", Str(docId))], meta, f);
  }

  /** The entries the storing loop appends for a document none of whose
      chunk ids is stored yet. */
  function FreshChunks(docId: string, chunks: seq<string>, embeddings: seq<Option<Vector>>, k: nat): (r: seq<(string, Chunk)>)
    requires k <= |chunks| == |embeddings|
    ensures |r| == k
    ensures forall j :: 0 <= j < k ==> r[j].0 == ChunkKey(docId, j)
  {
    if k == 0 then []
    else FreshChunks(docId, chunks, embeddings, k - 1) + [(ChunkKey(docId, k - 1), Chunk(docId, k - 1, chunks[k - 1], embeddings[k - 1]))]
  }

  lemma {:induction false} PutChunksFresh(vectors: seq<(string, Chunk)>, docId: string, chunks: seq<string>,
                                          embeddings: seq<Option<Vector>>, k: nat)
    requires k <= |chunks| == |embeddings| && NoChunksOf(vectors, docId)
    ensures PutChunks(vectors, docId, chunks, embeddings, k) == vectors + FreshChunks(docId, chunks, embeddings, k)
  {
    if k > 0 {
      PutChunksFresh(vectors, docId, chunks, embeddings, k - 1);
      var prev := vectors + FreshChunks(docId, chunks, embeddings, k - 1);
      var key := ChunkKey(docId, k - 1);
      forall i | 0 <= i < |prev| ensures prev[i].0 != key {
        if i >= |vectors| {
          var j := i - |vectors|;
          if prev[i].0 == key {
            ChunkKeyInjective(docId, j, k - 1);
          }
        }
      }
      OM.SetAbsentAppends(prev, key, Chunk(docId, k - 1, chunks[k - 1], embeddings[k - 1]));
    }
  }

  /** For a document id under which nothing is stored, `deleteDocument`
      undoes `addDocument`: it removes the `n` chunks just added and gives
      back the store as it was. */
  lemma AddThenDelete(st: Store, docId: string, chunks: seq<string>, embeddings: seq<Option<Vector>>,
                      metadata: Object, createdAt: string)
    requires |chunks| == |embeddings|
    requires NoChunksOf(st.vectors, docId) && docId !in OM.Keys(st.documents)
    ensures var added := AddDocument(st, docId, chunks, embeddings, metadata, createdAt).value.store;
      DeleteDocument(added, docId) == Deleted(st, |chunks|)
  {
    var extra := FreshChunks(docId, chunks, embeddings, |chunks|);
    PutChunksFresh(st.vectors, docId, chunks, embeddings, |chunks|);
    OM.FilterAppendDropped(st.vectors, extra, KeepFor(docId));
    OM.FilterKeepAll(st.vectors, KeepFor(docId));
    OM.FilterSize(st.vectors + extra, KeepFor(docId));
    OM.DeleteUndoesFreshSet(st.documents, docId, DocEntry(metadata, |chunks|, createdAt));
  }

  /** Hence the totals of `getStats` are back where they were. */
  lemma AddThenDeleteStats(st: Store, docId: string, chunks: seq<string>, embeddings: seq<Option<Vector>>,
                           metadata: Object, createdAt: string)
    requires |chunks| == |embeddings|
    requires NoChunksOf(st.vectors, docId) && docId !in OM.Keys(st.documents)
    ensures var added := AddDocument(st, docId, chunks, embeddings, metadata, createdAt).value.store;
      var after := GetStats(DeleteDocument(added, docId).store);
      after.totalChunks == GetStats(st).totalChunks && after.totalDocuments == GetStats(st).totalDocuments
  {
    AddThenDelete(st, docId, chunks, embeddings, metadata, createdAt);
  }

  /** With ids free of `:` (uploads use UUIDs), the prefix test of
      `deleteDocument` picks out exactly the document's own chunk ids. */
  lemma PrefixSeparatesDocuments(d: string, d': string, i: nat)
    requires ':' !in d && ':' !in d'
    ensures StartsWith(ChunkKey(d', i), d + ":") <==> d' == d
  {
    var key := ChunkKey(d', i);
    if StartsWith(key, d + ":") {
      assert key == d + ":" + key[|d| + 1..];
      FirstColonAfter(d, key[|d| + 1..]);
      FirstColonAfter(d', Decimal(i));
      assert d == key[..|d|] == d';
    }
  }

  /** Position of the first `:` in `s` (`|s|` if there is none). */
  function FirstColon(s: string): (n: nat)
    ensures n <= |s|
  {
    if s == [] || s[0] == ':' then 0 else 1 + FirstColon(s[1..])
  }

  lemma {:induction false} FirstColonAfter(a: string, rest: string)
    requires ':' !in a
    ensures FirstColon(a + ":" + rest) == |a|
  {
    if a != [] {
      assert (a + ":" + rest)[1..] == a[1..] + ":" + rest;
      FirstColonAfter(a[1..], rest);
    }
  }

  /** Every chunk sits under its own id and belongs to a document whose id
      has no `:`. */
  predicate WellFormed(st: Store) {
    forall i :: 0 <= i < |st.vectors| ==> EntryOk(st.vectors[i])
  }

  predicate EntryOk(e: (string, Chunk)) {
    e.0 == ChunkKey(e.1.docId, e.1.chunkIndex) && ':' !in e.1.docId
  }

  lemma {:induction false} PutChunksWellFormed(vectors: seq<(string, Chunk)>, docId: string, chunks: seq<string>,
                                               embeddings: seq<Option<Vector>>, k: nat)
    requires k <= |chunks| == |embeddings| && ':' !in docId && WellFormed(Store(vectors, []))
    ensures WellFormed(Store(PutChunks(vectors, docId, chunks, embeddings, k), []))
  {
    if k > 0 {
      var prev := PutChunks(vectors, docId, chunks, embeddings, k - 1);
      assert WellFormed(Store(prev, [])) by {
        PutChunksWellFormed(vectors, docId, chunks, embeddings, k - 1);
      }
      var c := Chunk(docId, k - 1, chunks[k - 1], embeddings[k - 1]);
      OM.SetKeepsAll(prev, ChunkKey(docId, k - 1), c, EntryOk);
    }
  }

  /** `addDocument` with a colon-free id keeps the store well formed. */
  lemma AddDocumentWellFormed(st: Store, docId: string, chunks: seq<string>, embeddings: seq<Option<Vector>>,
                              metadata: Object, createdAt: string)
    requires WellFormed(st) && ':' !in docId && |chunks| == |embeddings|
    ensures WellFormed(AddDocument(st, docId, chunks, embeddings, metadata, createdAt).value.store)
  {
    PutChunksWellFormed(st.vectors, docId, chunks, embeddings, |chunks|);
  }

  /** In a well-formed store, `deleteDocument(d)` for a colon-free `d` removes
      exactly the chunks whose `docId` is `d`. */
  lemma DeleteOwnChunks(st: Store, d: string, key: string)
    requires WellFormed(st) && ':' !in d
    ensures var before := OM.Get(st.vectors, key);
      OM.Get(DeleteDocument(st, d).store.vectors, key)
      == if before.Some? && before.value.docId == d then None else before
  {
    OM.FilterGet(st.vectors, KeepFor(d), key);
    var before := OM.Get(st.vectors, key);
    if before.Some? {
      OM.GetIn(st.vectors, key, before.value);
      var i :| 0 <= i < |st.vectors| && st.vectors[i] == (key, before.value);
      PrefixSeparatesDocuments(d, before.value.docId, before.value.chunkIndex);
    } else {
      assert key !in OM.Keys(st.vectors);
    }
  }

  /** Without that restriction the prefix test reaches across documents:
      deleting `a` removes the chunk `a:1:0` of document `a:1`. */
  lemma ColonIdsCollide()
    ensures var st := AddDocument(Empty, "a:1", ["x"], [None], [], "t").value.store;
      OM.Keys(st.vectors) == ["a:1:0"] && DeleteDocument(st, "a").removed == 1
  {
    assert Decimal(0) == "0";
    assert ChunkKey("a:1", 0) == "a:1:0";
    var st := AddDocument(Empty, "a:1", ["x"], [None], [], "t").value.store;
    assert st.vectors == [("a:1:0", Chunk("a:1", 0, "x", None))];
    assert StartsWith("a:1:0", "a:");
  }

  /** The per-chunk scores `similaritySearch` collects, in store order. */
  function Scores(st: Store, q: Vector, sqrt: real -> real): (r: seq<Hit>)
    ensures |r| == |st.vectors|
    ensures forall i :: 0 <= i < |r| ==> r[i] == Hit(st.vectors[i].0, st.vectors[i].1.docId, st.vectors[i].1.text,
                                                     Cosine(Some(q), st.vectors[i].1.embedding, sqrt))
  {
    seq(|st.vectors|, i requires 0 <= i < |st.vectors| =>
      Hit(st.vectors[i].0, st.vectors[i].1.docId, st.vectors[i].1.text, Cosine(Some(q), st.vectors[i].1.embedding, sqrt)))
  }

  /** `similaritySearch(queryEmbedding, topK)`. */
  function SimilaritySearch(st: Store, q: Vector, topK: int, sqrt: real -> real): (r: seq<Hit>)
    ensures SortedDesc(r)
    ensures |r| <= |st.vectors| && r == Sort(Scores(st, q, sqrt))[..|r|]
    ensures topK >= 0 ==> |r| == if topK < |st.vectors| then topK else |st.vectors|
    ensures topK < 0 ==> |r| == if |st.vectors| + topK > 0 then |st.vectors| + topK else 0
    ensures topK >= |st.vectors| ==> multiset(r) == multiset(Scores(st, q, sqrt))
    ensures forall h :: h in r ==> h in Scores(st, q, sqrt)
    ensures IsSqrt(sqrt) ==> forall h :: h in r ==> -1.0 <= h.similarity <= 1.0
  {
    var all := Scores(st, q, sqrt);
    var r := TopK(all, topK);
    assert forall h :: h in r ==> h in all by {
      PrefixOfSortIn(all, r);
    }
    assert topK >= |all| ==> multiset(r) == multiset(all) by {
      if topK >= |all| {
        assert r == Sort(all);
      }
    }
    assert IsSqrt(sqrt) ==> forall h :: h in all ==> -1.0 <= h.similarity <= 1.0 by {
      if IsSqrt(sqrt) {
        ScoresBounded(st, q, sqrt);
      }
    }
    r
  }

  /** A prefix of the sorted hits holds only hits that were scored. */
  lemma PrefixOfSortIn(all: seq<Hit>, r: seq<Hit>)
    requires |r| <= |all| && r == Sort(all)[..|r|]
    ensures forall h :: h in r ==> h in all
  {
    forall h | h in r ensures h in all {
      assert h in multiset(Sort(all));
    }
  }

  /** With a true square root every score lies in [-1, 1]. */
  lemma ScoresBounded(st: Store, q: Vector, sqrt: real -> real)
    requires IsSqrt(sqrt)
    ensures forall h :: h in Scores(st, q, sqrt) ==> -1.0 <= h.similarity <= 1.0
  {
    var all := Scores(st, q, sqrt);
    forall h | h in all ensures -1.0 <= h.similarity <= 1.0 {
      var i :| 0 <= i < |all| && all[i] == h;
      assert h.similarity == Cosine(Some(q), st.vectors[i].1.embedding, sqrt);
    }
  }

  /** An empty store finds nothing. */
  lemma SearchEmpty(q: Vector, topK: int, sqrt: real -> real)
    ensures SimilaritySearch(Empty, q, topK, sqrt) == []
  {
  }

  /** Returned results with equal scores come in the order their chunks
      were stored: they are the first stored chunks with that score. */
  lemma SearchTieOrder(st: Store, q: Vector, topK: int, sqrt: real -> real, v: real)
    ensures var ties := WithScore(SimilaritySearch(st, q, topK, sqrt), v);
      |ties| <= |WithScore(Scores(st, q, sqrt), v)| && ties == WithScore(Scores(st, q, sqrt), v)[..|ties|]
  {
    var all := Scores(st, q, sqrt);
    var r := SimilaritySearch(st, q, topK, sqrt);
    SortStable(all, v);
    WithScorePrefix(Sort(all), |r|, v);
  }

  /** A returned chunk scores at least as high as any stored chunk the search
      leaves out. */
  lemma SearchDominates(st: Store, q: Vector, topK: int, sqrt: real -> real, h: Hit)
    requires h in Scores(st, q, sqrt) && h !in SimilaritySearch(st, q, topK, sqrt)
    ensures forall g :: g in SimilaritySearch(st, q, topK, sqrt) ==> g.similarity >= h.similarity
  {
    TopKDominates(Scores(st, q, sqrt), topK, h);
  }

  /** What the embedding service answered: the `embeddings` field of the
      response (absent or present), or a failed request with its message. */
  datatype EmbedReply = Embeddings(embeddings: Option<seq<Vector>>) | RequestError(message: string)

  /** `generateEmbedding(text)` given the service's reply: the first
      embedding, or the error it throws. */
  function GenerateEmbedding(reply: EmbedReply): (r: Result<Vector, string>)
    ensures r.Success? <==> reply.Embeddings? && reply.embeddings.Some? && |reply.embeddings.value| > 0
    ensures r.Success? ==> r.value == reply.embeddings.value[0]
    ensures r.Failure? ==> StartsWith(r.error, "Embedding generation failed: ")
  {
    var prefix := "Embedding generation failed: ";
    match reply
    case Embeddings(Some(vs)) =>
      if |vs| > 0 then Success(vs[0]) else Failure(prefix + "No embeddings returned from Ollama")
    case Embeddings(None) => Failure(prefix + "No embeddings returned from Ollama")
    case RequestError(m) => Failure(prefix + m)
  }

  /** The embedding of one text, or `null` when generating it failed. */
  function EmbeddingOrNull(reply: EmbedReply): (r: Option<Vector>)
    ensures r.None? <==> GenerateEmbedding(reply).Failure?
    ensures r.Some? ==> r.value == GenerateEmbedding(reply).value
  {
    match GenerateEmbedding(reply)
    case Success(v) => Some(v)
    case Failure(_) => None
  }

  /** What `generateEmbeddingsBatch(chunks)` answers, as a value: entry `i`
      is the embedding of chunk `i`, or `null`. */
  function BatchEmbeddings(chunks: seq<string>, embed: string -> EmbedReply): (r: seq<Option<Vector>>)
    ensures |r| == |chunks|
  {
    seq(|chunks|, i requires 0 <= i < |chunks| => EmbeddingOrNull(embed(chunks[i])))
  }

  /** `generateEmbeddingsBatch(chunks)`: one entry per chunk, in order, `null`
      where the embedding call failed. */
  method EmbedBatch(chunks: seq<string>, embed: string -> EmbedReply) returns (r: seq<Option<Vector>>)
    ensures |r| == |chunks|
    ensures forall i :: 0 <= i < |chunks| ==> (r[i].None? <==> GenerateEmbedding(embed(chunks[i])).Failure?)
    ensures forall i :: 0 <= i < |chunks| && r[i].Some? ==> r[i].value == GenerateEmbedding(embed(chunks[i])).value
    ensures r == BatchEmbeddings(chunks, embed)
  {
    r := [];
    for k := 0 to |chunks|
      invariant |r| == k
      invariant forall i :: 0 <= i < k ==> (r[i].None? <==> GenerateEmbedding(embed(chunks[i])).Failure?)
      invariant forall i :: 0 <= i < k && r[i].Some? ==> r[i].value == GenerateEmbedding(embed(chunks[i])).value
    {
      match GenerateEmbedding(embed(chunks[k])) {
        case Success(v) => r := r + [Some(v)];
        case Failure(_) => r := r + [None];
      }
    }
  }

  /** `query(question, topK)`: embed the question, then search; an embedding
      failure is rethrown. */
  function Query(st: Store, reply: EmbedReply, topK: int, sqrt: real -> real): (r: Result<seq<Hit>, string>)
    ensures r.Failure? <==> GenerateEmbedding(reply).Failure?
    ensures r.Success? ==> r.value == SimilaritySearch(st, GenerateEmbedding(reply).value, topK, sqrt)
  {
    match GenerateEmbedding(reply)
    case Success(q) => Success(SimilaritySearch(st, q, topK, sqrt))
    case Failure(e) => Failure(e)
  }
}

=== FILE: wrappers.dfy ===
/** The optional-value and outcome types shared by every module of the model:
    `Option` stands for JavaScript's `null`/`undefined`-or-value, and
    `Result` for a value-or-thrown-error outcome. */
module Wrappers {

  datatype Option<+T> = None | Some(value: T)

  datatype Result<+T, +E> = Success(value: T) | Failure(error: E)
}
